=== FILE: README.md ===
# bim_normcad_check: a Dafny model of the deterministic core

bim_normcad_check takes structural elements extracted from IFC building
models and checks them against Russian design codes. Part of that work is
sent to an external calculation server (NormCAD, driven through COM). The
rest is plain logic, and that logic is what this project models and proves
things about:

- **Load calculators** for SP 20.13330.2016:
  - self-weight, with a material density table, keyword fallbacks and a
    volume resolution (`self_weight.dfy`);
  - snow load, with the region table, the roof-shape coefficient mu, drift
    and parapet notes, S0 and S (`snow_load.dfy`);
  - wind load, with the region and terrain tables, k(ze) and zeta(ze), the
    correlation coefficient nu, the sign-keeping combination and the
    four-surface building run (`wind_load.dfy`).

  Each calculator comes with its extractor, which builds the calculator's
  parameters from one IFC element record (`element.dfy`).
- **The variable-name encoder `VN`**, in both variants (`var_names.dfy`).
- **Driver loops around the calculation server.** The server is an oracle
  parameter:
  - the max-fold of `calc_ncresult`, `_max` and `_parse_csv_strings`
    (`nc_result.dfy`);
  - the search for the first passing rebar-diameter combination in
    `_calc_for_row` (`rebar_search.dfy`).
- **Helpers of the IFC extractor** (`ifc_extract.dfy`): the URL test, the
  bounding box of a shape, material de-duplication, the heuristic length
  and `--types` parsing.

`text.dfy` holds the Python string operations these rely on: `strip`,
`lower`, `in`, `split`, `join` and `replace`. `tables.dfy` holds the
ordered lookup tables that stand in for the source's dictionaries.
`wrappers.dfy` holds `Option` and `Result`.

## Modelling choices

- **Numbers** are Dafny `real`: exact arithmetic, no IEEE rounding.
- **Real powers.** The `**` with a real exponent in `calculate_k_ze` is a
  parameter `pow`. Properties that need a fact about it, such as
  `pow(1, e) == 1` or positivity, take that fact as a precondition.
- **Notes** are tagged datatypes that carry the values they print. The
  formatted text is not modelled.
- **Errors.** Exceptions the source can raise become `Result` failures:
  - the correlation coefficient divides by zero when `W + L = -12.5 H`;
  - the wind extractor calls `.get` on a `null` placement;
  - `_parse_csv_strings` raises on an empty list.

  An exception that the source swallows, such as `min` of an empty axis in
  `compute_bbox_from_shape`, becomes the value the handler returns.
- **The calculation server** is a function from the command sent to the
  reading it leaves in `Result`. `None` stands for a reading that `float`
  cannot convert, which the loops count as 1e9.
- **The nested loops of `_calc_for_row`** are modelled as four nested
  loops over a `score` function of the loop indices. `Index` numbers their
  steps, and `IndexOrder` proves that this numbering is the loops'
  lexicographic order.

**Behaviour of the code worth noting:**

- `calculate_self_weight` keeps the input volume when it cannot find a
  volume, even a negative one, rather than setting it to 0. See
  `SelfWeight.ResolveVolume`.
- `calculate_correlation_coefficient` is not total, because its
  denominator `1 + 0.8 (rho + chi)` can be zero. See `WindLoad.Correlation`.
- `extract_wind_params_from_ifc_element` reads the height from the
  placement in metres unconditionally (z / 1000). The self-weight extractor
  applies a magnitude check instead.

## Model

| member | source | states |
|---|---|---|
| SelfWeight.CollapseSeps | checks/self_weight.py:135-136 | every maximal run of whitespace, `-` and `_` becomes one `_`: no separator is left but `_`, no two `_` are adjacent, the other characters are kept in order, and the first character is `_` exactly when the input starts with a separator |
| SelfWeight.Normalize | checks/self_weight.py:128-137 | "" stays ""; otherwise the result is collapsed, fully lower-case, and holds exactly the non-separator characters of the lower-cased input |
| SelfWeight.NormalizeFixedPoints | checks/self_weight.py:128-137 | a name is its own normal form exactly when it is collapsed and lower-case |
| SelfWeight.NormalizeIdempotent | checks/self_weight.py:128-137 | normalising twice is normalising once |
| SelfWeight.CollapseRun | checks/self_weight.py:135 | a maximal run of separators, with no separator right before or after it, becomes exactly one `_` in its place, and the text on each side is collapsed on its own; this holds at the ends of the string too |
| SelfWeight.CollapseLeadingRun | checks/self_weight.py:135 | a leading run of separators becomes one `_` in front of the collapsed rest |
| SelfWeight.CollapseAppend | checks/self_weight.py:135 | a string cut just after a non-separator collapses as its two halves collapsed separately |
| SelfWeight.CollapseFree | checks/self_weight.py:135 | a string without whitespace, `-` or `_` is unchanged |
| SelfWeight.CollapseWords | checks/self_weight.py:135 | two separator-free words around a run of separators become the words joined by one `_` |
| SelfWeight.NormalizeStrip | checks/self_weight.py:134 | whitespace around a name does not change its normal form |
| SelfWeight.NormalizeWords | checks/self_weight.py:128-137 | two separator-free words around a run of separators, padded with whitespace on both sides, normalise to the lower-cased words joined by one `_` |
| Text.LowerStrip | checks/self_weight.py:134 | lower-casing and `strip` commute, so the order of the two calls does not matter |
| SelfWeight.AnyKeyword | checks/self_weight.py:172-174 | the inner keyword loop succeeds exactly when some keyword of the group occurs in the name |
| SelfWeight.FirstMatch | checks/self_weight.py:161-177 | no group applies exactly when no group's keyword occurs; otherwise the density is that of the first group in order (steel, wood, concrete, brick, aluminium, glass, gypsum) that matches |
| SelfWeight.DensitiesPositive | checks/self_weight.py:32-66 | every table density and every keyword-group density is positive |
| SelfWeight.NothingEmpty | checks/self_weight.py:32-66 | no table key and no keyword is empty |
| SelfWeight.LookupNormalized | checks/self_weight.py:154-177 | an exact key gives its table value tagged lookup; otherwise the first matching keyword group; otherwise (2500, default); the result is never custom and is positive |
| SelfWeight.GetMaterialDensity | checks/self_weight.py:140-177 | a positive custom density is returned tagged custom; otherwise an empty name gives (2500, default), and a non-empty one goes through the table, then the keywords, then the default |
| SelfWeight.LookupEmpty | checks/self_weight.py:171-177 | an empty normal form matches no keyword and gets the default density |
| SelfWeight.DensityOfNormalForm | checks/self_weight.py:154-158 | the density depends on the name only through its normal form |
| SelfWeight.NonPositiveCustomIgnored | checks/self_weight.py:148-149 | a custom density of 0 or less is ignored, as if none were given |
| SelfWeight.DensityOfKey | checks/self_weight.py:157-158 | a name in normal form that is a table key gets that key's value tagged lookup |
| SelfWeight.ExactKeyBeforeKeywords | checks/self_weight.py:157-163 | "wood_spruce" gets 450 from the table, not the 500 of the wood keyword group |
| SelfWeight.WoodSpruceBeamDensity | checks/self_weight.py:32-66 | "wood_spruce_beam" is a table key with 450 kg/m3 |
| SelfWeight.ResolveVolume | checks/self_weight.py:206-215 | a positive given volume is used as is; otherwise length times area when both are positive; otherwise the given volume is kept and marked undetermined, which happens exactly when the result is not positive |
| SelfWeight.PerMetre | checks/self_weight.py:230-233 | the load per metre is present exactly when the length is positive, and then times the length it gives back the design weight |
| SelfWeight.PositiveWeights | checks/self_weight.py:218-226 | a positive density, volume and gamma_f give a positive mass, normative weight and design weight |
| SelfWeight.MetresRoundTrip | checks/self_weight.py:281-322 | a length above 100, or a section side above 1, is read as millimetres and gives the value back times 1000; converting a second time changes nothing for a length of at most 100000 or a section side of at most 1000 (a larger value would be divided again) |
| SelfWeight.CalculateSelfWeight | checks/self_weight.py:180-251 | identity fields copied; density and source from the lookup; volume from the resolution; mass = density x volume, normative weight = mass x 9.81/1000 kN, design weight = normative x gamma_f; load per metre from `PerMetre` |
| SelfWeight.SelfWeightNotes | checks/self_weight.py:191-233 | the notes are the density note tagged with its source, then the volume note, then mass, normative and design notes, then the per-metre note exactly when the length is positive: 5 or 6 notes |
| SelfWeight.VolumeWarning | checks/self_weight.py:212-215 | the volume warning is given exactly when the resolved volume is not positive |
| SelfWeight.WeightsPositive | checks/self_weight.py:218-226 | with a positive gamma_f, a positive resolved volume makes the mass and both weights positive |
| SelfWeight.DemoBeam | checks/self_weight.py:439-449 | the demonstration beam (0.054 m3 of wood_spruce_beam, 2.7 m) gives 450 kg/m3 from the table, 24.3 kg, 0.238383 kN, 0.2622213 kN and 0.097119 kN/m |
| SelfWeight.QuantityLength | checks/self_weight.py:274-292 | the column's Length (or else its Height) wins over the beam's Length; both are converted to metres; 0 when neither is given |
| SelfWeight.QuantityArea | checks/self_weight.py:282-294 | the column's CrossSectionArea wins over the beam's; 0 when neither is given |
| SelfWeight.SectionArea | checks/self_weight.py:315-323 | the approximate section supplies b x h only when the quantities gave 0 and both b and h are positive, each side above 1 read as millimetres; an area found this way is positive |
| SelfWeight.ExtractSelfWeightParams | checks/self_weight.py:254-325 | identity from the record; the first material; no custom density and gamma_f 1.1; NetVolume from the last of beam, column, slab and wall that has it; length from the quantities (a value above 100 read as millimetres), else the section's length; area from the quantities, else `SectionArea` |
| SnowLoad.SgIncreasing | checks/snow_load.py:29-38 | Sg rises strictly over regions I to VIII, from 0.5 to 4.0 |
| SnowLoad.RegionSg | checks/snow_load.py:178-183 | a known region gives its Sg with a region note; any other gives 1.5 with a fallback note naming it |
| SnowLoad.Ramp | checks/snow_load.py:102-113 | the shape ramp lies in [0, 1]: 1 up to 60 - span degrees, 0 from 60 degrees |
| SnowLoad.RampMonotone | checks/snow_load.py:102-136 | the ramp never rises with the angle |
| SnowLoad.BaseMu | checks/snow_load.py:99-145 | the shape notes are never empty; the non-uniform warning appears exactly for gable; arch gives 1 with its note; an unknown type gives 1 with a note naming it |
| SnowLoad.BaseMuIsRamp | checks/snow_load.py:102-145 | flat: 1 up to 25 degrees, (60 - a)/35 up to 60, then 0; single_slope and gable: 1 up to 30, (60 - a)/30 up to 60, then 0; any other type: 1 |
| SnowLoad.LocalDriftMu | checks/snow_load.py:148-154 | the local drift coefficient is min(2h + 1, 4), above 1 for a positive height difference |
| SnowLoad.ExtraNotes | checks/snow_load.py:148-158 | the drift detail note appears exactly for an adjacent roof with a positive height difference; the parapet note exactly for a parapet above 0.6 m |
| SnowLoad.Mu | checks/snow_load.py:92-160 | mu is the shape coefficient, in [0, 1]; the notes are the shape notes followed by the drift and parapet notes |
| SnowLoad.MuMonotone | checks/snow_load.py:99-145 | within a roof type, a steeper roof never has a larger mu |
| SnowLoad.SingleSlopeMatchesGable | checks/snow_load.py:115-136 | single_slope and gable give the same mu at every angle; only gable carries the warning |
| SnowLoad.DriftKeepsMu | checks/snow_load.py:148-158 | the drift and parapet inputs change only the notes, never mu |
| SnowLoad.SnowValues | checks/snow_load.py:199-204 | S0 = Sg x mu x Ce x Ct and S = 1.4 x S0; with non-negative factors 0 <= S0 <= S |
| SnowLoad.TotalLoad | checks/snow_load.py:208-211 | total = S x area, non-negative for non-negative S and area |
| SnowLoad.LoadNotes | checks/snow_load.py:193-211 | the Ce note appears exactly when Ce is not 1, the Ct note exactly when Ct is not 1, the total note exactly when the area is positive; S0 and S notes always |
| SnowLoad.CalculateSnowLoad | checks/snow_load.py:163-226 | identity copied; Sg from the region table; mu from `Mu`; S0 and S from `SnowValues`; area = max(area, 0); total from `TotalLoad`; the notes are the region note, then mu's notes, then the load notes |
| SnowLoad.SnowNotes | checks/snow_load.py:163-226 | the first note is the region or fallback note; the Ce, Ct and total notes appear in the result exactly under their conditions |
| SnowLoad.DemoRoof | checks/snow_load.py:360-369 | region III, flat, 10 degrees, 100 m2 gives Sg 1.5, mu 1, S0 1.5, S 2.1 and a total of 210 |
| SnowLoad.SnowArea | checks/snow_load.py:246-258 | Pset_RoofCommon ProjectedArea wins, then the slab's GrossArea, then its NetArea, else 0 |
| SnowLoad.ExtractSnowParams | checks/snow_load.py:229-260 | identity from the record, the area from `SnowArea`, every other field at its default (region III, 0 degrees, flat, Ce = Ct = 1, no adjacent roof, no parapet) |
| WindLoad.W0Increasing | checks/wind_load.py:31-40 | w0 rises strictly over regions Ia to VII, from 0.17 to 0.85 |
| WindLoad.RegionW0 | checks/wind_load.py:213-217 | a known region gives its w0 with a note; any other gives 0.38 with a fallback note naming it |
| WindLoad.TerrainChoice | checks/wind_load.py:220-226 | a known terrain is kept with a note; any other falls back to B with a note naming it |
| WindLoad.TerrainParams | checks/wind_load.py:47-66 | every terrain has positive alpha, k10, zeta10 and z0; an unknown terrain uses B's |
| WindLoad.KZe | checks/wind_load.py:147-173 | k and zeta are positive whenever the power is positive on positive bases |
| WindLoad.KZeUnknownTerrain | checks/wind_load.py:157 | an unknown terrain gives the same k and zeta as terrain B |
| WindLoad.KZeClamp | checks/wind_load.py:164-165 | every height at or below z0 gives the same k and zeta as z0 |
| WindLoad.KZeReferenceHeight | checks/wind_load.py:167-171 | on terrain B at the reference height 10 m, k = 0.65 and zeta = 1.06 |
| WindLoad.LowElementOnTerrainB | checks/wind_load.py:164-171 | on terrain B a 2 m height is clamped to z0 = 10 m |
| WindLoad.Correlation | checks/wind_load.py:176-191 | nu fails with a division by zero exactly when 1 + 0.8 (rho + chi) = 0; otherwise it lies in [0.4, 1] |
| WindLoad.CorrelationRegimes | checks/wind_load.py:190-191 | nu is 1 for a denominator in (0, 1], 0.4 from 2.5 on or for a negative denominator, and 1 / denominator in between |
| WindLoad.AeroCoefficient | checks/wind_load.py:194-198 | a custom value is used whenever one is given, even 0 or negative; otherwise the table value, or 0.8 for an unknown surface |
| WindLoad.BuildingSurfaceCoefficients | checks/wind_load.py:74-81 | windward 0.8, leeward -0.5, side -0.6, roof_flat -0.7 |
| WindLoad.PulsationLoad | checks/wind_load.py:257 | wp = abs(wm) x zeta x nu, non-negative for non-negative zeta and nu |
| WindLoad.Pulsation | checks/wind_load.py:246-261 | fails exactly when nu is recomputed (pulsation on, W > 0, H > 0) and the correlation divides by zero; nu is recomputed from rho = W/(10H) and chi = L/(10H) exactly under those conditions and is the caller's otherwise; wp is `PulsationLoad` with pulsation on and 0 with it off |
| WindLoad.CombineMagnitude | checks/wind_load.py:264-268 | for wp >= 0, abs(w) = abs(wm) + wp >= abs(wm), and the sign of a non-zero wm is kept |
| WindLoad.MeanLoadSign | checks/wind_load.py:242 | with positive w0 and k, wm = w0 k c is pressure exactly for c > 0 and suction exactly for c < 0, and it doubles with w0 |
| WindLoad.EquivalentHeightPositive | checks/wind_load.py:229 | ze is the element height or the building height, and it is positive when either of them is |
| WindLoad.PlacementMillimetres | checks/wind_load.py:322-325 | a placement with three coordinates gives a height that times 1000 is its z coordinate; without one the height is 0 |
| WindLoad.WindTotal | checks/wind_load.py:277-279 | total = abs(w_calc) x area, non-negative for a non-negative area |
| WindLoad.LateNotes | checks/wind_load.py:258-287 | the correlation note exactly with pulsation on, the no-pulsation note exactly with it off, the total note exactly for a positive area, and the directions note last |
| WindLoad.CalculateWindLoad | checks/wind_load.py:201-306 | fails exactly when the correlation divides by zero; otherwise w0 and the terrain come from the tables; ze is the element height when positive, else the building height; k and zeta come from `KZe` at ze; wm = w0 k c; nu and wp come from `Pulsation`; w_norm = wm + wp for wm >= 0 and wm - wp otherwise; w_calc = 1.4 w_norm; area = max(area, 0); total from `WindTotal`; directions are 0, 90, 180 and 270 degrees |
| WindLoad.WindMagnitudes | checks/wind_load.py:257-279 | with a positive power and a non-negative nu, wp >= 0, abs(w_norm) >= abs(wm), and the total is non-negative |
| WindLoad.WindNotes | checks/wind_load.py:201-306 | the notes open with the region and terrain notes; the correlation, no-pulsation and total notes appear exactly under their conditions; the directions note is last |
| WindLoad.SurfaceParams | checks/wind_load.py:366-377 | a surface's parameters carry its area, height and type and the building's dimensions, with pulsation on and no custom coefficient |
| WindLoad.SurfaceLoad | checks/wind_load.py:379 | one surface fails exactly when the building's correlation divides by zero |
| WindLoad.RunSurfaces | checks/wind_load.py:365-379 | the loop fails exactly when some surface fails; otherwise it holds one entry per surface, in order, keyed by its type |
| WindLoad.WindForBuilding | checks/wind_load.py:343-381 | fails exactly when the building's correlation divides by zero; otherwise the entries are windward and leeward (W x H at H/2), side (L x H at H/2) and roof_flat (W x L at H), in that order |
| WindLoad.ExtractWindParamsAsWritten | checks/wind_load.py:309-340 | the extractor as written fails exactly on a record whose placement is null |
| WindLoad.UnplacedWallRejected | checks/wind_load.py:322-323 | a wall record with a null placement and a gross side area is rejected |
| WindLoad.ExtractWindParams | checks/wind_load.py:309-340 | identity from the record; the height is xyz[2] / 1000 from a placement with at least three coordinates and 0 otherwise; the width is the section's b / 1000; the area is GrossSideArea or 0; every other field at its default (region III, terrain B, building 10 x 20 x 30 m, windward, pulsation on, nu 0.8) |
| WindLoad.ExtractorsAgree | checks/wind_load.py:309-340 | wherever the extractor as written succeeds, the corrected one gives the same parameters; the corrected one also reads the unplaced wall |
| VarNames.VN | self_made_vb_modules/1.py:49-65 | the result contains no space, `.`, `-`, `(` or `)`; a name without them is returned unchanged |
| VarNames.VNSpace | self_made_vb_modules/1.py:59 | a space between parts without reserved characters becomes `_spc_`, in both variants |
| VarNames.VNMinus | self_made_vb_modules/1.py:62 | a `-` between parts without reserved characters becomes `_minus_`, in both variants |
| VarNames.VNOpenBracket | self_made_vb_modules/1.py:63 | a `(` between parts without reserved characters becomes `_bkt1_`, in both variants |
| VarNames.VNCloseBracket | self_made_vb_modules/1.py:64 | a `)` between parts without reserved characters becomes `_bkt2_`, in both variants |
| VarNames.VNDoubleDot | self_made_vb_modules/1.py:60-62 | `..` between dot-free parts is encoded as `_zpt_` |
| VarNames.VNDot | self_made_vb_modules/1.py:60-61 | a single dot between dot-free parts is encoded as `_pnt_` |
| VarNames.VNTripleDot | self_made_vb_modules/1.py:60-62 | `...` is encoded as `_zpt__pnt_`: the double dot is taken first |
| VarNames.VNSingleDot | official_examples/armirovanie_pliti.py:52-66 | the variant without the `..` rule: no reserved character survives, and a name without them is unchanged |
| VarNames.VNSingleDotOnDoubleDot | official_examples/armirovanie_pliti.py:61-62 | this variant encodes `..` as `_pnt__pnt_` |
| VarNames.VariantsDiffer | official_examples/armirovanie_pliti.py:52-66 | the two variants give different results on every name that contains `..` |
| NcResult.Max2 | self_made_vb_modules/1.py:74-75 | `_max` is the larger of its arguments and one of them |
| NcResult.Reading | self_made_vb_modules/1.py:234-237 | a readable result is its value; an unreadable one counts as 1e9 |
| NcResult.FoldMax | self_made_vb_modules/1.py:231-239 | folding `_max` from a start value gives the largest of the start value and all values: it bounds all of them and is one of them |
| NcResult.CheckLoop | self_made_vb_modules/1.py:230-240 | one (check, reading) pair per check, in order; the result is at least 0 and every reading, and is 0 or one of the readings |
| NcResult.CalcNcResult | self_made_vb_modules/1.py:230-240 | the same, with check `i` run as the command `"S_" + VN(check)` |
| NcResult.ParseCsvStrings | self_made_vb_modules/1.py:276-281 | fails exactly when every comma-separated piece is blank; otherwise every item is non-empty, stripped and comma-free |
| NcResult.ParseJoined | self_made_vb_modules/1.py:276-281 | a non-empty list of non-blank, stripped, comma-free items joined with commas parses back to itself |
| NcResult.DefaultChecksParse | self_made_vb_modules/1.py:290 | the default of `--checks` parses back to the module's default checks |
| Text.NonEmptyAppend | self_made_vb_modules/1.py:277-278 | dropping blank items keeps the order: the filter distributes over concatenation |
| RebarSearch.ComboAt | official_examples/armirovanie_pliti.py:83 | every diameter of a combination is one of 10, 12, 14, 16 and 20 |
| RebarSearch.IndexOrder | official_examples/armirovanie_pliti.py:164-167 | the step count of the nested loops (ix outermost, jy innermost) is the lexicographic order of the indices, tells steps apart, and is below 625 |
| RebarSearch.MaxRBounds | official_examples/armirovanie_pliti.py:173-188 | max_r of a combination is at least 0 and every reading of its four checks, and is 0 or one of them |
| RebarSearch.ComboTextFields | official_examples/armirovanie_pliti.py:191 | the combination text has 17 characters, with bottom x, top x, bottom y and top y at fixed places: "ix x jx / iy x jy" |
| RebarSearch.NatTextValue | official_examples/armirovanie_pliti.py:191 | `int(x)` is written in decimal digits that read back as the number, with a leading `0` only for 0 |
| RebarSearch.DiameterTexts | official_examples/armirovanie_pliti.py:191 | the diameters are written "10", "12", "14", "16" and "20" |
| RebarSearch.ComboTextReadBack | official_examples/armirovanie_pliti.py:191 | the four two-digit fields of a combination's text read back as ix, jx, iy and jy, in that order |
| RebarSearch.ComboTextExample | official_examples/armirovanie_pliti.py:191 | ix = 10, iy = 12, jx = 14, jy = 16 is written "10 x 14 / 12 x 16" |
| RebarSearch.ExploredStep | official_examples/armirovanie_pliti.py:190-196 | one more failing step extends the explored prefix: all failed, and the best so far is the largest max_r |
| RebarSearch.Search | official_examples/armirovanie_pliti.py:164-198 | either the first step in loop order whose score is at most 1, with that score (every earlier step scoring above 1), or none, when every step scores above 1 and the result is the largest score, itself above 1 |
| RebarSearch.CalcForRow | official_examples/armirovanie_pliti.py:150-198 | the text of the first combination in loop order whose four checks all pass, with its max_r; or no combination and the largest max_r of all, which is above 1 |
| IfcExtract.IsUrlPrefix | ifc_extract.py:40-41 | a URL stays a URL whatever follows; it starts with "http"; a source whose first character is not `h` is a path |
| IfcExtract.IsUrlCases | ifc_extract.py:40-41 | http and https sources are URLs; a file name, an upper-case `HTTP://`, another scheme and a malformed `http:/` are paths |
| IfcExtract.Stride | ifc_extract.py:142-144 | `verts[k::3]`: value i is verts[k + 3i], and the stride runs to the end of the list |
| IfcExtract.ComputeBbox | ifc_extract.py:135-155 | no box exactly for fewer than 3 values (empty list, or an empty axis on which `min` raises); otherwise size = max - min per axis, never negative |
| IfcExtract.BboxContains | ifc_extract.py:142-148 | every value lies between the minimum and the maximum of its axis (its position modulo 3) |
| IfcExtract.BboxMinAttained | ifc_extract.py:145-147 | the minimum of each axis is one of that axis's values |
| IfcExtract.BboxMaxAttained | ifc_extract.py:145-147 | the maximum of each axis is one of that axis's values |
| IfcExtract.HeuristicLength | ifc_extract.py:187-194 | the heuristic length is written exactly when geometry is on and a box was found, and then it is the largest side of the box |
| IfcExtract.HeuristicLengthOfShape | ifc_extract.py:190-194 | a shape with a vertex gets a heuristic length, and it is never negative |
| IfcExtract.Dedup | ifc_extract.py:110-117 | the output has the same names as the input, no repeats, and names in order of their first occurrence |
| IfcExtract.ParseTypes | ifc_extract.py:254 | no classes exactly when every comma-separated piece is blank; otherwise every class is non-empty, stripped and comma-free |
| IfcExtract.ClassesToScan | ifc_extract.py:199-205 | the given classes, or the six default structural classes when none or an empty list are given |
| IfcExtract.TypesOption | ifc_extract.py:254 | the empty `--types` scans the default classes; a comma-joined list of classes is scanned as written, in order |

## Left out

- COM automation of the calculation server, and the report generation of
  `ncApi.Report`. The server's answers are an oracle parameter.
- File, spreadsheet, JSONL and HTTP I/O, logging, argparse `main`s and the
  `__main__` demonstrations, except where a demonstration's numbers are
  stated as a lemma.
- The exact text and float formatting of notes. Notes are tags that carry
  their values.
- IEEE floating-point rounding. Numbers are exact reals.
- `_fix_mojibake_cp1251`. The check and condition names appear already
  decoded, for example `8.4 СП 52-103`.
- `str.lower` beyond ASCII, Latin-1 and basic Cyrillic. Other scripts are
  left unchanged.
- Reading values from property sets: numbers are taken as already
  converted by `float`.
- WindLoad.KZe: states positivity only; the clamp, the unknown-terrain fallback and the values at 10 m are separate lemmas. `**` with a real
  exponent is a parameter, so there are no concrete k values away from the
  reference height.
- NcResult.CalcNcResult: the server's reading depends only on the command
  sent. A reading left over from an earlier command is not modelled.
- RebarSearch.CalcForRow: takes the checks' commands as a parameter. The
  module's `CheckCommands` is the value the source passes. Its contract
  therefore does not restate the four command strings.
- The two duplicate copies of `VN` in snow_overhang_calc.py and
  report_example.py are identical to the one in
  self_made_vb_modules/1.py, so one model covers them.
- `extract_placement_xyz`, `extract_psets` and the element walk of
  ifc_extract.py call ifcopenshell. The model takes their output as given,
  in the shape of the `Element.ElementRecord` datatype. Its `name` is
  optional, because `element_record` writes `null` for an element whose IFC
  `Name` is unset; the three extractors copy it into `element_name`
  unchanged, `null` included. `element_record` never writes
  `section_approx`, so the calculators' section fallbacks only apply to
  records produced elsewhere.
- `pretty_print` in ifc_extract.py. It is console output.
- `prepare_normcad_*_data` and `process_ifc_data`. They are repackaging
  and I/O.

## Findings

| source | as written | input that shows it | evidently intended | confidence | as-written member | corrected member |
|---|---|---|---|---|---|---|
| checks/wind_load.py:322-323 | `element.get("placement", {})` returns `None` when the record holds `"placement": null`, which the extractor writes when the placement cannot be read; the next `.get` then raises `AttributeError` | a wall record with `"placement": null` and `GrossSideArea` 12 (`WindLoad.UnplacedWall`) | treat a null placement as a missing one: height 0, the other fields read as usual | not executed | WindLoad.ExtractWindParamsAsWritten | WindLoad.ExtractWindParams |

=== FILE: element.dfy ===
/** One line of the extractor's JSONL output: an IFC element flattened into
    identifiers, material names, property/quantity sets and a placement. The
    load calculators' extractors read these records. Numeric property values
    are taken as already decoded to numbers. */
module Element {
  import opened Wrappers

  /** The `placement` entry of a record: missing altogether, written as
      JSON `null` (the extractor does this when the placement cannot be
      read), or an object that may carry an `xyz` list. */
  datatype Placement =
    | NoPlacement
    | NullPlacement
    | PlacementDict(xyz: Option<seq<real>>)

  /** Property sets map a set name (`Qto_BeamBaseQuantities`, ...) to its
      named values. */
  type PropertySets = map<string, map<string, real>>

  /** An element's `name`: `None` is the JSON `null` the extractor writes
      for an element whose optional IFC `Name` is unset. The calculators
      copy it into their results unchanged. */
  type ElementName = Option<string>

  datatype ElementRecord = ElementRecord(
    globalId: string,
    name: ElementName,
    ifcClass: string,
    materials: seq<string>,
    psets: PropertySets,
    section: map<string, real>,
    placement: Placement)

  /** `psets.get(set, {})`. */
  function PropertySet(psets: PropertySets, setName: string): map<string, real> {
    if setName in psets then psets[setName] else map[]
  }

  /** The area a calculator multiplies by (`area if area > 0 else 0.0`):
      a negative or zero area counts as none. */
  function LoadedArea(area: real): (a: real)
    ensures a >= 0.0 && a >= area
    ensures area > 0.0 ==> a == area
  {
    if area > 0.0 then area else 0.0
  }

  /** `d.get(key, default)` on a map of numbers. */
  function GetOr(d: map<string, real>, key: string, default: real): real {
    if key in d then d[key] else default
  }
}

=== FILE: ifc_extract.dfy ===
/** The pure helpers of the IFC extractor: the URL test on the source
    argument, the bounding box of a triangulated shape, the order-keeping
    de-duplication of material names, the heuristic member length and the
    parsing of the `--types` option into the classes to scan. */
module IfcExtract {
  import opened Wrappers
  import opened Text

  // ---------------------------------------------------------------------
  // Source argument
  // ---------------------------------------------------------------------

  /** `is_url`: the source is downloaded exactly when it starts with
      `http://` or `https://`. */
  predicate IsUrl(s: string) {
    StartsWith(s, "http://") || StartsWith(s, "https://")
  }

  /** The scheme test is exact and case-sensitive: plain and secure HTTP
      are URLs; a file name, an upper-case scheme or another scheme is a
      local path. */
  lemma IsUrlCases()
    ensures IsUrl("http://host/model.ifc") && IsUrl("https://host/model.ifc")
    ensures !IsUrl("model.ifc") && !IsUrl("HTTP://host/model.ifc")
    ensures !IsUrl("ftp://host/model.ifc") && !IsUrl("http:/model.ifc")
  {
    assert "http://host/model.ifc"[..7] == "http://";
    assert "https://host/model.ifc"[..8] == "https://";
    IsUrlPrefix("model.ifc", "");
    IsUrlPrefix("HTTP://host/model.ifc", "");
    IsUrlPrefix("ftp://host/model.ifc", "");
    var u := "http:/model.ifc";
    assert u[..7][6] != "http://"[6];
    assert u[..8][4] != "https://"[4];
  }

  /** Whether a source is a URL is decided by its first characters alone:
      anything may follow the scheme, and a URL always begins with `http`. */
  lemma IsUrlPrefix(s: string, rest: string)
    ensures IsUrl(s) ==> IsUrl(s + rest)
    ensures IsUrl(s) ==> |s| >= 7 && s[..4] == "http"
    ensures |s| > 0 && s[0] != 'h' ==> !IsUrl(s)
  {
    if IsUrl(s) {
      if StartsWith(s, "http://") {
        assert (s + rest)[..7] == s[..7];
        assert s[..4] == s[..7][..4];
      } else {
        assert (s + rest)[..8] == s[..8];
        assert s[..4] == s[..8][..4];
      }
    }
    if |s| > 0 && s[0] != 'h' {
      assert |s| >= 7 ==> s[..7][0] == s[0];
      assert |s| >= 8 ==> s[..8][0] == s[0];
    }
  }

  // ---------------------------------------------------------------------
  // Bounding box of a shape
  // ---------------------------------------------------------------------

  datatype Vec3 = Vec3(x: real, y: real, z: real)

  /** One coordinate of a point: 0 is x, 1 is y, 2 is z. */
  function Axis(v: Vec3, axis: nat): real
    requires axis < 3
  {
    if axis == 0 then v.x else if axis == 1 then v.y else v.z
  }

  /** The dictionary `compute_bbox_from_shape` returns. */
  datatype Bbox = Bbox(min: Vec3, max: Vec3, size: Vec3)

  /** `verts[k::3]`: every third value of the flat vertex list, starting at
      position `k`; value `i` of the result is `verts[k + 3 i]`, and the
      result runs up to the end of the list. */
  function Stride(verts: seq<real>, k: nat): (r: seq<real>)
    ensures |r| > 0 <==> k < |verts|
    ensures forall i :: 0 <= i < |r| ==> k + 3 * i < |verts| && r[i] == verts[k + 3 * i]
    ensures k < |verts| ==> |verts| <= k + 3 * |r|
    decreases |verts| - k
  {
    if k >= |verts| then []
    else
      var rest := Stride(verts, k + 3);
      var r := [verts[k]] + rest;
      forall i | 1 <= i < |r|
        ensures k + 3 * i < |verts| && r[i] == verts[k + 3 * i]
      {
        assert r[i] == rest[i - 1];
        assert k + 3 + 3 * (i - 1) == k + 3 * i;
      }
      r
  }

  /** Python's `min` over a non-empty list. */
  function Min(xs: seq<real>): (m: real)
    requires |xs| > 0
    ensures m in xs
    ensures forall i :: 0 <= i < |xs| ==> m <= xs[i]
  {
    if |xs| == 1 then xs[0]
    else
      var rest := Min(xs[1..]);
      assert forall i :: 1 <= i < |xs| ==> xs[i] == xs[1..][i - 1];
      if xs[0] <= rest then xs[0] else rest
  }

  /** Python's `max` over a non-empty list. */
  function Max(xs: seq<real>): (m: real)
    requires |xs| > 0
    ensures m in xs
    ensures forall i :: 0 <= i < |xs| ==> m >= xs[i]
  {
    if |xs| == 1 then xs[0]
    else
      var rest := Max(xs[1..]);
      assert forall i :: 1 <= i < |xs| ==> xs[i] == xs[1..][i - 1];
      if xs[0] >= rest then xs[0] else rest
  }

  /** `compute_bbox_from_shape` on the shape's flat vertex list
      [x0, y0, z0, x1, ...]. An empty list gives no box, and so does a list
      of one or two values, on which `min` of an empty axis raises and the
      error is swallowed. Otherwise the box holds the per-axis minimum and
      maximum and their difference, which is never negative. */
  function ComputeBbox(verts: seq<real>): (r: Option<Bbox>)
    ensures r.None? <==> |verts| < 3
    ensures r.Some? ==> r.value.size.x >= 0.0 && r.value.size.y >= 0.0 && r.value.size.z >= 0.0
    ensures r.Some? ==> forall a :: 0 <= a < 3 ==> Axis(r.value.size, a) == Axis(r.value.max, a) - Axis(r.value.min, a)
  {
    if |verts| == 0 then None
    else
      var xs := Stride(verts, 0);
      var ys := Stride(verts, 1);
      var zs := Stride(verts, 2);
      if |ys| == 0 || |zs| == 0 then None
      else
        var lo := Vec3(Min(xs), Min(ys), Min(zs));
        var hi := Vec3(Max(xs), Max(ys), Max(zs));
        Some(Bbox(lo, hi, Vec3(hi.x - lo.x, hi.y - lo.y, hi.z - lo.z)))
  }

  /** Every value of the vertex list lies between the minimum and the
      maximum of its axis (its position modulo 3). */
  lemma BboxContains(verts: seq<real>, j: nat)
    requires |verts| >= 3 && j < |verts|
    ensures var b := ComputeBbox(verts).value;
      Axis(b.min, j % 3) <= verts[j] <= Axis(b.max, j % 3)
  {
    var a := j % 3;
    var m := j / 3;
    var s := Stride(verts, a);
    assert j == a + 3 * m;
    assert s[m] == verts[j];
    AxisBounds(verts, a);
  }

  /** The bounds of an axis are the minimum and maximum of its stride. */
  lemma AxisBounds(verts: seq<real>, a: nat)
    requires |verts| >= 3 && a < 3
    ensures |Stride(verts, a)| > 0
    ensures var b := ComputeBbox(verts).value;
      Axis(b.min, a) == Min(Stride(verts, a)) && Axis(b.max, a) == Max(Stride(verts, a))
  {
    assert |Stride(verts, 1)| > 0 && |Stride(verts, 2)| > 0;
  }

  /** The lower bound of an axis is a value of that axis. */
  lemma BboxMinAttained(verts: seq<real>, a: nat)
    requires |verts| >= 3 && a < 3
    ensures exists i :: 0 <= i < |verts| && i % 3 == a && verts[i] == Axis(ComputeBbox(verts).value.min, a)
  {
    var s := Stride(verts, a);
    AxisBounds(verts, a);
    var p := StrideIndex(s, Min(s));
    var i := StrideAt(verts, a, p);
    OnAxis(verts, a, i, Axis(ComputeBbox(verts).value.min, a));
  }

  /** The upper bound of an axis is a value of that axis: with
      `BboxContains` and `BboxMinAttained`, the box is the tightest one
      around the vertices. */
  lemma BboxMaxAttained(verts: seq<real>, a: nat)
    requires |verts| >= 3 && a < 3
    ensures exists i :: 0 <= i < |verts| && i % 3 == a && verts[i] == Axis(ComputeBbox(verts).value.max, a)
  {
    var s := Stride(verts, a);
    AxisBounds(verts, a);
    var q := StrideIndex(s, Max(s));
    var i := StrideAt(verts, a, q);
    OnAxis(verts, a, i, Axis(ComputeBbox(verts).value.max, a));
  }

  /** A position of a value in a list. */
  function StrideIndex(s: seq<real>, v: real): (i: nat)
    requires v in s
    ensures i < |s| && s[i] == v
  {
    if s[0] == v then 0 else 1 + StrideIndex(s[1..], v)
  }

  /** A value at position `i` of the vertex list is a value of axis `i % 3`. */
  lemma OnAxis(verts: seq<real>, a: nat, i: nat, v: real)
    requires i < |verts| && i % 3 == a && verts[i] == v
    ensures exists j :: 0 <= j < |verts| && j % 3 == a && verts[j] == v
  {
  }

  /** The position in the vertex list of the `p`-th value of axis `a`,
      which lies on that axis. */
  lemma StrideAt(verts: seq<real>, a: nat, p: nat) returns (i: nat)
    requires a < 3 && p < |Stride(verts, a)|
    ensures i < |verts| && i % 3 == a && verts[i] == Stride(verts, a)[p]
  {
    i := a + 3 * p;
    StrideAxis(a, p);
  }

  lemma StrideAxis(a: nat, p: nat)
    requires a < 3
    ensures (a + 3 * p) % 3 == a
  {
  }

  /** `heuristic_length` of a record: with geometry on and a box found,
      the largest side of the box; otherwise the field is not written. */
  function HeuristicLength(geom: bool, bbox: Option<Bbox>): (r: Option<real>)
    ensures r.Some? <==> geom && bbox.Some?
    ensures r.Some? ==> r.value >= bbox.value.size.x && r.value >= bbox.value.size.y && r.value >= bbox.value.size.z
    ensures r.Some? ==> r.value == bbox.value.size.x || r.value == bbox.value.size.y || r.value == bbox.value.size.z
  {
    if !geom then None
    else
      match bbox
      case None => None
      case Some(b) =>
        var sides := [b.size.x, b.size.y, b.size.z];
        assert sides[0] == b.size.x && sides[1] == b.size.y && sides[2] == b.size.z;
        Some(Max(sides))
  }

  /** The heuristic length of a shape with at least one vertex is the
      largest extent of its box, so it is never negative. */
  lemma HeuristicLengthOfShape(verts: seq<real>)
    requires |verts| >= 3
    ensures HeuristicLength(true, ComputeBbox(verts)).Some?
    ensures HeuristicLength(true, ComputeBbox(verts)).value >= 0.0
  {
  }

  // ---------------------------------------------------------------------
  // Material names
  // ---------------------------------------------------------------------

  /** The position of the first occurrence of `x` in `xs`. */
  function FirstIndex(xs: seq<string>, x: string): (r: nat)
    requires x in xs
    ensures r < |xs| && xs[r] == x
    ensures forall k :: 0 <= k < r ==> xs[k] != x
  {
    if xs[0] == x then 0 else 1 + FirstIndex(xs[1..], x)
  }

  /** A name not met before position `k` first occurs at `k`. */
  lemma FirstAt(mats: seq<string>, k: nat)
    requires k < |mats| && mats[k] !in mats[..k]
    ensures FirstIndex(mats, mats[k]) == k
  {
    forall m | 0 <= m < k
      ensures mats[m] != mats[k]
    {
      assert mats[m] == mats[..k][m];
    }
  }

  /** The de-duplication loop of `extract_materials`: the names in the
      order of their first occurrence, each once. The output has the same
      names as the input, and of two output names the one met first in
      the input comes first (so none repeats). */
  method Dedup(mats: seq<string>) returns (out: seq<string>)
    ensures forall x :: x in out <==> x in mats
    ensures forall i, j :: 0 <= i < j < |out| ==> FirstIndex(mats, out[i]) < FirstIndex(mats, out[j])
    ensures forall i, j :: 0 <= i < j < |out| ==> out[i] != out[j]
  {
    var seen: set<string> := {};
    out := [];
    for k := 0 to |mats|
      invariant forall x :: x in seen <==> x in out
      invariant forall x :: x in out <==> x in mats[..k]
      invariant forall i :: 0 <= i < |out| ==> out[i] in mats && FirstIndex(mats, out[i]) < k
      invariant forall i, j :: 0 <= i < j < |out| ==> FirstIndex(mats, out[i]) < FirstIndex(mats, out[j])
    {
      var x := mats[k];
      assert mats[..k + 1] == mats[..k] + [x];
      if x !in seen {
        FirstAt(mats, k);
        seen := seen + {x};
        out := out + [x];
      }
    }
    assert mats[..|mats|] == mats;
  }

  // ---------------------------------------------------------------------
  // Classes to scan
  // ---------------------------------------------------------------------

  /** The structural classes scanned when no types are given. */
  const DefaultClasses: seq<string> := ["IfcBeam", "IfcColumn", "IfcMember", "IfcSlab", "IfcWall", "IfcFooting"]

  /** The `--types` option: the non-blank comma-separated items, or `None`
      when there are none. */
  function ParseTypes(types: string): (r: Option<seq<string>>)
    ensures r.Some? ==> |r.value| > 0
    ensures r.Some? ==> forall i :: 0 <= i < |r.value| ==> Item(r.value[i]) && ',' !in r.value[i]
    ensures r.None? <==> forall i :: 0 <= i < |Split(types, ',')| ==> Strip(Split(types, ',')[i]) == ""
  {
    var items := SplitItems(types, ',');
    if items == [] then None else Some(items)
  }

  /** The classes `iter_elements` scans: the given ones, or the default
      structural set when none (or an empty list) is given. */
  function ClassesToScan(classes: Option<seq<string>>): (r: seq<string>)
    ensures |r| > 0
    ensures classes.Some? && |classes.value| > 0 ==> r == classes.value
    ensures classes.None? || classes.value == [] ==> r == DefaultClasses
  {
    match classes
    case None => DefaultClasses
    case Some(cs) => if cs == [] then DefaultClasses else cs
  }

  /** The option's default, the empty string, scans the default classes;
      a list written with commas is scanned as written, in order. */
  lemma TypesOption(items: seq<string>)
    requires |items| > 0
    requires forall i :: 0 <= i < |items| ==> Item(items[i]) && ',' !in items[i]
    ensures ClassesToScan(ParseTypes("")) == DefaultClasses
    ensures ClassesToScan(ParseTypes(Join(items, ','))) == items
  {
    assert Split("", ',') == [""];
    assert Strip("") == "";
    SplitItemsJoin(items, ',');
  }
}

=== FILE: nc_result.dfy ===
/** The driver loop of the slab-reinforcement module: every requested
    check is run on the calculation server and the module's result is the
    largest utilisation seen, with an unreadable result counting as a
    failure. The server is an oracle from the command sent to the reading
    it leaves behind. Also the `_max` helper and the parser of the
    comma-separated `--checks` option. */
module NcResult {
  import opened Wrappers
  import opened Text
  import VarNames

  /** `_max(a, b)`: `a` when it is strictly greater, otherwise `b`. */
  function Max2(a: real, b: real): (r: real)
    ensures r >= a && r >= b
    ensures r == a || r == b
  {
    if a > b then a else b
  }

  /** What an unreadable `Result` counts as: a utilisation far above 1. */
  const Unreadable: real := 1000000000.0

  /** `float(vars_obj.Result)`, with a failed conversion (`None`) read as
      `Unreadable`. */
  function Reading(result: Option<real>): (r: real)
    ensures result.Some? ==> r == result.value
    ensures result.None? ==> r == Unreadable
  {
    match result
    case None => Unreadable
    case Some(v) => v
  }

  /** `_max` folded over `xs` from left to right, starting at `acc`. The
      result is the largest of `acc` and the values: it bounds all of them
      and is one of them. */
  function FoldMax(acc: real, xs: seq<real>): (r: real)
    ensures r >= acc
    ensures forall i :: 0 <= i < |xs| ==> r >= xs[i]
    ensures r == acc || exists i :: 0 <= i < |xs| && r == xs[i]
    decreases |xs|
  {
    if xs == [] then acc
    else
      var prefix := xs[..|xs| - 1];
      var m := FoldMax(acc, prefix);
      assert forall i :: 0 <= i < |prefix| ==> prefix[i] == xs[i];
      Max2(m, xs[|xs| - 1])
  }

  /** The command that runs one check: `"S_" + VN(name)`. */
  function Command(check: string): string {
    "S_" + VarNames.VN(check)
  }

  /** The readings of a list of commands, in order. */
  function Readings(commands: seq<string>, result: string -> Option<real>): (r: seq<real>)
    ensures |r| == |commands|
    ensures forall i :: 0 <= i < |commands| ==> r[i] == Reading(result(commands[i]))
  {
    seq(|commands|, i requires 0 <= i < |commands| => Reading(result(commands[i])))
  }

  /** The check loop of `calc_ncresult` over the checks' commands. It
      records one `(check, reading)` pair per requested check, in order,
      and returns the largest of 0 and all readings. */
  method CheckLoop(checks: seq<string>, commands: seq<string>, result: string -> Option<real>)
    returns (ncResult: real, perCheck: seq<(string, real)>)
    requires |commands| == |checks|
    ensures |perCheck| == |checks|
    ensures forall i :: 0 <= i < |checks| ==>
              perCheck[i] == (checks[i], Reading(result(commands[i])))
    ensures ncResult >= 0.0
    ensures forall i :: 0 <= i < |perCheck| ==> ncResult >= perCheck[i].1
    ensures ncResult == 0.0 || exists i :: 0 <= i < |perCheck| && ncResult == perCheck[i].1
  {
    ncResult := 0.0;
    perCheck := [];
    ghost var readings := Readings(commands, result);
    for k := 0 to |checks|
      invariant |perCheck| == k
      invariant forall i :: 0 <= i < k ==> perCheck[i] == (checks[i], readings[i])
      invariant ncResult == FoldMax(0.0, readings[..k])
    {
      var r := Reading(result(commands[k]));
      perCheck := perCheck + [(checks[k], r)];
      assert readings[..k + 1][..k] == readings[..k];
      ncResult := Max2(ncResult, r);
    }
    assert readings[..|checks|] == readings;
    assert forall i :: 0 <= i < |perCheck| ==> perCheck[i].1 == readings[i];
  }

  /** `calc_ncresult`'s checks: check `i` is run as `"S_" + VN(check)`, and
      its reading is recorded and folded into the result. */
  method CalcNcResult(checks: seq<string>, result: string -> Option<real>)
    returns (ncResult: real, perCheck: seq<(string, real)>)
    ensures |perCheck| == |checks|
    ensures forall i :: 0 <= i < |checks| ==>
              perCheck[i] == (checks[i], Reading(result(Command(checks[i]))))
    ensures ncResult >= 0.0
    ensures forall i :: 0 <= i < |perCheck| ==> ncResult >= perCheck[i].1
    ensures ncResult == 0.0 || exists i :: 0 <= i < |perCheck| && ncResult == perCheck[i].1
  {
    var commands := seq(|checks|, i requires 0 <= i < |checks| => Command(checks[i]));
    ncResult, perCheck := CheckLoop(checks, commands, result);
  }

  /** `_parse_csv_strings`: the non-blank items of a comma-separated list,
      in order (an absent option reads as the empty string). A list with
      no items is a `ValueError`. */
  function ParseCsvStrings(s: Option<string>): (r: Result<seq<string>, string>)
    ensures r.Success? ==> |r.value| > 0
    ensures r.Success? ==> forall i :: 0 <= i < |r.value| ==> Item(r.value[i]) && ',' !in r.value[i]
    ensures r.Failure? <==> forall i :: 0 <= i < |Split(s.GetOr(""), ',')| ==> Strip(Split(s.GetOr(""), ',')[i]) == ""
  {
    var items := SplitItems(s.GetOr(""), ',');
    if items == [] then Failure("empty list") else Success(items)
  }

  /** The checks the module runs by default. */
  const DefaultChecks: seq<string> :=
    ["2.6", "2.7", "2.8", "2.18", "2.20", "8.4 СП 52-103", "8.5 СП 52-103", "5.12"]

  /** A list written with `",".join` parses back to itself, as long as its
      items are non-blank, stripped and comma-free: so the default of the
      `--checks` option parses back to the default checks. */
  lemma ParseJoined(items: seq<string>)
    requires |items| > 0
    requires forall i :: 0 <= i < |items| ==> Item(items[i]) && ',' !in items[i]
    ensures ParseCsvStrings(Some(Join(items, ','))) == Success(items)
  {
    SplitItemsJoin(items, ',');
  }

  /** The `--checks` option's default, the default checks joined with
      commas, parses back to the default checks. */
  lemma DefaultChecksParse()
    ensures ParseCsvStrings(Some(Join(DefaultChecks, ','))) == Success(DefaultChecks)
  {
    ParseJoined(DefaultChecks);
  }
}

=== FILE: rebar_search.dfy ===
/** The per-row search of the slab-reinforcement example: for one row of
    internal forces it tries the bar diameters of the bottom and top layers
    in both directions, runs four strength checks on the calculation server
    for each combination, and stops at the first combination whose largest
    utilisation is at most 1. The server is an oracle from the combination
    and the command sent to the reading it leaves behind. */
module RebarSearch {
  import opened Wrappers
  import NcResult
  import VarNames

  /** `DIAMETERS`, in millimetres. */
  const Diameters: seq<int> := [10, 12, 14, 16, 20]

  /** One combination of bar diameters: bottom x, bottom y, top x, top y
      (the loop variables ix, iy, jx, jy). */
  datatype Combo = Combo(ix: int, iy: int, jx: int, jy: int)

  /** A step of the four nested loops: the positions in `Diameters` of
      ix, iy, jx and jy. */
  datatype Step = Step(a: nat, b: nat, c: nat, d: nat)

  predicate ValidStep(s: Step) {
    s.a < 5 && s.b < 5 && s.c < 5 && s.d < 5
  }

  /** The combination tried at a step. */
  function ComboAt(s: Step): (c: Combo)
    requires ValidStep(s)
    ensures c.ix in Diameters && c.iy in Diameters && c.jx in Diameters && c.jy in Diameters
  {
    Combo(Diameters[s.a], Diameters[s.b], Diameters[s.c], Diameters[s.d])
  }

  /** How many steps the loops take before reaching `s`: ix is the
      outermost loop and jy the innermost. */
  function Index(s: Step): nat {
    125 * s.a + 25 * s.b + 5 * s.c + s.d
  }

  /** The step count orders the steps lexicographically, outermost loop
      first, and tells them apart; there are 5^4 = 625 steps. */
  lemma IndexOrder(s: Step, t: Step)
    requires ValidStep(s) && ValidStep(t)
    ensures Index(s) < 625
    ensures Index(s) < Index(t) <==>
      || s.a < t.a
      || (s.a == t.a && s.b < t.b)
      || (s.a == t.a && s.b == t.b && s.c < t.c)
      || (s.a == t.a && s.b == t.b && s.c == t.c && s.d < t.d)
    ensures Index(s) == Index(t) <==> s == t
  {
  }

  /** The checks run for every combination, by name. */
  const CheckNames: seq<string> := ["6.2.7", "8.4 СП 52-103", "8.5 СП 52-103", "8.3.4"]

  /** The commands that run the checks: `"S_" + VN(name)` with this file's
      `VN`. */
  const CheckCommands: seq<string> :=
    seq(|CheckNames|, i requires 0 <= i < |CheckNames| => "S_" + VarNames.VNSingleDot(CheckNames[i]))

  /** `max_r` of one combination: the largest of 0 and the readings of the
      commands, an unreadable reading counting as a failure. */
  function MaxR(combo: Combo, commands: seq<string>, result: (Combo, string) -> Option<real>): real {
    NcResult.FoldMax(0.0, NcResult.Readings(commands, c => result(combo, c)))
  }

  /** `max_r` is the largest of 0 and the readings: it bounds them all and
      is 0 or one of them. */
  lemma MaxRBounds(combo: Combo, commands: seq<string>, result: (Combo, string) -> Option<real>)
    ensures MaxR(combo, commands, result) >= 0.0
    ensures forall i :: 0 <= i < |commands| ==>
              MaxR(combo, commands, result) >= NcResult.Reading(result(combo, commands[i]))
    ensures || MaxR(combo, commands, result) == 0.0
            || exists i :: 0 <= i < |commands| && MaxR(combo, commands, result) == NcResult.Reading(result(combo, commands[i]))
  {
  }

  /** Python's `max(a, b)`: `a` unless `b` is strictly greater. */
  function Max(a: real, b: real): (r: real)
    ensures r >= a && r >= b
    ensures r == a || r == b
  {
    if b > a then b else a
  }

  /** Decimal digits of a natural number, as `str(int(x))` writes them. */
  function NatText(n: nat): (r: string)
    ensures |r| >= 1
    ensures n >= 10 ==> |r| >= 2
    ensures n < 100 ==> |r| <= 2
    decreases n
  {
    var digit := ['0' + (n % 10) as char];
    if n < 10 then digit else NatText(n / 10) + digit
  }

  predicate IsDigit(ch: char) {
    '0' <= ch <= '9'
  }

  /** The number a string of decimal digits denotes, most significant
      digit first. */
  function DigitsValue(s: string): int
    decreases |s|
  {
    if s == [] then 0 else 10 * DigitsValue(s[..|s| - 1]) + (s[|s| - 1] as int - '0' as int)
  }

  /** `NatText` writes decimal digits that read back as the number, with
      no leading zero. */
  lemma {:induction false} NatTextValue(n: nat)
    ensures forall i :: 0 <= i < |NatText(n)| ==> IsDigit(NatText(n)[i])
    ensures DigitsValue(NatText(n)) == n
    ensures NatText(n)[0] == '0' <==> n == 0
    decreases n
  {
    var r := NatText(n);
    var digit := ['0' + (n % 10) as char];
    if n >= 10 {
      NatTextValue(n / 10);
      assert r == NatText(n / 10) + digit;
      assert r[..|r| - 1] == NatText(n / 10);
      assert r[0] == NatText(n / 10)[0];
    }
  }

  /** The bar diameters are written as their usual two-digit numbers. */
  lemma DiameterTexts()
    ensures NatText(10) == "10" && NatText(12) == "12" && NatText(14) == "14"
    ensures NatText(16) == "16" && NatText(20) == "20"
  {
  }

  /** `f"{int(ix)} x {int(jx)} / {int(iy)} x {int(jy)}"`: bottom x, top x,
      then bottom y, top y. */
  function ComboText(c: Combo): string
    requires c.ix >= 0 && c.iy >= 0 && c.jx >= 0 && c.jy >= 0
  {
    NatText(c.ix) + " x " + NatText(c.jx) + " / " + NatText(c.iy) + " x " + NatText(c.jy)
  }

  /** Every diameter is written with two digits, so the four diameters of
      a combination can be read back from fixed places of its text: bottom
      x, top x, bottom y, top y. */
  lemma ComboTextFields(c: Combo)
    requires c.ix in Diameters && c.iy in Diameters && c.jx in Diameters && c.jy in Diameters
    ensures var t := ComboText(c);
      && |t| == 17
      && t[0..2] == NatText(c.ix) && t[2..5] == " x " && t[5..7] == NatText(c.jx)
      && t[7..10] == " / " && t[10..12] == NatText(c.iy) && t[12..15] == " x " && t[15..17] == NatText(c.jy)
  {
    TwoDigits(c.ix);
    TwoDigits(c.jx);
    TwoDigits(c.iy);
    TwoDigits(c.jy);
    FixedPieces(NatText(c.ix), " x ", NatText(c.jx), " / ", NatText(c.iy), " x ", NatText(c.jy));
  }

  /** The text of a combination of diameters reads back as that
      combination, field by field. */
  lemma ComboTextReadBack(c: Combo)
    requires c.ix in Diameters && c.iy in Diameters && c.jx in Diameters && c.jy in Diameters
    ensures var t := ComboText(c);
      && DigitsValue(t[0..2]) == c.ix && DigitsValue(t[5..7]) == c.jx
      && DigitsValue(t[10..12]) == c.iy && DigitsValue(t[15..17]) == c.jy
  {
    ComboTextFields(c);
    NatTextValue(c.ix);
    NatTextValue(c.jx);
    NatTextValue(c.iy);
    NatTextValue(c.jy);
  }

  /** The first combination tried is written with the top x diameter
      second. */
  lemma ComboTextExample()
    ensures ComboText(Combo(10, 12, 14, 16)) == "10 x 14 / 12 x 16"
  {
    DiameterTexts();
  }

  /** Every diameter is written with two digits. */
  lemma TwoDigits(n: nat)
    requires n in Diameters
    ensures |NatText(n)| == 2
  {
    assert 10 <= n < 100;
  }

  /** Seven pieces of widths 2, 3, 2, 3, 2, 3, 2 sit at fixed places of
      their concatenation. */
  lemma FixedPieces(p1: string, p2: string, p3: string, p4: string, p5: string, p6: string, p7: string)
    requires |p1| == 2 && |p2| == 3 && |p3| == 2 && |p4| == 3 && |p5| == 2 && |p6| == 3 && |p7| == 2
    ensures var t := p1 + p2 + p3 + p4 + p5 + p6 + p7;
      && |t| == 17
      && t[0..2] == p1 && t[2..5] == p2 && t[5..7] == p3 && t[7..10] == p4
      && t[10..12] == p5 && t[12..15] == p6 && t[15..17] == p7
  {
  }

  /** `max_r` of the combination tried at a step (0 for a position
      outside `Diameters`, which the loops never reach). */
  function StepMaxR(s: Step, commands: seq<string>, result: (Combo, string) -> Option<real>): real {
    if ValidStep(s) then MaxR(ComboAt(s), commands, result) else 0.0
  }

  /** The search after its first `n` steps: each of those steps failed
      (score above 1), and `best` is the largest of their scores, or 0
      before the first step. */
  ghost predicate Explored(n: nat, best: real, score: Step -> real) {
    && (forall t :: ValidStep(t) && Index(t) < n ==> score(t) > 1.0)
    && (forall t :: ValidStep(t) && Index(t) < n ==> best >= score(t))
    && (n == 0 ==> best == 0.0)
    && (n > 0 ==> exists t :: ValidStep(t) && Index(t) < n && best == score(t))
  }

  /** One more failing step extends what has been explored. */
  lemma ExploredStep(n: nat, best: real, score: Step -> real, step: Step)
    requires Explored(n, best, score)
    requires ValidStep(step) && Index(step) == n && score(step) > 1.0
    ensures Explored(n + 1, Max(best, score(step)), score)
  {
    forall t | ValidStep(t) && Index(t) == n
      ensures t == step
    {
      IndexOrder(t, step);
    }
  }

  /** `step` is where the loops stop: it passes (score at most 1), every
      step before it failed, and `best` is its score. */
  ghost predicate StopsAt(step: Step, best: real, score: Step -> real) {
    && ValidStep(step) && score(step) <= 1.0 && best == score(step)
    && forall t :: ValidStep(t) && Index(t) < Index(step) ==> score(t) > 1.0
  }

  /** After all 625 steps failed, `best` is the largest score, above 1. */
  lemma ExploredAll(best: real, score: Step -> real)
    requires Explored(625, best, score)
    ensures forall t :: ValidStep(t) ==> score(t) > 1.0 && best >= score(t)
    ensures best > 1.0
    ensures exists t :: ValidStep(t) && best == score(t)
  {
    forall t | ValidStep(t)
      ensures Index(t) < 625
    {
      IndexOrder(t, t);
    }
  }

  /** The innermost loop (over `jy`) for fixed outer indices. */
  method SearchD(score: Step -> real, a: nat, b: nat, c: nat, best0: real) returns (found: Option<Step>, best: real)
    requires a < 5 && b < 5 && c < 5 && Explored(125 * a + 25 * b + 5 * c, best0, score)
    ensures found.Some? ==> StopsAt(found.value, best, score)
    ensures found.None? ==> Explored(125 * a + 25 * b + 5 * c + 5, best, score)
  {
    best := best0;
    for d := 0 to 5
      invariant Explored(125 * a + 25 * b + 5 * c + d, best, score)
    {
      var step := Step(a, b, c, d);
      var maxR := score(step);
      if maxR <= 1.0 {
        return Some(step), maxR;
      }
      ExploredStep(125 * a + 25 * b + 5 * c + d, best, score, step);
      best := Max(best, maxR);
    }
    found := None;
  }

  /** The loop over `jx`, each step running the `jy` loop. */
  method SearchC(score: Step -> real, a: nat, b: nat, best0: real) returns (found: Option<Step>, best: real)
    requires a < 5 && b < 5 && Explored(125 * a + 25 * b, best0, score)
    ensures found.Some? ==> StopsAt(found.value, best, score)
    ensures found.None? ==> Explored(125 * a + 25 * b + 25, best, score)
  {
    best := best0;
    for c := 0 to 5
      invariant Explored(125 * a + 25 * b + 5 * c, best, score)
    {
      found, best := SearchD(score, a, b, c, best);
      if found.Some? {
        return;
      }
    }
    found := None;
  }

  /** The loop over `iy`, each step running the `jx` loop. */
  method SearchB(score: Step -> real, a: nat, best0: real) returns (found: Option<Step>, best: real)
    requires a < 5 && Explored(125 * a, best0, score)
    ensures found.Some? ==> StopsAt(found.value, best, score)
    ensures found.None? ==> Explored(125 * a + 125, best, score)
  {
    best := best0;
    for b := 0 to 5
      invariant Explored(125 * a + 25 * b, best, score)
    {
      found, best := SearchC(score, a, b, best);
      if found.Some? {
        return;
      }
    }
    found := None;
  }

  /** The four nested loops of `_calc_for_row`, with `score` the `max_r`
      of a step. Either they stop at the first step in loop order whose
      score is at most 1, with that score, or -- when no step passes --
      they find none and return the largest score of all, which is then
      above 1. */
  method Search(score: Step -> real) returns (found: Option<Step>, best: real)
    ensures found.Some? ==> ValidStep(found.value) && score(found.value) <= 1.0 && best == score(found.value)
    ensures found.Some? ==> forall t :: ValidStep(t) && Index(t) < Index(found.value) ==> score(t) > 1.0
    ensures found.None? ==> forall t :: ValidStep(t) ==> score(t) > 1.0
    ensures found.None? ==> best > 1.0
    ensures found.None? ==> forall t :: ValidStep(t) ==> best >= score(t)
    ensures found.None? ==> exists t :: ValidStep(t) && best == score(t)
  {
    best := 0.0;
    for a := 0 to 5
      invariant Explored(125 * a, best, score)
    {
      found, best := SearchB(score, a, best);
      if found.Some? {
        return;
      }
    }
    ExploredAll(best, score);
    found := None;
  }

  /** `_calc_for_row` for one row of forces: the oracle is the server with
      that row's forces set, and `commands` are the checks' commands
      (`CheckCommands` in the module). It returns the text of the first combination in loop order
      whose checks all pass, with its `max_r`; or, when none passes, no
      combination and the largest `max_r` of all, which is then above 1. */
  method CalcForRow(commands: seq<string>, result: (Combo, string) -> Option<real>)
    returns (combo: Option<string>, best: real)
    ensures combo.Some? ==> exists s :: (
              && ValidStep(s)
              && StepMaxR(s, commands, result) <= 1.0
              && (forall t :: ValidStep(t) && Index(t) < Index(s) ==> StepMaxR(t, commands, result) > 1.0)
              && combo.value == ComboText(ComboAt(s))
              && best == StepMaxR(s, commands, result))
    ensures combo.None? ==> forall t :: ValidStep(t) ==> StepMaxR(t, commands, result) > 1.0
    ensures combo.None? ==> best > 1.0
    ensures combo.None? ==> forall t :: ValidStep(t) ==> best >= StepMaxR(t, commands, result)
    ensures combo.None? ==> exists t :: ValidStep(t) && best == StepMaxR(t, commands, result)
  {
    var score := s => StepMaxR(s, commands, result);
    var found;
    found, best := Search(score);
    if found.Some? {
      combo := Some(ComboText(ComboAt(found.value)));
    } else {
      combo := None;
    }
  }
}

=== FILE: self_weight.dfy ===
/** Self-weight of a structural element under permanent load (clause 7.2 of
    SP 20.13330.2016), as computed by checks/self_weight.py: material name
    normalisation, density look-up with keyword fallback, volume resolution,
    mass and weights, and the extractor that fills the parameters from an
    IFC element record. */
module SelfWeight {
  import opened Wrappers
  import opened Text
  import opened Element
  import opened Tables

  // ------------------------------------------------------------------
  // Material name normalisation
  // ------------------------------------------------------------------

  /** The characters a run of which becomes one `_`: whitespace, `-`, `_`. */
  predicate IsSep(c: char) {
    IsSpace(c) || c == '-' || c == '_'
  }

  /** The non-separator characters of `s`, in order. */
  function Kept(s: string): string
  {
    if s == [] then [] else (if IsSep(s[0]) then [] else [s[0]]) + Kept(s[1..])
  }

  lemma {:induction false} KeptAppend(a: string, b: string)
    ensures Kept(a + b) == Kept(a) + Kept(b)
    decreases |a|
  {
    if a == [] {
      assert a + b == b;
    } else {
      assert (a + b)[0] == a[0];
      assert (a + b)[1..] == a[1..] + b;
      KeptAppend(a[1..], b);
    }
  }

  lemma {:induction false} KeptAllSpace(s: string)
    requires AllSpace(s)
    ensures Kept(s) == []
    decreases |s|
  {
    if s != [] {
      KeptAllSpace(s[1..]);
    }
  }

  /** Separator runs are collapsed: no whitespace, no `-`, and no two `_`
      next to each other. */
  predicate Collapsed(s: string) {
    && (forall i :: 0 <= i < |s| ==> !IsSpace(s[i]) && s[i] != '-')
    && (forall i :: 0 <= i && i + 1 < |s| ==> !(s[i] == '_' && s[i + 1] == '_'))
  }

  /** Every character is already lower case. */
  predicate LowerFixed(s: string) {
    forall i :: 0 <= i < |s| ==> LowerChar(s[i]) == s[i]
  }

  /** Drops the leading separators. */
  function DropSeps(s: string): (r: string)
    ensures |r| <= |s| && r == s[|s| - |r|..]
    ensures r == [] || !IsSep(r[0])
    ensures Kept(r) == Kept(s)
    decreases |s|
  {
    if s != [] && IsSep(s[0]) then DropSeps(s[1..]) else s
  }

  /** `re.sub(r'[\s\-_]+', '_', s)`: every maximal run of separators becomes
      a single `_`; the other characters are kept in order. */
  function CollapseSeps(s: string): (r: string)
    ensures Collapsed(r)
    ensures s == [] <==> r == []
    ensures s != [] ==> (IsSep(s[0]) ==> r[0] == '_') && (!IsSep(s[0]) ==> r[0] == s[0])
    ensures Kept(r) == Kept(s)
    ensures forall i :: 0 <= i < |r| ==> r[i] == '_' || r[i] in s
    decreases |s|
  {
    if s == [] then []
    else if IsSep(s[0]) then
      var d := DropSeps(s);
      var t := CollapseSeps(d);
      assert ("_" + t)[1..] == t;
      assert forall c :: c in d ==> c in s;
      CollapsedCons('_', t);
      "_" + t
    else
      var t := CollapseSeps(s[1..]);
      assert ([s[0]] + t)[1..] == t;
      CollapsedCons(s[0], t);
      [s[0]] + t
  }

  /** A character that is neither whitespace nor `-`, put before a
      collapsed string, keeps it collapsed unless it makes a `__`. */
  lemma CollapsedCons(c: char, t: string)
    requires Collapsed(t) && !IsSpace(c) && c != '-'
    requires c == '_' ==> t == [] || t[0] != '_'
    ensures Collapsed([c] + t)
  {
    var u := [c] + t;
    forall i | 0 <= i && i + 1 < |u|
      ensures !(u[i] == '_' && u[i + 1] == '_')
    {
      if i > 0 {
        assert u[i] == t[i - 1] && u[i + 1] == t[i];
      }
    }
  }

  /** `normalize_material_name`: "" stays "", otherwise lower-case, strip,
      and collapse separator runs. The result has collapsed separators, is
      lower case, and keeps the lower-cased non-separator characters of the
      name in their order. */
  function Normalize(name: string): (r: string)
    ensures name == "" ==> r == ""
    ensures Collapsed(r)
    ensures LowerFixed(r)
    ensures Kept(r) == Kept(Lower(name))
  {
    if name == "" then ""
    else
      var s := Strip(Lower(name));
      NormalizeFacts(name);
      CollapseSeps(s)
  }

  lemma NormalizeFacts(name: string)
    ensures LowerFixed(CollapseSeps(Strip(Lower(name))))
    ensures Kept(Strip(Lower(name))) == Kept(Lower(name))
  {
    KeptStrip(Lower(name));
    LowerCollapseFixed(name);
  }

  /** `strip` removes only separators. */
  lemma KeptStrip(l: string)
    ensures Kept(Strip(l)) == Kept(l)
  {
    KeptTrimLeft(l);
    KeptTrimRight(TrimLeft(l));
  }

  lemma KeptTrimLeft(l: string)
    ensures Kept(TrimLeft(l)) == Kept(l)
  {
    var pre := TrimLeftSplit(l);
    KeptAppend(pre, TrimLeft(l));
    KeptAllSpace(pre);
  }

  lemma KeptTrimRight(a: string)
    ensures Kept(TrimRight(a)) == Kept(a)
  {
    var r := TrimRight(a);
    assert a == r + a[|r|..];
    KeptAppend(r, a[|r|..]);
    KeptAllSpace(a[|r|..]);
  }

  /** Every character of a lower-cased string is a fixed point of `LowerChar`. */
  lemma LowerIsFixed(name: string)
    ensures LowerFixed(Lower(name))
  {
    forall k | 0 <= k < |name|
      ensures LowerChar(Lower(name)[k]) == Lower(name)[k]
    {
      LowerCharFacts(name[k]);
    }
  }

  /** `strip` keeps only characters of its input. */
  lemma StripChars(l: string)
    ensures forall c :: c in Strip(l) ==> c in l
  {
    StripSpec(l);
  }

  lemma LowerCollapseFixed(name: string)
    ensures LowerFixed(CollapseSeps(Strip(Lower(name))))
  {
    var l := Lower(name);
    var s := Strip(l);
    var r := CollapseSeps(s);
    LowerIsFixed(name);
    StripChars(l);
    forall k | 0 <= k < |r|
      ensures LowerChar(r[k]) == r[k]
    {
      if r[k] != '_' {
        assert r[k] in l;
      }
    }
  }

  /** A collapsed string is its own collapse. */
  lemma {:induction false} CollapseFixed(s: string)
    requires Collapsed(s)
    ensures CollapseSeps(s) == s
    decreases |s|
  {
    if s != [] {
      assert Collapsed(s[1..]);
      if IsSep(s[0]) {
        assert s[0] == '_';
        assert DropSeps(s) == s[1..] by {
          if |s| > 1 {
            assert !IsSep(s[1]);
          }
        }
      }
      CollapseFixed(s[1..]);
      assert s == [s[0]] + s[1..];
    }
  }

  /** The normalised names are exactly the collapsed, lower-case strings. */
  lemma NormalizeFixedPoints(s: string)
    ensures Normalize(s) == s <==> Collapsed(s) && LowerFixed(s)
  {
    if s != [] && Collapsed(s) && LowerFixed(s) {
      assert Lower(s) == s;
      StripSpec(s);
      CollapseFixed(s);
    }
  }

  /** Normalising twice is normalising once. */
  lemma NormalizeIdempotent(name: string)
    ensures Normalize(Normalize(name)) == Normalize(name)
  {
    NormalizeFixedPoints(Normalize(name));
  }

  /** A string with no separator is its own collapse. */
  lemma CollapseFree(x: string)
    requires forall i :: 0 <= i < |x| ==> !IsSep(x[i])
    ensures CollapseSeps(x) == x
  {
    assert Collapsed(x);
    CollapseFixed(x);
  }

  /** Leading separators are dropped before anything that follows a
      non-separator. */
  lemma {:induction false} DropSepsAppend(x: string, z: string)
    requires x != [] && !IsSep(x[|x| - 1])
    ensures DropSeps(x + z) == DropSeps(x) + z
    ensures DropSeps(x) != [] && DropSeps(x)[|DropSeps(x)| - 1] == x[|x| - 1]
    decreases |x|
  {
    if IsSep(x[0]) {
      assert (x + z)[1..] == x[1..] + z;
      DropSepsAppend(x[1..], z);
    }
  }

  /** A run of separators in front of a string that starts with a
      non-separator is dropped whole. */
  lemma {:induction false} DropRun(run: string, y: string)
    requires forall i :: 0 <= i < |run| ==> IsSep(run[i])
    requires y == [] || !IsSep(y[0])
    ensures DropSeps(run + y) == y
    decreases |run|
  {
    if run == [] {
      assert run + y == y;
    } else {
      assert (run + y)[1..] == run[1..] + y;
      DropRun(run[1..], y);
    }
  }

  /** Collapsing splits at a point just after a non-separator. */
  lemma {:induction false} CollapseAppend(x: string, z: string)
    requires x != [] && !IsSep(x[|x| - 1])
    ensures CollapseSeps(x + z) == CollapseSeps(x) + CollapseSeps(z)
    decreases |x|, 1
  {
    if IsSep(x[0]) {
      CollapseAppendSep(x, z);
    } else {
      CollapseAppendKept(x, z);
    }
  }

  lemma {:induction false} CollapseAppendKept(x: string, z: string)
    requires x != [] && !IsSep(x[|x| - 1]) && !IsSep(x[0])
    ensures CollapseSeps(x + z) == CollapseSeps(x) + CollapseSeps(z)
    decreases |x|, 0
  {
    var t := x[1..];
    assert x == [x[0]] + t;
    ConcatAssoc([x[0]], t, z);
    CollapseKept(x[0], t + z);
    CollapseKept(x[0], t);
    if t == [] {
      assert t + z == z;
    } else {
      CollapseAppend(t, z);
    }
    ConcatAssoc([x[0]], CollapseSeps(t), CollapseSeps(z));
  }

  lemma {:induction false} CollapseAppendSep(x: string, z: string)
    requires x != [] && !IsSep(x[|x| - 1]) && IsSep(x[0])
    ensures CollapseSeps(x + z) == CollapseSeps(x) + CollapseSeps(z)
    decreases |x|, 0
  {
    var d := DropSeps(x);
    DropSepsAppend(x, z);
    assert (x + z)[0] == x[0];
    CollapseSepFirst(x + z);
    CollapseSepFirst(x);
    CollapseAppend(d, z);
    ConcatAssoc("_", CollapseSeps(d), CollapseSeps(z));
  }

  /** A leading non-separator is kept. */
  lemma CollapseKept(c: char, t: string)
    requires !IsSep(c)
    ensures CollapseSeps([c] + t) == [c] + CollapseSeps(t)
  {
    assert ([c] + t)[0] == c;
    assert ([c] + t)[1..] == t;
  }

  /** A leading run of separators becomes one `_` before the rest. */
  lemma CollapseSepFirst(s: string)
    requires s != [] && IsSep(s[0])
    ensures CollapseSeps(s) == "_" + CollapseSeps(DropSeps(s))
  {
  }

  /** A leading run of separators becomes one `_`. */
  lemma CollapseLeadingRun(run: string, y: string)
    requires run != [] && forall i :: 0 <= i < |run| ==> IsSep(run[i])
    requires y == [] || !IsSep(y[0])
    ensures CollapseSeps(run + y) == "_" + CollapseSeps(y)
  {
    assert (run + y)[0] == run[0];
    DropRun(run, y);
  }

  /** Where the `_` goes: a maximal run of separators between two
      separator-free stretches (or the ends of the string) becomes exactly
      one `_`, and everything on either side is collapsed on its own. */
  lemma CollapseRun(x: string, run: string, y: string)
    requires x == [] || !IsSep(x[|x| - 1])
    requires run != [] && forall i :: 0 <= i < |run| ==> IsSep(run[i])
    requires y == [] || !IsSep(y[0])
    ensures CollapseSeps(x + run + y) == CollapseSeps(x) + "_" + CollapseSeps(y)
  {
    var t := run + y;
    CollapseLeadingRun(run, y);
    ConcatAssoc(x, run, y);
    var cx, cy := CollapseSeps(x), CollapseSeps(y);
    ConcatAssoc(cx, "_", cy);
    if x == [] {
      assert x + t == t;
    } else {
      CollapseAppend(x, t);
    }
  }

  /** Surrounding whitespace does not matter to the normal form. */
  lemma NormalizeStrip(name: string)
    ensures Normalize(Strip(name)) == Normalize(name)
  {
    LowerStrip(name);
    StripIdempotent(Lower(name));
    if name == "" {
      assert Strip(name) == "";
    }
  }

  /** Two words without separators, around a run of separators and
      padded with blanks, normalise to the lower-cased words joined by one
      `_`. */
  lemma NormalizeWords(pre: string, a: string, run: string, b: string, post: string)
    requires AllSpace(pre) && AllSpace(post)
    requires a != [] && forall i :: 0 <= i < |a| ==> !IsSep(a[i])
    requires run != [] && forall i :: 0 <= i < |run| ==> IsSep(run[i])
    requires b != [] && forall i :: 0 <= i < |b| ==> !IsSep(b[i])
    ensures Normalize(pre + a + run + b + post) == Lower(a) + "_" + Lower(b)
  {
    var name := pre + a + run + b + post;
    var la, lr, lb := Lower(a), Lower(run), Lower(b);
    SepsLower(a, run, b);
    assert name == pre + (a + run + b) + post;
    LowerAppend(pre + (a + run + b), post);
    LowerAppend(pre, a + run + b);
    LowerAppend(a + run, b);
    LowerAppend(a, run);
    LowerAllSpace(pre);
    LowerAllSpace(post);
    var m := la + lr + lb;
    assert Lower(name) == Lower(pre) + m + Lower(post);
    assert m[0] == la[0] && m[|m| - 1] == lb[|lb| - 1];
    StripPadded(Lower(pre), m, Lower(post));
    CollapseWords(la, lr, lb);
  }

  /** Lower-casing keeps separators separators and the rest not. */
  lemma SepsLower(a: string, run: string, b: string)
    requires forall i :: 0 <= i < |a| ==> !IsSep(a[i])
    requires forall i :: 0 <= i < |run| ==> IsSep(run[i])
    requires forall i :: 0 <= i < |b| ==> !IsSep(b[i])
    ensures forall i :: 0 <= i < |a| ==> !IsSep(Lower(a)[i])
    ensures forall i :: 0 <= i < |run| ==> IsSep(Lower(run)[i])
    ensures forall i :: 0 <= i < |b| ==> !IsSep(Lower(b)[i])
  {
    forall c: char
      ensures IsSep(LowerChar(c)) <==> IsSep(c)
    {
      LowerCharFacts(c);
    }
  }

  /** Two separator-free words around a run of separators are joined by
      one `_`. */
  lemma CollapseWords(a: string, run: string, b: string)
    requires forall i :: 0 <= i < |a| ==> !IsSep(a[i])
    requires run != [] && forall i :: 0 <= i < |run| ==> IsSep(run[i])
    requires forall i :: 0 <= i < |b| ==> !IsSep(b[i])
    ensures CollapseSeps(a + run + b) == a + "_" + b
  {
    CollapseRun(a, run, b);
    CollapseFree(a);
    CollapseFree(b);
  }

  // ------------------------------------------------------------------
  // Density look-up
  // ------------------------------------------------------------------

  /** `MATERIAL_DENSITIES`, kg/m3, in the source's order. */
  const MaterialDensities: seq<Entry<real>> := [
    Entry("wood", 500.0),
    Entry("wood_spruce", 450.0),
    Entry("wood_spruce_beam", 450.0),
    Entry("wood_pine", 500.0),
    Entry("wood_oak", 700.0),
    Entry("timber", 500.0),
    Entry("glulam", 500.0),
    Entry("lvl", 480.0),
    Entry("steel", 7850.0),
    Entry("steel_s235", 7850.0),
    Entry("steel_s345", 7850.0),
    Entry("steel_structural", 7850.0),
    Entry("concrete", 2500.0),
    Entry("concrete_b25", 2500.0),
    Entry("concrete_b30", 2500.0),
    Entry("reinforced_concrete", 2500.0),
    Entry("lightweight_concrete", 1800.0),
    Entry("brick", 1800.0),
    Entry("brick_ceramic", 1700.0),
    Entry("brick_silicate", 1800.0),
    Entry("aluminum", 2700.0),
    Entry("glass", 2500.0),
    Entry("gypsum", 1200.0),
    Entry("insulation", 100.0)
  ]

  /** The density assumed when nothing is known: concrete. */
  const DefaultDensity: real := 2500.0

  /** A keyword group: if any keyword occurs in the normalised name, the
      group's density applies. */
  datatype KeywordGroup = KeywordGroup(keywords: seq<string>, density: real)

  /** The keyword groups in the order they are tried: steel, wood,
      concrete, brick, aluminium, glass, gypsum. */
  const KeywordGroups: seq<KeywordGroup> := [
    KeywordGroup(["steel", "сталь"], 7850.0),
    KeywordGroup(["wood", "timber", "древ", "брус", "дерев", "spruce", "pine", "ель", "сосна"], 500.0),
    KeywordGroup(["concrete", "бетон"], 2500.0),
    KeywordGroup(["brick", "кирпич"], 1800.0),
    KeywordGroup(["aluminum", "алюмин"], 2700.0),
    KeywordGroup(["glass", "стекло"], 2500.0),
    KeywordGroup(["gypsum", "гипс"], 1200.0)
  ]

  predicate GroupMatches(g: KeywordGroup, n: string) {
    exists k :: 0 <= k < |g.keywords| && Contains(n, g.keywords[k])
  }

  /** Group `i` is the first group that matches `n`. */
  predicate FirstMatchAt(groups: seq<KeywordGroup>, n: string, i: int) {
    && 0 <= i < |groups|
    && GroupMatches(groups[i], n)
    && forall j :: 0 <= j < i ==> !GroupMatches(groups[j], n)
  }

  /** The inner loop: does any keyword of the list occur in `n`? */
  function AnyKeyword(keywords: seq<string>, n: string): (b: bool)
    ensures b <==> exists k :: 0 <= k < |keywords| && Contains(n, keywords[k])
  {
    if keywords == [] then false
    else Contains(n, keywords[0]) || AnyKeyword(keywords[1..], n)
  }

  /** The outer loop: the density of the first matching group, if any. */
  function FirstMatch(groups: seq<KeywordGroup>, n: string): (r: Option<real>)
    ensures r.None? <==> forall j :: 0 <= j < |groups| ==> !GroupMatches(groups[j], n)
    ensures r.Some? ==> exists i :: FirstMatchAt(groups, n, i) && r.value == groups[i].density
  {
    if groups == [] then None
    else if AnyKeyword(groups[0].keywords, n) then
      assert FirstMatchAt(groups, n, 0);
      Some(groups[0].density)
    else
      var r := FirstMatch(groups[1..], n);
      if r.Some? then
        var i :| FirstMatchAt(groups[1..], n, i) && r.value == groups[1..][i].density;
        assert FirstMatchAt(groups, n, i + 1);
        r
      else
        r
  }

  datatype DensitySource = Custom | Lookup | Default

  datatype Density = Density(value: real, source: DensitySource)

  /** A custom density is used only when one is given and it is positive. */
  predicate UsesCustom(custom: Option<real>) {
    custom.Some? && custom.value > 0.0
  }

  lemma DensitiesPositive()
    ensures forall i :: 0 <= i < |MaterialDensities| ==> MaterialDensities[i].value > 0.0
    ensures forall i :: 0 <= i < |KeywordGroups| ==> KeywordGroups[i].density > 0.0
  {
  }

  /** The table, then the keyword groups, then the default, for a
      normalised name. */
  function LookupNormalized(n: string): (r: Density)
    ensures HasKey(MaterialDensities, n) ==> r == Density(Find(MaterialDensities, n).value, Lookup)
    ensures !HasKey(MaterialDensities, n) ==>
              && (r.source == Default <==>
                   forall j :: 0 <= j < |KeywordGroups| ==> !GroupMatches(KeywordGroups[j], n))
              && (r.source == Lookup ==>
                   exists i :: FirstMatchAt(KeywordGroups, n, i) && r.value == KeywordGroups[i].density)
    ensures r.source != Custom && r.value > 0.0
    ensures r.source == Default ==> r.value == DefaultDensity
  {
    DensitiesPositive();
    match Find(MaterialDensities, n)
    case Some(d) => Density(d, Lookup)
    case None => match FirstMatch(KeywordGroups, n)
      case Some(d) => Density(d, Lookup)
      case None => Density(DefaultDensity, Default)
  }

  /** `get_material_density`: a positive custom density wins; an empty name
      gives the default; an exact normalised key gives the table value;
      otherwise the first keyword group that occurs in the normalised name
      decides, and when none does the default applies. */
  function GetMaterialDensity(name: string, custom: Option<real>): (r: Density)
    ensures UsesCustom(custom) ==> r == Density(custom.value, Custom)
    ensures !UsesCustom(custom) ==> r.source != Custom && r.value > 0.0
    ensures !UsesCustom(custom) && name == "" ==> r == Density(DefaultDensity, Default)
    ensures !UsesCustom(custom) && name != "" && HasKey(MaterialDensities, Normalize(name)) ==>
              r == Density(Find(MaterialDensities, Normalize(name)).value, Lookup)
    ensures !UsesCustom(custom) && name != "" && !HasKey(MaterialDensities, Normalize(name)) ==>
              && (r.source == Default <==>
                   forall j :: 0 <= j < |KeywordGroups| ==> !GroupMatches(KeywordGroups[j], Normalize(name)))
              && (r.source == Lookup ==>
                   exists i :: FirstMatchAt(KeywordGroups, Normalize(name), i) && r.value == KeywordGroups[i].density)
    ensures r.source == Default ==> r.value == DefaultDensity
  {
    if UsesCustom(custom) then Density(custom.value, Custom)
    else if name == "" then Density(DefaultDensity, Default)
    else LookupNormalized(Normalize(name))
  }

  /** No key and no keyword is empty. */
  lemma NothingEmpty()
    ensures forall i :: 0 <= i < |MaterialDensities| ==> |MaterialDensities[i].key| > 0
    ensures forall j, k :: 0 <= j < |KeywordGroups| && 0 <= k < |KeywordGroups[j].keywords| ==>
              |KeywordGroups[j].keywords[k]| > 0
  {
  }

  /** The empty normal form gets the default density. */
  lemma LookupEmpty()
    ensures LookupNormalized("") == Density(DefaultDensity, Default)
  {
    NothingEmpty();
    EmptyMatchesNothing(MaterialDensities, KeywordGroups);
  }

  /** With no empty key and no empty keyword, the empty name is not a key
      and contains no keyword. */
  lemma EmptyMatchesNothing(table: seq<Entry<real>>, groups: seq<KeywordGroup>)
    requires forall i :: 0 <= i < |table| ==> |table[i].key| > 0
    requires forall j, k :: 0 <= j < |groups| && 0 <= k < |groups[j].keywords| ==> |groups[j].keywords[k]| > 0
    ensures !HasKey(table, "")
    ensures forall j :: 0 <= j < |groups| ==> !GroupMatches(groups[j], "")
  {
    forall j | 0 <= j < |groups|
      ensures !GroupMatches(groups[j], "")
    {
      forall k | 0 <= k < |groups[j].keywords|
        ensures !Contains("", groups[j].keywords[k])
      {
      }
    }
  }

  /** The density depends on the name only through its normal form. */
  lemma DensityOfNormalForm(name: string, custom: Option<real>)
    ensures GetMaterialDensity(Normalize(name), custom) == GetMaterialDensity(name, custom)
  {
    NormalizeIdempotent(name);
    if Normalize(name) == "" && name != "" {
      LookupEmpty();
    }
  }

  /** A custom density that is not positive is ignored. */
  lemma NonPositiveCustomIgnored(name: string, c: real)
    requires c <= 0.0
    ensures GetMaterialDensity(name, Some(c)) == GetMaterialDensity(name, None)
  {
  }

  /** A table key as the source writes them: lower-case ASCII letters and
      single underscores. */
  predicate Slug(s: string) {
    && (forall i :: 0 <= i < |s| ==> 'a' <= s[i] <= 'z' || s[i] == '_')
    && (forall i :: 0 <= i && i + 1 < |s| ==> !(s[i] == '_' && s[i + 1] == '_'))
  }

  /** Such a key is already in normal form. */
  lemma SlugNormal(s: string)
    requires Slug(s)
    ensures Collapsed(s) && LowerFixed(s)
  {
    forall i | 0 <= i < |s|
      ensures !IsSpace(s[i]) && s[i] != '-' && LowerChar(s[i]) == s[i]
    {
      var n := s[i] as int;
      assert n == 0x5F || 0x61 <= n <= 0x7A;
    }
  }

  /** A name already in normal form that is the `i`-th key gets that
      entry's density from the table. */
  lemma DensityOfKey(n: string, i: nat)
    requires n != "" && Collapsed(n) && LowerFixed(n)
    requires i < |MaterialDensities| && MaterialDensities[i].key == n
    requires forall j :: 0 <= j < i ==> MaterialDensities[j].key != n
    ensures GetMaterialDensity(n, None) == Density(MaterialDensities[i].value, Lookup)
  {
    NormalizeFixedPoints(n);
    FindAt(MaterialDensities, n, i);
  }

  /** An exact key wins over the keyword groups: "wood_spruce" is 450 from
      the table, not the 500 of the wood keywords. */
  lemma ExactKeyBeforeKeywords()
    ensures GetMaterialDensity("wood_spruce", None) == Density(450.0, Lookup)
  {
    assert Slug("wood_spruce");
    SlugNormal("wood_spruce");
    DensityOfKey("wood_spruce", 1);
  }

  // ------------------------------------------------------------------
  // Self-weight calculation
  // ------------------------------------------------------------------

  /** Gravity in kN per kg (9.81 m/s2 divided by 1000). */
  const Gravity: real := 9.81 / 1000.0

  /** Partial safety factor for a permanent load acting unfavourably
      (clause 7.2); the favourable value 0.9 is not used by the calculator. */
  const GammaPermanentUnfavourable: real := 1.1

  datatype SelfWeightParams = SelfWeightParams(
    elementId: string,
    elementName: ElementName,
    ifcClass: string,
    volume: real,
    length: real,
    crossSectionArea: real,
    materialName: string,
    density: Option<real>,
    gammaF: real)

  /** The parameter record's defaults. */
  const DefaultParams: SelfWeightParams :=
    SelfWeightParams("", Some(""), "", 0.0, 0.0, 0.0, "", None, GammaPermanentUnfavourable)

  /** Where the volume came from. */
  datatype VolumeSource = FromLengthAndArea | FromIfc | Undetermined

  /** The calculator's notes, by kind; the formatted text is not modelled. */
  datatype Note =
    | DensityNote(source: DensitySource)
    | VolumeNote(volumeSource: VolumeSource)
    | MassNote
    | NormativeWeightNote
    | DesignWeightNote
    | LinearLoadNote

  datatype SelfWeightResult = SelfWeightResult(
    elementId: string,
    elementName: ElementName,
    ifcClass: string,
    volume: real,
    length: real,
    crossSectionArea: real,
    materialName: string,
    density: real,
    densitySource: DensitySource,
    mass: real,
    weightNorm: real,
    weightCalc: real,
    gammaF: real,
    linearLoad: Option<real>,
    notes: seq<Note>)

  /** Volume resolution: a positive given volume is used as is; otherwise
      length times area when both are positive; otherwise the given volume
      is kept, whatever its sign. The volume is positive exactly when it
      is not undetermined. */
  function ResolveVolume(volume: real, length: real, area: real): (r: (real, VolumeSource))
    ensures volume > 0.0 ==> r == (volume, FromIfc)
    ensures volume <= 0.0 && length > 0.0 && area > 0.0 ==> r == (length * area, FromLengthAndArea)
    ensures volume <= 0.0 && !(length > 0.0 && area > 0.0) ==> r == (volume, Undetermined)
    ensures r.1 == Undetermined <==> r.0 <= 0.0
  {
    if volume <= 0.0 && length > 0.0 && area > 0.0 then
      Positive(length, area);
      (length * area, FromLengthAndArea)
    else if volume > 0.0 then (volume, FromIfc)
    else (volume, Undetermined)
  }

  lemma Positive(a: real, b: real)
    requires a > 0.0 && b > 0.0
    ensures a * b > 0.0
  {
  }

  /** Mass, normative weight and design weight: m = rho V, G0 = m g,
      G = G0 gamma_f. */
  function Weights(density: real, volume: real, gammaF: real): (r: (real, real, real))
    ensures r.0 == density * volume
    ensures r.1 == r.0 * Gravity
    ensures r.2 == r.1 * gammaF
  {
    var mass := density * volume;
    (mass, mass * Gravity, mass * Gravity * gammaF)
  }

  /** `calculate_self_weight`. */
  function CalculateSelfWeight(p: SelfWeightParams): (r: SelfWeightResult)
    ensures r.elementId == p.elementId && r.elementName == p.elementName && r.ifcClass == p.ifcClass
    ensures r.length == p.length && r.crossSectionArea == p.crossSectionArea
    ensures r.materialName == p.materialName && r.gammaF == p.gammaF
    ensures Density(r.density, r.densitySource) == GetMaterialDensity(p.materialName, p.density)
    ensures r.volume == ResolveVolume(p.volume, p.length, p.crossSectionArea).0
    ensures Weights(r.density, r.volume, p.gammaF) == (r.mass, r.weightNorm, r.weightCalc)
    ensures r.linearLoad == PerMetre(r.weightCalc, p.length)
  {
    var d := GetMaterialDensity(p.materialName, p.density);
    var resolved := ResolveVolume(p.volume, p.length, p.crossSectionArea);
    var volume := resolved.0;
    var (mass, weightNorm, weightCalc) := Weights(d.value, volume, p.gammaF);
    var linearLoad := PerMetre(weightCalc, p.length);
    var notes := [DensityNote(d.source), VolumeNote(resolved.1), MassNote, NormativeWeightNote, DesignWeightNote]
      + (if p.length > 0.0 then [LinearLoadNote] else []);
    SelfWeightResult(
      p.elementId, p.elementName, p.ifcClass, volume, p.length, p.crossSectionArea,
      p.materialName, d.value, d.source, mass, weightNorm, weightCalc, p.gammaF, linearLoad, notes)
  }

  /** The notes, in order: the density note tagged with its source, the
      volume note tagged with how the volume was found, the mass, normative
      and design weight notes, and the load-per-metre note exactly when the
      length is positive. */
  lemma SelfWeightNotes(p: SelfWeightParams)
    ensures var r := CalculateSelfWeight(p);
      && |r.notes| == (if p.length > 0.0 then 6 else 5)
      && r.notes[0] == DensityNote(r.densitySource)
      && r.notes[1] == VolumeNote(ResolveVolume(p.volume, p.length, p.crossSectionArea).1)
      && r.notes[2..5] == [MassNote, NormativeWeightNote, DesignWeightNote]
      && (p.length > 0.0 ==> r.notes[5] == LinearLoadNote)
  {
  }

  /** The load per metre: present exactly when the length is positive, and
      then it spreads the design weight over the length. */
  function PerMetre(weight: real, length: real): (q: Option<real>)
    ensures q.Some? <==> length > 0.0
    ensures q.Some? ==> q.value * length == weight
  {
    if length > 0.0 then
      DivMul(weight, length);
      Some(weight / length)
    else None
  }

  lemma DivMul(x: real, d: real)
    requires d > 0.0
    ensures (x / d) * d == x
  {
  }

  /** The volume warning is issued exactly when the resolved volume is not
      positive. */
  lemma VolumeWarning(p: SelfWeightParams)
    ensures CalculateSelfWeight(p).notes[1] == VolumeNote(Undetermined) <==> CalculateSelfWeight(p).volume <= 0.0
  {
    SelfWeightNotes(p);
  }

  /** With a resolved positive volume and a positive factor, the mass and
      both weights are positive. */
  lemma WeightsPositive(p: SelfWeightParams)
    requires p.gammaF > 0.0
    ensures var r := CalculateSelfWeight(p);
      r.volume > 0.0 ==> r.mass > 0.0 && r.weightNorm > 0.0 && r.weightCalc > 0.0
  {
    var r := CalculateSelfWeight(p);
    if r.volume > 0.0 {
      assert r.density > 0.0;
      PositiveWeights(r.density, r.volume, p.gammaF);
    }
  }

  lemma PositiveWeights(density: real, volume: real, gammaF: real)
    requires density > 0.0 && volume > 0.0 && gammaF > 0.0
    ensures Weights(density, volume, gammaF).0 > 0.0
    ensures Weights(density, volume, gammaF).1 > 0.0
    ensures Weights(density, volume, gammaF).2 > 0.0
  {
    var w := Weights(density, volume, gammaF);
    Positive(density, volume);
    Positive(w.0, Gravity);
    Positive(w.1, gammaF);
  }

  /** The demonstration beam: 0.054 m3 of "wood_spruce_beam", 2.7 m long:
      450 kg/m3 from the table, 24.3 kg, 0.238383 kN normative,
      0.2622213 kN design, 0.097119 kN/m along the beam. */
  lemma DemoBeam()
    ensures var r := CalculateSelfWeight(DemoParams);
      && r.density == 450.0 && r.densitySource == Lookup
      && r.volume == 0.054 && r.notes[1] == VolumeNote(FromIfc)
      && r.mass == 24.3 && r.weightNorm == 0.238383 && r.weightCalc == 0.2622213
      && r.linearLoad == Some(0.097119) && |r.notes| == 6
  {
    var p := DemoParams;
    var r := CalculateSelfWeight(p);
    WoodSpruceBeamDensity();
    SelfWeightNotes(p);
    assert r.volume == 0.054;
    assert Weights(450.0, 0.054, 1.1) == (24.3, 0.238383, 0.2622213);
    assert 0.2622213 / 2.7 == 0.097119;
  }

  const DemoParams: SelfWeightParams := DefaultParams.(
    elementId := "demo_beam_001", elementName := Some("Балка деревянная 100x200"), ifcClass := "IfcBeam",
    volume := 0.054, length := 2.7, crossSectionArea := 0.02,
    materialName := "wood_spruce_beam")

  lemma WoodSpruceBeamDensity()
    ensures GetMaterialDensity("wood_spruce_beam", None) == Density(450.0, Lookup)
  {
    assert Slug("wood_spruce_beam");
    SlugNormal("wood_spruce_beam");
    DensityOfKey("wood_spruce_beam", 2);
  }

  // ------------------------------------------------------------------
  // Parameters from an IFC element record
  // ------------------------------------------------------------------

  const BeamQuantities := "Qto_BeamBaseQuantities"
  const ColumnQuantities := "Qto_ColumnBaseQuantities"
  const SlabQuantities := "Qto_SlabBaseQuantities"
  const WallQuantities := "Qto_WallBaseQuantities"

  /** The unit heuristic for lengths: a value above 100 is taken as
      millimetres and converted to metres, anything else as metres. */
  function LengthToMetres(v: real): (m: real)
    ensures v > 100.0 ==> m == v / 1000.0 && m < v
    ensures v <= 100.0 ==> m == v
  {
    if v > 100.0 then v / 1000.0 else v
  }

  /** The unit heuristic for section dimensions: a value above 1 is taken
      as millimetres and converted to metres, anything else as metres. */
  function SectionToMetres(v: real): (m: real)
    ensures v > 1.0 ==> m == v / 1000.0 && m < v
    ensures v <= 1.0 ==> m == v
  {
    if v > 1.0 then v / 1000.0 else v
  }

  /** A value read as millimetres converts back to them. A length of at
      most 100000 (or a section side of at most 1000) converts to at most
      the threshold, so converting it again leaves it alone; a larger one
      would be divided by 1000 a second time. */
  lemma MetresRoundTrip(v: real)
    ensures v > 100.0 ==> LengthToMetres(v) * 1000.0 == v
    ensures v <= 100000.0 ==> LengthToMetres(LengthToMetres(v)) == LengthToMetres(v)
    ensures v > 1.0 ==> SectionToMetres(v) * 1000.0 == v
    ensures v <= 1000.0 ==> SectionToMetres(SectionToMetres(v)) == SectionToMetres(v)
  {
  }

  /** The value of `key` in the first of `sets` that has it. */
  function FirstWith(sets: seq<map<string, real>>, key: string): Option<real>
  {
    if sets == [] then None
    else if key in sets[0] then Some(sets[0][key])
    else FirstWith(sets[1..], key)
  }

  lemma FirstWithTwo(m1: map<string, real>, m2: map<string, real>, key: string)
    ensures FirstWith([m1, m2], key) ==
      if key in m1 then Some(m1[key]) else if key in m2 then Some(m2[key]) else None
  {
    assert [m2][1..] == [];
    assert FirstWith([m2], key) == if key in m2 then Some(m2[key]) else FirstWith([], key);
    assert [m1, m2][1..] == [m2];
  }

  lemma FirstWithFour(m1: map<string, real>, m2: map<string, real>, m3: map<string, real>,
                      m4: map<string, real>, key: string)
    ensures FirstWith([m1, m2, m3, m4], key) ==
      if key in m1 then Some(m1[key]) else if key in m2 then Some(m2[key])
      else if key in m3 then Some(m3[key]) else if key in m4 then Some(m4[key]) else None
  {
    assert [m1, m2, m3, m4][1..] == [m2, m3, m4];
    assert [m2, m3, m4][1..] == [m3, m4];
    FirstWithTwo(m3, m4, key);
  }

  /** The length from the quantity sets: the column's `Length`, else its
      `Height`, else the beam's `Length`, else 0, converted to metres. */
  function QuantityLength(psets: PropertySets): (l: real)
    ensures var column := PropertySet(psets, ColumnQuantities);
      && ("Length" in column ==> l == LengthToMetres(column["Length"]))
      && ("Length" !in column && "Height" in column ==> l == LengthToMetres(column["Height"]))
    ensures var column := PropertySet(psets, ColumnQuantities);
            var beam := PropertySet(psets, BeamQuantities);
      && ("Length" !in column && "Height" !in column && "Length" in beam ==> l == LengthToMetres(beam["Length"]))
      && ("Length" !in column && "Height" !in column && "Length" !in beam ==> l == 0.0)
  {
    var beam := PropertySet(psets, BeamQuantities);
    var column := PropertySet(psets, ColumnQuantities);
    var l1 := if "Length" in beam then LengthToMetres(beam["Length"]) else 0.0;
    if "Length" in column || "Height" in column then
      LengthToMetres(GetOr(column, "Length", GetOr(column, "Height", 0.0)))
    else l1
  }

  /** The cross-section area from the quantity sets: the column's, else the
      beam's, else 0. */
  function QuantityArea(psets: PropertySets): (a: real)
    ensures FirstWith([PropertySet(psets, ColumnQuantities), PropertySet(psets, BeamQuantities)], "CrossSectionArea").Some? ==>
              a == FirstWith([PropertySet(psets, ColumnQuantities), PropertySet(psets, BeamQuantities)], "CrossSectionArea").value
    ensures FirstWith([PropertySet(psets, ColumnQuantities), PropertySet(psets, BeamQuantities)], "CrossSectionArea").None? ==>
              a == 0.0
  {
    var beam := PropertySet(psets, BeamQuantities);
    var column := PropertySet(psets, ColumnQuantities);
    var a1 := if "CrossSectionArea" in beam then beam["CrossSectionArea"] else 0.0;
    FirstWithTwo(column, beam, "CrossSectionArea");
    if "CrossSectionArea" in column then column["CrossSectionArea"] else a1
  }

  /** The approximate section supplies the length only when the quantity
      sets left it at 0. */
  function SectionLength(l: real, section: map<string, real>): (r: real)
    ensures l != 0.0 ==> r == l
    ensures l == 0.0 && "length" in section ==> r == LengthToMetres(section["length"])
    ensures l == 0.0 && "length" !in section ==> r == 0.0
  {
    if l == 0.0 && "length" in section then LengthToMetres(section["length"]) else l
  }

  /** The approximate section supplies the area, as b times h converted to
      metres, only when the quantity sets left it at 0 and both b and h are
      positive. */
  function SectionArea(a: real, section: map<string, real>): (r: real)
    ensures a != 0.0 ==> r == a
    ensures a == 0.0 ==>
              var b := GetOr(section, "b", 0.0);
              var h := GetOr(section, "h", 0.0);
              r == (if b > 0.0 && h > 0.0 then SectionToMetres(b) * SectionToMetres(h) else 0.0)
    ensures a == 0.0 && r != 0.0 ==> r > 0.0
  {
    var b := GetOr(section, "b", 0.0);
    var h := GetOr(section, "h", 0.0);
    if a == 0.0 && b > 0.0 && h > 0.0 then
      Positive(SectionToMetres(b), SectionToMetres(h));
      SectionToMetres(b) * SectionToMetres(h)
    else a
  }

  /** `extract_self_weight_params_from_ifc_element`. The quantity sets are
      read in the order beam, column, slab, wall, each overwriting the
      volume, so the volume comes from the last of them that has one; the
      approximate section only fills a length or area that is still 0. */
  function ExtractSelfWeightParams(e: ElementRecord): (p: SelfWeightParams)
    ensures p.elementId == e.globalId && p.elementName == e.name && p.ifcClass == e.ifcClass
    ensures p.materialName == (if |e.materials| > 0 then e.materials[0] else "")
    ensures p.density == None && p.gammaF == GammaPermanentUnfavourable
    ensures p.volume == FirstWith([
              PropertySet(e.psets, WallQuantities), PropertySet(e.psets, SlabQuantities),
              PropertySet(e.psets, ColumnQuantities), PropertySet(e.psets, BeamQuantities)], "NetVolume").GetOr(0.0)
    ensures p.length == SectionLength(QuantityLength(e.psets), e.section)
    ensures p.crossSectionArea == SectionArea(QuantityArea(e.psets), e.section)
  {
    var beam := PropertySet(e.psets, BeamQuantities);
    var column := PropertySet(e.psets, ColumnQuantities);
    var slab := PropertySet(e.psets, SlabQuantities);
    var wall := PropertySet(e.psets, WallQuantities);
    var v1 := if "NetVolume" in beam then beam["NetVolume"] else 0.0;
    var v2 := if "NetVolume" in column then column["NetVolume"] else v1;
    var v3 := if "NetVolume" in slab then slab["NetVolume"] else v2;
    var v4 := if "NetVolume" in wall then wall["NetVolume"] else v3;
    FirstWithFour(wall, slab, column, beam, "NetVolume");
    var l2 := SectionLength(QuantityLength(e.psets), e.section);
    var a2 := SectionArea(QuantityArea(e.psets), e.section);
    DefaultParams.(
      elementId := e.globalId, elementName := e.name, ifcClass := e.ifcClass,
      materialName := if |e.materials| > 0 then e.materials[0] else "",
      volume := v4, length := l2, crossSectionArea := a2)
  }
}

=== FILE: snow_load.dfy ===
/** Snow load on a roof element after SP 20.13330.2016: the ground snow
    weight Sg of the snow region (table 10.1), the shape coefficient mu of
    Appendix B, the drift and thermal coefficients Ce and Ct, and the load
    factor 1.4 of clause 10.12. Also the extractor that fills the parameters
    from one element record. */
module SnowLoad {
  import opened Wrappers
  import opened Element
  import opened Tables

  /** `SNOW_REGIONS_SG`: ground snow weight Sg in kPa per snow region. */
  const SnowRegions: seq<Entry<real>> := [
    Entry("I", 0.5),
    Entry("II", 1.0),
    Entry("III", 1.5),
    Entry("IV", 2.0),
    Entry("V", 2.5),
    Entry("VI", 3.0),
    Entry("VII", 3.5),
    Entry("VIII", 4.0)
  ]

  /** Sg used for a region the table does not know (region III). */
  const FallbackSg: real := 1.5

  /** `GAMMA_F_SNOW`. */
  const GammaSnow: real := 1.4

  datatype SnowLoadParams = SnowLoadParams(
    elementId: string,
    elementName: ElementName,
    area: real,
    region: string,
    roofAngle: real,
    roofType: string,
    ce: real,
    ct: real,
    parapetHeight: real,
    adjacentRoof: bool,
    heightDifference: real)

  /** The dataclass defaults. */
  const DefaultSnowParams: SnowLoadParams :=
    SnowLoadParams("", Some(""), 0.0, "III", 0.0, "flat", 1.0, 1.0, 0.0, false, 0.0)

  /** The notes the calculation appends, without their wording. */
  datatype SnowNote =
    | RegionNote(region: string)
    | RegionFallbackNote(region: string)
    | FlatRoofNote(alpha: real)
    | PitchedFlatRoofNote(alpha: real, mu: real)
    | SteepFlatRoofNote(alpha: real)
    | SingleSlopeNote(mu: real)
    | GableUniformNote(alpha: real)
    | GableNote(mu: real)
    | GableNonUniformWarning
    | ArchNote
    | UnknownRoofNote(roofType: string)
    | DriftWarning(heightDifference: real, localMu: real)
    | DriftDetailNote
    | ParapetNote(height: real)
    | CeNote(ce: real)
    | CtNote(ct: real)
    | S0Note(s0: real)
    | SNote(s: real)
    | TotalNote(total: real)

  /** Notes that `calculate_mu` writes. */
  predicate IsShapeNote(n: SnowNote) {
    !(n.RegionNote? || n.RegionFallbackNote? || n.CeNote? || n.CtNote? || n.S0Note? || n.SNote? || n.TotalNote?)
  }

  datatype SnowLoadResult = SnowLoadResult(
    elementId: string,
    elementName: ElementName,
    sg: real,
    mu: real,
    ce: real,
    ct: real,
    s0: real,
    s: real,
    gammaF: real,
    area: real,
    totalLoad: real,
    notes: seq<SnowNote>)

  // ---------------------------------------------------------------------
  // Region table
  // ---------------------------------------------------------------------

  /** Sg grows strictly from region I (0.5 kPa) to region VIII (4.0 kPa). */
  lemma SgIncreasing()
    ensures SnowRegions[0].value == 0.5 && SnowRegions[|SnowRegions| - 1].value == 4.0
    ensures forall i, j :: 0 <= i < j < |SnowRegions| ==> SnowRegions[i].value < SnowRegions[j].value
  {
    assert forall i :: 0 <= i < |SnowRegions| ==> SnowRegions[i].value == 0.5 * (i + 1) as real;
  }

  // ---------------------------------------------------------------------
  // Shape coefficient mu
  // ---------------------------------------------------------------------

  /** A closed form for the pitched-roof rows of table B.1: mu is 1 up to
      60 - span degrees, falls linearly to 0 at 60 degrees and stays 0. */
  function Ramp(alpha: real, span: real): (mu: real)
    requires 0.0 < span <= 60.0
    ensures 0.0 <= mu <= 1.0
    ensures alpha <= 60.0 - span ==> mu == 1.0
    ensures alpha >= 60.0 ==> mu == 0.0
  {
    if alpha <= 60.0 - span then 1.0
    else if alpha <= 60.0 then
      UnitFraction(60.0 - alpha, span);
      (60.0 - alpha) / span
    else 0.0
  }

  lemma UnitFraction(x: real, d: real)
    requires 0.0 <= x <= d && d > 0.0
    ensures 0.0 <= x / d <= 1.0
  {}

  /** The ramp never rises with the angle. */
  lemma RampMonotone(a: real, b: real, span: real)
    requires 0.0 < span <= 60.0 && a <= b
    ensures Ramp(b, span) <= Ramp(a, span)
  {
    if 60.0 - span < a && b <= 60.0 {
      assert (60.0 - b) / span <= (60.0 - a) / span by {
        DivMonotone(60.0 - b, 60.0 - a, span);
      }
    }
  }

  lemma DivMonotone(x: real, y: real, d: real)
    requires d > 0.0 && x <= y
    ensures x / d <= y / d
  {}

  /** `calculate_mu` up to the drift and parapet checks: the branch on the
      roof type. */
  function BaseMu(roofType: string, alpha: real): (r: (real, seq<SnowNote>))
    ensures |r.1| > 0
    ensures forall i :: 0 <= i < |r.1| ==> IsShapeNote(r.1[i])
    ensures GableNonUniformWarning in r.1 <==> roofType == "gable"
    ensures roofType == "arch" ==> r == (1.0, [ArchNote])
    ensures roofType !in {"flat", "single_slope", "gable", "arch"} ==> r == (1.0, [UnknownRoofNote(roofType)])
  {
    if roofType == "flat" then
      if alpha <= 25.0 then (1.0, [FlatRoofNote(alpha)])
      else if alpha <= 60.0 then ((60.0 - alpha) / 35.0, [PitchedFlatRoofNote(alpha, (60.0 - alpha) / 35.0)])
      else (0.0, [SteepFlatRoofNote(alpha)])
    else if roofType == "single_slope" then
      var mu := if alpha <= 30.0 then 1.0 else if alpha <= 60.0 then (60.0 - alpha) / 30.0 else 0.0;
      (mu, [SingleSlopeNote(mu)])
    else if roofType == "gable" then
      if alpha <= 30.0 then (1.0, [GableUniformNote(alpha), GableNonUniformWarning])
      else
        var mu := if alpha <= 60.0 then (60.0 - alpha) / 30.0 else 0.0;
        (mu, [GableNote(mu), GableNonUniformWarning])
    else if roofType == "arch" then (1.0, [ArchNote])
    else (1.0, [UnknownRoofNote(roofType)])
  }

  /** The flat, single-slope and gable rows are ramps over 35, 30 and 30
      degrees; every other type gives 1. */
  lemma BaseMuIsRamp(roofType: string, alpha: real)
    ensures roofType == "flat" ==> BaseMu(roofType, alpha).0 == Ramp(alpha, 35.0)
    ensures roofType in {"single_slope", "gable"} ==> BaseMu(roofType, alpha).0 == Ramp(alpha, 30.0)
    ensures roofType !in {"flat", "single_slope", "gable"} ==> BaseMu(roofType, alpha).0 == 1.0
  {}

  /** The drift estimate: `min(2 h + 1, 4)`. */
  function LocalDriftMu(h: real): (mu: real)
    ensures mu <= 4.0 && mu <= 2.0 * h + 1.0
    ensures h > 0.0 ==> mu > 1.0
    ensures mu == 4.0 || mu == 2.0 * h + 1.0
  {
    if 2.0 * h / 1.0 + 1.0 < 4.0 then 2.0 * h / 1.0 + 1.0 else 4.0
  }

  /** The notes of the drift check (an adjacent higher roof) and of the
      parapet check. */
  function ExtraNotes(p: SnowLoadParams): (r: seq<SnowNote>)
    ensures DriftDetailNote in r <==> p.adjacentRoof && p.heightDifference > 0.0
    ensures ParapetNote(p.parapetHeight) in r <==> p.parapetHeight > 0.6
    ensures forall i :: 0 <= i < |r| ==> IsShapeNote(r[i])
  {
    (if p.adjacentRoof && p.heightDifference > 0.0
     then [DriftWarning(p.heightDifference, LocalDriftMu(p.heightDifference)), DriftDetailNote]
     else [])
    + (if p.parapetHeight > 0.6 then [ParapetNote(p.parapetHeight)] else [])
  }

  /** `calculate_mu`: the coefficient of the roof type, whose notes are
      followed by the drift and parapet notes; those checks never change
      mu. */
  function Mu(p: SnowLoadParams): (r: (real, seq<SnowNote>))
    ensures r.0 == BaseMu(p.roofType, p.roofAngle).0
    ensures r.1 == BaseMu(p.roofType, p.roofAngle).1 + ExtraNotes(p)
    ensures 0.0 <= r.0 <= 1.0
    ensures forall i :: 0 <= i < |r.1| ==> IsShapeNote(r.1[i])
  {
    var base := BaseMu(p.roofType, p.roofAngle);
    BaseMuIsRamp(p.roofType, p.roofAngle);
    (base.0, base.1 + ExtraNotes(p))
  }

  /** Within one roof type mu never grows with the angle. */
  lemma MuMonotone(p: SnowLoadParams, steeper: real)
    requires p.roofAngle <= steeper
    ensures Mu(p.(roofAngle := steeper)).0 <= Mu(p).0
  {
    BaseMuIsRamp(p.roofType, p.roofAngle);
    BaseMuIsRamp(p.roofType, steeper);
    if p.roofType == "flat" {
      RampMonotone(p.roofAngle, steeper, 35.0);
    } else if p.roofType in {"single_slope", "gable"} {
      RampMonotone(p.roofAngle, steeper, 30.0);
    }
  }

  /** A single-slope and a gable roof get the same mu at every angle; only
      the gable carries the non-uniform-distribution warning. */
  lemma SingleSlopeMatchesGable(p: SnowLoadParams)
    ensures Mu(p.(roofType := "single_slope")).0 == Mu(p.(roofType := "gable")).0
    ensures GableNonUniformWarning in Mu(p.(roofType := "gable")).1
    ensures GableNonUniformWarning !in BaseMu("single_slope", p.roofAngle).1
  {
    BaseMuIsRamp("single_slope", p.roofAngle);
    BaseMuIsRamp("gable", p.roofAngle);
  }

  /** The drift and parapet inputs change the notes but never mu. */
  lemma DriftKeepsMu(p: SnowLoadParams, adjacent: bool, h: real, parapet: real)
    ensures Mu(p.(adjacentRoof := adjacent, heightDifference := h, parapetHeight := parapet)).0 == Mu(p).0
  {}

  // ---------------------------------------------------------------------
  // The load
  // ---------------------------------------------------------------------

  /** The normative load S0 and the design load S; with non-negative
      factors both are non-negative and S is not below S0. */
  function SnowValues(sg: real, mu: real, ce: real, ct: real): (r: (real, real))
    ensures r.0 == sg * mu * ce * ct
    ensures r.1 == r.0 * GammaSnow
    ensures sg >= 0.0 && mu >= 0.0 && ce >= 0.0 && ct >= 0.0 ==> 0.0 <= r.0 <= r.1
  {
    var s0 := sg * mu * ce * ct;
    NonNegativeProduct(sg, mu, ce, ct);
    (s0, s0 * GammaSnow)
  }

  /** The load on the whole area, kN from kPa and m2. */
  function TotalLoad(s: real, area: real): (t: real)
    ensures t == s * area
    ensures s >= 0.0 && area >= 0.0 ==> t >= 0.0
  {
    s * area
  }

  /** The region's Sg, or the fallback for an unknown region. */
  function RegionSg(region: string): (r: (real, SnowNote))
    ensures HasKey(SnowRegions, region) ==> r == (Find(SnowRegions, region).value, RegionNote(region))
    ensures !HasKey(SnowRegions, region) ==> r == (FallbackSg, RegionFallbackNote(region))
  {
    match Find(SnowRegions, region)
    case Some(sg) => (sg, RegionNote(region))
    case None => (FallbackSg, RegionFallbackNote(region))
  }

  /** The notes after those of `calculate_mu`: Ce and Ct only when they
      differ from 1, then S0 and S, then the total only for a positive
      area. */
  function LoadNotes(ce: real, ct: real, s0: real, s: real, area: real, total: real): (r: seq<SnowNote>)
    ensures CeNote(ce) in r <==> ce != 1.0
    ensures CtNote(ct) in r <==> ct != 1.0
    ensures TotalNote(total) in r <==> area > 0.0
    ensures S0Note(s0) in r && SNote(s) in r
  {
    (if ce != 1.0 then [CeNote(ce)] else [])
    + (if ct != 1.0 then [CtNote(ct)] else [])
    + [S0Note(s0), SNote(s)]
    + (if area > 0.0 then [TotalNote(total)] else [])
  }

  /** `calculate_snow_load`. */
  function CalculateSnowLoad(p: SnowLoadParams): (r: SnowLoadResult)
    ensures r.elementId == p.elementId && r.elementName == p.elementName
    ensures r.sg == RegionSg(p.region).0
    ensures r.notes == [RegionSg(p.region).1] + Mu(p).1 + LoadNotes(p.ce, p.ct, r.s0, r.s, r.area, r.totalLoad)
    ensures r.mu == Mu(p).0 && r.ce == p.ce && r.ct == p.ct
    ensures (r.s0, r.s) == SnowValues(r.sg, r.mu, r.ce, r.ct)
    ensures r.gammaF == GammaSnow
    ensures r.area == LoadedArea(p.area) && r.totalLoad == TotalLoad(r.s, r.area)
  {
    var region := RegionSg(p.region);
    var shape := Mu(p);
    var values := SnowValues(region.0, shape.0, p.ce, p.ct);
    var area := LoadedArea(p.area);
    var total := TotalLoad(values.1, area);
    SnowLoadResult(p.elementId, p.elementName, region.0, shape.0, p.ce, p.ct, values.0, values.1,
                   GammaSnow, area, total,
                   [region.1] + shape.1 + LoadNotes(p.ce, p.ct, values.0, values.1, area, total))
  }

  /** The first note names the region, or says it fell back to region III.
      The Ce and Ct notes appear exactly when the coefficient differs from
      1, and the total note exactly when the area is positive. */
  lemma SnowNotes(p: SnowLoadParams)
    ensures var r := CalculateSnowLoad(p);
      && r.notes[0] == (if HasKey(SnowRegions, p.region) then RegionNote(p.region) else RegionFallbackNote(p.region))
      && (CeNote(p.ce) in r.notes <==> p.ce != 1.0)
      && (CtNote(p.ct) in r.notes <==> p.ct != 1.0)
      && (TotalNote(r.totalLoad) in r.notes <==> p.area > 0.0)
  {
    var r := CalculateSnowLoad(p);
    var m := Mu(p).1;
    var tail := LoadNotes(p.ce, p.ct, r.s0, r.s, r.area, r.totalLoad);
    var head := [RegionSg(p.region).1];
    assert r.notes == head + m + tail;
    InConcat(head, m, tail, CeNote(p.ce));
    InConcat(head, m, tail, CtNote(p.ct));
    InConcat(head, m, tail, TotalNote(r.totalLoad));
  }

  /** A note that neither the region nor `calculate_mu` writes is in the
      notes exactly when it is in their tail. */
  lemma InConcat(head: seq<SnowNote>, m: seq<SnowNote>, tail: seq<SnowNote>, n: SnowNote)
    requires |head| == 1 && (head[0].RegionNote? || head[0].RegionFallbackNote?)
    requires forall i :: 0 <= i < |m| ==> IsShapeNote(m[i])
    requires !IsShapeNote(n) && !n.RegionNote? && !n.RegionFallbackNote?
    ensures n in head + m + tail <==> n in tail
  {
    if n in head + m + tail && n !in tail {
      var i :| 0 <= i < |head + m + tail| && (head + m + tail)[i] == n;
    }
  }

  lemma NonNegativeProduct(a: real, b: real, c: real, d: real)
    ensures a >= 0.0 && b >= 0.0 && c >= 0.0 && d >= 0.0 ==> a * b * c * d >= 0.0
  {
    if a >= 0.0 && b >= 0.0 && c >= 0.0 && d >= 0.0 {
      assert a * b >= 0.0;
      assert a * b * c >= 0.0;
    }
  }

  /** The worked example: a flat roof at 10 degrees in region III with
      100 m2 gives S0 = 1.5 kPa, S = 2.1 kPa and 210 kN. */
  const DemoSnowParams: SnowLoadParams :=
    DefaultSnowParams.(elementId := "demo_roof_001", elementName := Some("Плита покрытия"),
                       area := 100.0, region := "III", roofAngle := 10.0, roofType := "flat")

  lemma DemoRoof()
    ensures var r := CalculateSnowLoad(DemoSnowParams);
      r.sg == 1.5 && r.mu == 1.0 && r.s0 == 1.5 && r.s == 2.1 && r.area == 100.0 && r.totalLoad == 210.0
  {
    FindAt(SnowRegions, "III", 2);
  }

  // ---------------------------------------------------------------------
  // Extraction from an element record
  // ---------------------------------------------------------------------

  const SlabQuantities: string := "Qto_SlabBaseQuantities"
  const RoofCommon: string := "Pset_RoofCommon"

  /** The roof area: `Pset_RoofCommon.ProjectedArea` if present, else the
      slab's `GrossArea`, else its `NetArea`, else 0. */
  function SnowArea(psets: PropertySets): (a: real)
    ensures var roof := PropertySet(psets, RoofCommon);
      "ProjectedArea" in roof ==> a == roof["ProjectedArea"]
    ensures var roof := PropertySet(psets, RoofCommon); var qto := PropertySet(psets, SlabQuantities);
      "ProjectedArea" !in roof && "GrossArea" in qto ==> a == qto["GrossArea"]
    ensures var roof := PropertySet(psets, RoofCommon); var qto := PropertySet(psets, SlabQuantities);
      "ProjectedArea" !in roof && "GrossArea" !in qto ==> a == GetOr(qto, "NetArea", 0.0)
  {
    var qto := PropertySet(psets, SlabQuantities);
    var fromSlab := if "GrossArea" in qto then qto["GrossArea"]
                    else if "NetArea" in qto then qto["NetArea"]
                    else 0.0;
    var roof := PropertySet(psets, RoofCommon);
    if "ProjectedArea" in roof then roof["ProjectedArea"] else fromSlab
  }

  /** `extract_snow_params_from_ifc_element`: only the identity and the
      area come from the record; region, angle, roof type, Ce and Ct keep
      their defaults. */
  function ExtractSnowParams(e: ElementRecord): (p: SnowLoadParams)
    ensures p.elementId == e.globalId && p.elementName == e.name
    ensures p.area == SnowArea(e.psets)
    ensures p.(elementId := "", elementName := Some(""), area := 0.0) == DefaultSnowParams
  {
    DefaultSnowParams.(elementId := e.globalId, elementName := e.name, area := SnowArea(e.psets))
  }
}

=== FILE: tables.dfy ===
/** Look-up tables keyed by strings, as the Python dictionaries of
    reference values are used: `d.get(key, default)` and `key in d`. */
module Tables {
  import opened Wrappers

  datatype Entry<V> = Entry(key: string, value: V)

  /** The table has an entry for `key`. */
  predicate HasKey<V>(table: seq<Entry<V>>, key: string) {
    exists i :: 0 <= i < |table| && table[i].key == key
  }

  /** The value of the first entry for `key`, if there is one. */
  function Find<V>(table: seq<Entry<V>>, key: string): (r: Option<V>)
    ensures r.Some? <==> HasKey(table, key)
    ensures r.Some? ==> exists i :: 0 <= i < |table| && table[i].key == key && table[i].value == r.value
  {
    if table == [] then None
    else if table[0].key == key then Some(table[0].value)
    else
      var r := Find(table[1..], key);
      assert forall i :: 1 <= i < |table| ==> table[i] == table[1..][i - 1];
      r
  }

  /** The entry at index `i`, with no earlier entry for the same key, is
      the one found. */
  lemma {:induction false} FindAt<V>(table: seq<Entry<V>>, key: string, i: nat)
    requires i < |table| && table[i].key == key
    requires forall j :: 0 <= j < i ==> table[j].key != key
    ensures Find(table, key) == Some(table[i].value)
    decreases i
  {
    if i > 0 {
      FindAt(table[1..], key, i - 1);
    }
  }
}

=== FILE: text.dfy ===
/** The handful of Python `str` operations the load calculators, the
    variable-name encoder and the list parsers are built from: whitespace,
    `strip`, `lower`, `in`, `startswith`, `split`, `join` and `replace`.
    Strings are sequences of Unicode scalar values, as in Python 3. */
module Text {

  /** Python's `str.isspace` for one character: the ASCII controls
      TAB..CR and FS..US, SPACE, NEL, NBSP and the Unicode space separators. */
  predicate IsSpace(c: char) {
    var n := c as int;
    || n == 0x20
    || 0x09 <= n <= 0x0D
    || 0x1C <= n <= 0x1F
    || n == 0x85
    || n == 0xA0
    || n == 0x1680
    || 0x2000 <= n <= 0x200A
    || n == 0x2028
    || n == 0x2029
    || n == 0x202F
    || n == 0x205F
    || n == 0x3000
  }

  /** Every character of `s` is whitespace (true of the empty string). */
  predicate AllSpace(s: string) {
    forall i :: 0 <= i < |s| ==> IsSpace(s[i])
  }

  /** Drops the leading whitespace: the result is a suffix of `s`, what was
      dropped is whitespace, and the result does not start with whitespace. */
  function TrimLeft(s: string): (r: string)
    ensures |r| <= |s| && r == s[|s| - |r|..]
    ensures AllSpace(s[..|s| - |r|])
    ensures |r| > 0 ==> !IsSpace(r[0])
    decreases |s|
  {
    if |s| > 0 && IsSpace(s[0]) then TrimLeft(s[1..]) else s
  }

  /** Drops the trailing whitespace: the result is a prefix of `s`, what was
      dropped is whitespace, and the result does not end with whitespace. */
  function TrimRight(s: string): (r: string)
    ensures |r| <= |s| && r == s[..|r|]
    ensures AllSpace(s[|r|..])
    ensures |r| > 0 ==> !IsSpace(r[|r| - 1])
    decreases |s|
  {
    if |s| > 0 && IsSpace(s[|s| - 1]) then TrimRight(s[..|s| - 1]) else s
  }

  /** Python's `str.strip()`. */
  function Strip(s: string): (r: string)
  {
    TrimRight(TrimLeft(s))
  }

  /** The result of `strip` is a contiguous piece of the input, everything cut
      off is whitespace, and the result neither starts nor ends with
      whitespace; a string that has no whitespace at either end is unchanged. */
  lemma StripSpec(s: string)
    ensures exists i, j {:trigger s[i..j]} ::
              (0 <= i <= j <= |s| && Strip(s) == s[i..j] && AllSpace(s[..i]) && AllSpace(s[j..]))
    ensures |Strip(s)| > 0 ==> !IsSpace(Strip(s)[0]) && !IsSpace(Strip(s)[|Strip(s)| - 1])
    ensures (|s| == 0 || (!IsSpace(s[0]) && !IsSpace(s[|s| - 1]))) ==> Strip(s) == s
  {
    var l := TrimLeft(s);
    var r := TrimRight(l);
    var i := |s| - |l|;
    var j := i + |r|;
    assert Strip(s) == s[i..j];
    assert s[j..] == l[|r|..];
    if |r| > 0 {
      assert r[0] == l[0];
    }
  }

  /** `strip` is idempotent. */
  lemma StripIdempotent(s: string)
    ensures Strip(Strip(s)) == Strip(s)
  {
    StripSpec(s);
    StripSpec(Strip(s));
  }

  /** Python's `str.lower()` for one character, for the scripts the material
      names use: ASCII, the Latin-1 supplement and basic Cyrillic. */
  function LowerChar(c: char): char {
    var n := c as int;
    if 0x41 <= n <= 0x5A || (0xC0 <= n <= 0xDE && n != 0xD7) || 0x410 <= n <= 0x42F then
      (n + 0x20) as char
    else if 0x400 <= n <= 0x40F then
      (n + 0x50) as char
    else
      c
  }

  /** Lower-casing never turns a character into whitespace, '-' or '_' or
      out of them, and lower-casing twice is lower-casing once. */
  lemma LowerCharFacts(c: char)
    ensures LowerChar(LowerChar(c)) == LowerChar(c)
    ensures IsSpace(LowerChar(c)) <==> IsSpace(c)
    ensures LowerChar(c) == '-' <==> c == '-'
    ensures LowerChar(c) == '_' <==> c == '_'
  {
  }

  /** Python's `str.lower()`, character by character. */
  function Lower(s: string): (r: string)
    ensures |r| == |s|
    ensures forall i :: 0 <= i < |s| ==> r[i] == LowerChar(s[i])
  {
    seq(|s|, i requires 0 <= i < |s| => LowerChar(s[i]))
  }

  /** Concatenation regroups. */
  lemma ConcatAssoc<T>(a: seq<T>, b: seq<T>, c: seq<T>)
    ensures a + b + c == a + (b + c)
  {
  }


  /** Lower-casing works piece by piece. */
  lemma LowerAppend(a: string, b: string)
    ensures Lower(a + b) == Lower(a) + Lower(b)
  {
    assert |Lower(a + b)| == |Lower(a) + Lower(b)|;
    forall i | 0 <= i < |a + b|
      ensures Lower(a + b)[i] == (Lower(a) + Lower(b))[i]
    {
      if i >= |a| {
        assert (a + b)[i] == b[i - |a|];
      }
    }
  }

  /** Lower-casing keeps whitespace whitespace. */
  lemma LowerAllSpace(s: string)
    requires AllSpace(s)
    ensures AllSpace(Lower(s))
  {
    forall i | 0 <= i < |s|
      ensures IsSpace(Lower(s)[i])
    {
      LowerCharFacts(s[i]);
    }
  }

  /** `strip` removes exactly the blank padding around a text that starts
      and ends with a non-blank. */
  lemma StripPadded(p: string, m: string, q: string)
    requires AllSpace(p) && AllSpace(q)
    requires m != [] && !IsSpace(m[0]) && !IsSpace(m[|m| - 1])
    ensures Strip(p + m + q) == m
  {
    ConcatAssoc(p, m, q);
    TrimLeftPadded(p, m + q);
    TrimRightPadded(m, q);
  }

  lemma {:induction false} TrimLeftPadded(p: string, t: string)
    requires AllSpace(p)
    requires t != [] && !IsSpace(t[0])
    ensures TrimLeft(p + t) == t
    decreases |p|
  {
    if p == [] {
      assert p + t == t;
    } else {
      assert (p + t)[1..] == p[1..] + t;
      TrimLeftPadded(p[1..], t);
    }
  }

  lemma {:induction false} TrimRightPadded(m: string, q: string)
    requires AllSpace(q)
    requires m != [] && !IsSpace(m[|m| - 1])
    ensures TrimRight(m + q) == m
    decreases |q|
  {
    if q == [] {
      assert m + q == m;
    } else {
      var n := |m + q|;
      assert (m + q)[..n - 1] == m + q[..|q| - 1];
      TrimRightPadded(m, q[..|q| - 1]);
    }
  }

  /** Lower-casing commutes with `strip`. */
  lemma LowerStrip(s: string)
    ensures Lower(Strip(s)) == Strip(Lower(s))
  {
    var p, q := StripPieces(s);
    if Strip(s) == [] {
      LowerStripBlank(p, q);
    } else {
      StripSpec(s);
      LowerStripPadded(p, Strip(s), q);
    }
  }

  /** `strip` cuts a text into blank padding around its result. */
  lemma StripPieces(s: string) returns (p: string, q: string)
    ensures s == p + Strip(s) + q && AllSpace(p) && AllSpace(q)
  {
    p := TrimLeftSplit(s);
    q := TrimRightSplit(TrimLeft(s));
    ConcatAssoc(p, Strip(s), q);
  }

  lemma TrimLeftSplit(s: string) returns (p: string)
    ensures s == p + TrimLeft(s) && AllSpace(p)
  {
    var l := TrimLeft(s);
    p := s[..|s| - |l|];
    assert s == p + s[|s| - |l|..];
  }

  lemma TrimRightSplit(l: string) returns (q: string)
    ensures l == TrimRight(l) + q && AllSpace(q)
  {
    var m := TrimRight(l);
    q := l[|m|..];
    assert l == l[..|m|] + q;
  }

  /** A blank text stays blank when lower-cased, and strips to nothing. */
  lemma LowerStripBlank(p: string, q: string)
    requires AllSpace(p) && AllSpace(q)
    ensures Strip(Lower(p + [] + q)) == []
  {
    assert p + [] + q == p + q;
    AllSpaceAppend(p, q);
    LowerAllSpace(p + q);
    StripAllSpace(Lower(p + q));
  }

  /** Lower-casing a padded text and stripping it leaves the lower-cased
      middle. */
  lemma LowerStripPadded(p: string, m: string, q: string)
    requires AllSpace(p) && AllSpace(q)
    requires m != [] && !IsSpace(m[0]) && !IsSpace(m[|m| - 1])
    ensures Strip(Lower(p + m + q)) == Lower(m)
  {
    LowerAppend(p + m, q);
    LowerAppend(p, m);
    LowerAllSpace(p);
    LowerAllSpace(q);
    LowerEnds(m);
    StripPadded(Lower(p), Lower(m), Lower(q));
  }

  /** Lower-casing keeps a text's first and last characters non-blank. */
  lemma LowerEnds(m: string)
    requires m != [] && !IsSpace(m[0]) && !IsSpace(m[|m| - 1])
    ensures Lower(m) != [] && !IsSpace(Lower(m)[0]) && !IsSpace(Lower(m)[|Lower(m)| - 1])
  {
    LowerCharFacts(m[0]);
    LowerCharFacts(m[|m| - 1]);
  }

  lemma AllSpaceAppend(a: string, b: string)
    requires AllSpace(a) && AllSpace(b)
    ensures AllSpace(a + b)
  {
    forall k | 0 <= k < |a + b|
      ensures IsSpace((a + b)[k])
    {
      if k >= |a| {
        assert (a + b)[k] == b[k - |a|];
      }
    }
  }

  /** A blank string strips to nothing. */
  lemma StripAllSpace(s: string)
    requires AllSpace(s)
    ensures Strip(s) == []
  {
    assert TrimLeft(s) == [];
  }

  /** Python's `s.startswith(p)`. */
  predicate StartsWith(s: string, p: string) {
    |p| <= |s| && s[..|p|] == p
  }

  /** Python's `p in s`: `p` occurs in `s` at some position. */
  predicate Contains(s: string, p: string)
    decreases |s|
  {
    |p| <= |s| && (s[..|p|] == p || (|s| > 0 && Contains(s[1..], p)))
  }

  /** `p` occurs in `s` starting at index `i`. */
  predicate OccursAt(s: string, p: string, i: int) {
    0 <= i <= |s| - |p| && s[i..i + |p|] == p
  }

  /** `p in s` holds exactly when `p` occurs at some index of `s`. */
  lemma {:induction false} ContainsAt(s: string, p: string)
    ensures Contains(s, p) <==> exists i :: OccursAt(s, p, i)
    decreases |s|
  {
    if |p| <= |s| && s[..|p|] == p {
      assert OccursAt(s, p, 0);
    } else if |p| <= |s| && |s| > 0 {
      ContainsAt(s[1..], p);
      if Contains(s[1..], p) {
        var i :| OccursAt(s[1..], p, i);
        assert OccursAt(s, p, i + 1);
      }
      if exists i :: OccursAt(s, p, i) {
        var i :| OccursAt(s, p, i);
        assert i != 0;
        assert OccursAt(s[1..], p, i - 1);
      }
    }
  }

  /** Number of occurrences of character `c` in `s`. */
  function Count(s: string, c: char): nat
  {
    if s == [] then 0 else (if s[0] == c then 1 else 0) + Count(s[1..], c)
  }

  /** A character that does not occur is counted zero times. */
  lemma {:induction false} CountAbsent(s: string, c: char)
    requires c !in s
    ensures Count(s, c) == 0
    decreases |s|
  {
    if s != [] {
      CountAbsent(s[1..], c);
    }
  }

  lemma {:induction false} CountAppend(a: string, b: string, c: char)
    ensures Count(a + b, c) == Count(a, c) + Count(b, c)
    decreases |a|
  {
    if a == [] {
      assert a + b == b;
    } else {
      assert (a + b)[0] == a[0];
      assert (a + b)[1..] == a[1..] + b;
      CountAppend(a[1..], b, c);
    }
  }

  /** Python's `s.split(sep)` for a one-character separator: the pieces
      between separators, in order, always at least one. */
  function Split(s: string, sep: char): (parts: seq<string>)
    ensures |parts| >= 1
    ensures forall i :: 0 <= i < |parts| ==> sep !in parts[i]
    ensures Join(parts, sep) == s
    decreases |s|
  {
    if s == [] then [""]
    else
      var rest := Split(s[1..], sep);
      if s[0] == sep then [""] + rest
      else
        var parts := [[s[0]] + rest[0]] + rest[1..];
        assert parts[1..] == rest[1..];
        parts
  }

  /** Python's `sep.join(parts)`. */
  function Join(parts: seq<string>, sep: char): string
  {
    if parts == [] then ""
    else if |parts| == 1 then parts[0]
    else parts[0] + [sep] + Join(parts[1..], sep)
  }

  /** `split` undoes `join` when no piece contains the separator. */
  lemma {:induction false} SplitJoin(parts: seq<string>, sep: char)
    requires |parts| >= 1
    requires forall i :: 0 <= i < |parts| ==> sep !in parts[i]
    ensures Split(Join(parts, sep), sep) == parts
    decreases |parts|, |parts[0]|
  {
    if |parts| == 1 {
      SplitNoSep(parts[0], sep);
    } else if parts[0] == [] {
      var s := Join(parts, sep);
      assert s == [sep] + Join(parts[1..], sep);
      assert s[1..] == Join(parts[1..], sep);
      SplitJoin(parts[1..], sep);
      assert Split(s, sep) == [""] + parts[1..];
    } else {
      var s := Join(parts, sep);
      var head := parts[0];
      var parts' := [head[1..]] + parts[1..];
      assert parts'[1..] == parts[1..];
      assert head[0] != sep;
      assert forall i :: 0 <= i < |parts'| ==> sep !in parts'[i] by {
        assert forall c :: c in head[1..] ==> c in head;
      }
      assert s[1..] == Join(parts', sep);
      SplitJoin(parts', sep);
      assert [head[0]] + head[1..] == head;
    }
  }

  lemma {:induction false} SplitNoSep(s: string, sep: char)
    requires sep !in s
    ensures Split(s, sep) == [s]
    decreases |s|
  {
    if s != [] {
      SplitNoSep(s[1..], sep);
      assert [s[0]] + s[1..] == s;
    }
  }

  /** Python's `s.replace(pat, rep)`: scans left to right and replaces every
      non-overlapping occurrence of `pat` by `rep`. */
  function Replace(s: string, pat: string, rep: string): string
    requires |pat| > 0
    decreases |s|
  {
    if |s| < |pat| then s
    else if s[..|pat|] == pat then rep + Replace(s[|pat|..], pat, rep)
    else [s[0]] + Replace(s[1..], pat, rep)
  }

  /** A string in which `pat` does not occur is left unchanged. */
  lemma {:induction false} ReplaceAbsent(s: string, pat: string, rep: string)
    requires |pat| > 0
    requires !Contains(s, pat)
    ensures Replace(s, pat, rep) == s
    decreases |s|
  {
    if |s| >= |pat| {
      ReplaceAbsent(s[1..], pat, rep);
      assert [s[0]] + s[1..] == s;
    }
  }

  /** Rewriting introduces no character that is in neither the input nor
      the replacement text. */
  lemma {:induction false} ReplaceKeepsAbsent(s: string, pat: string, rep: string, c: char)
    requires |pat| > 0 && c !in s && c !in rep
    ensures c !in Replace(s, pat, rep)
    decreases |s|
  {
    if |s| < |pat| {
    } else if s[..|pat|] == pat {
      ReplaceKeepsAbsent(s[|pat|..], pat, rep, c);
    } else {
      ReplaceKeepsAbsent(s[1..], pat, rep, c);
    }
  }

  /** An occurrence at the front is rewritten and the scan resumes after it. */
  lemma ReplaceHit(pat: string, rest: string, rep: string)
    requires |pat| > 0
    ensures Replace(pat + rest, pat, rep) == rep + Replace(rest, pat, rep)
  {
    assert (pat + rest)[..|pat|] == pat;
    assert (pat + rest)[|pat|..] == rest;
  }

  /** A prefix that cannot start an occurrence is copied unchanged. */
  lemma {:induction false} ReplaceFreePrefix(x: string, t: string, pat: string, rep: string)
    requires |pat| > 0
    requires pat[0] !in x
    ensures Replace(x + t, pat, rep) == x + Replace(t, pat, rep)
    decreases |x|
  {
    if x == [] {
      assert x + t == t;
    } else if |x + t| < |pat| {
      assert |t| < |pat|;
    } else {
      var s := x + t;
      assert s[..|pat|][0] == x[0] && x[0] in x;
      assert s[1..] == x[1..] + t;
      assert Replace(s, pat, rep) == [x[0]] + Replace(x[1..] + t, pat, rep);
      ReplaceFreePrefix(x[1..], t, pat, rep);
      assert [x[0]] + x[1..] == x;
    }
  }

  /** A one-character pattern is rewritten independently in each part. */
  lemma {:induction false} ReplaceCharAppend(a: string, b: string, c: char, rep: string)
    ensures Replace(a + b, [c], rep) == Replace(a, [c], rep) + Replace(b, [c], rep)
    decreases |a|
  {
    if a == [] {
      assert a + b == b;
    } else {
      assert (a + b)[1..] == a[1..] + b;
      assert (a + b)[..1] == a[..1];
      ReplaceCharAppend(a[1..], b, c, rep);
    }
  }

  /** Number of occurrences `Replace` rewrites. */
  function Matches(s: string, pat: string): nat
    requires |pat| > 0
    decreases |s|
  {
    if |s| < |pat| then 0
    else if s[..|pat|] == pat then 1 + Matches(s[|pat|..], pat)
    else Matches(s[1..], pat)
  }

  /** For a one-character pattern the rewrites are exactly its occurrences. */
  lemma {:induction false} MatchesChar(s: string, c: char)
    ensures Matches(s, [c]) == Count(s, c)
    decreases |s|
  {
    if s != [] {
      MatchesChar(s[1..], c);
    }
  }

  /** An occurrence of `p` contains the first character of `p`. */
  lemma {:induction false} ContainsHead(s: string, p: string)
    requires |p| > 0
    requires Contains(s, p)
    ensures p[0] in s
    decreases |s|
  {
    if s[..|p|] == p {
      assert s[0] == p[0];
    } else {
      ContainsHead(s[1..], p);
    }
  }

  /** A rewrite whose pattern starts with a character the text lacks leaves
      the text alone. */
  lemma ReplaceFree(s: string, pat: string, rep: string)
    requires |pat| > 0 && pat[0] !in s
    ensures Replace(s, pat, rep) == s
  {
    if Contains(s, pat) {
      ContainsHead(s, pat);
    }
    ReplaceAbsent(s, pat, rep);
  }

  /** Replacing a single character by a text that does not contain it leaves
      no occurrence of that character. */
  lemma {:induction false} ReplaceRemovesChar(s: string, c: char, rep: string)
    requires c !in rep
    ensures c !in Replace(s, [c], rep)
    decreases |s|
  {
    if |s| >= 1 {
      ReplaceRemovesChar(s[1..], c, rep);
    }
  }

  /** Each rewritten occurrence trades `|pat|` characters for `|rep|`. */
  lemma {:induction false} ReplaceLength(s: string, pat: string, rep: string)
    requires |pat| > 0
    ensures |Replace(s, pat, rep)| == |s| + (|rep| - |pat|) * Matches(s, pat)
    decreases |s|
  {
    if |s| < |pat| {
    } else if s[..|pat|] == pat {
      var tail := s[|pat|..];
      assert Replace(s, pat, rep) == rep + Replace(tail, pat, rep);
      assert Matches(s, pat) == 1 + Matches(tail, pat);
      ReplaceLength(tail, pat, rep);
      Distribute(|rep| - |pat|, Matches(tail, pat));
    } else {
      assert Replace(s, pat, rep) == [s[0]] + Replace(s[1..], pat, rep);
      assert Matches(s, pat) == Matches(s[1..], pat);
      ReplaceLength(s[1..], pat, rep);
    }
  }

  /** Each rewritten occurrence trades the copies of `d` in `pat` for those
      in `rep`; other copies of `d` are kept. */
  lemma {:induction false} ReplaceCount(s: string, pat: string, rep: string, d: char)
    requires |pat| > 0
    ensures Count(Replace(s, pat, rep), d) == Count(s, d) + (Count(rep, d) - Count(pat, d)) * Matches(s, pat)
    decreases |s|
  {
    if |s| < |pat| {
    } else if s[..|pat|] == pat {
      ReplaceCount(s[|pat|..], pat, rep, d);
      ReplaceCountHit(s, pat, rep, d);
    } else {
      ReplaceCount(s[1..], pat, rep, d);
      ReplaceCountSkip(s, pat, rep, d);
    }
  }

  lemma ReplaceCountHit(s: string, pat: string, rep: string, d: char)
    requires |pat| > 0 && |s| >= |pat| && s[..|pat|] == pat
    requires Count(Replace(s[|pat|..], pat, rep), d)
      == Count(s[|pat|..], d) + (Count(rep, d) - Count(pat, d)) * Matches(s[|pat|..], pat)
    ensures Count(Replace(s, pat, rep), d) == Count(s, d) + (Count(rep, d) - Count(pat, d)) * Matches(s, pat)
  {
    var tail := s[|pat|..];
    var r := Replace(tail, pat, rep);
    var m := Matches(tail, pat);
    var k := Count(rep, d) - Count(pat, d);
    assert Replace(s, pat, rep) == rep + r;
    assert Matches(s, pat) == 1 + m;
    CountAppend(rep, r, d);
    assert s == pat + tail;
    CountAppend(pat, tail, d);
    Distribute(k, m);
  }

  lemma Distribute(k: int, m: int)
    ensures k * (1 + m) == k + k * m
  {
  }

  lemma ReplaceCountSkip(s: string, pat: string, rep: string, d: char)
    requires |pat| > 0 && |s| >= |pat| && s[..|pat|] != pat
    requires Count(Replace(s[1..], pat, rep), d)
      == Count(s[1..], d) + (Count(rep, d) - Count(pat, d)) * Matches(s[1..], pat)
    ensures Count(Replace(s, pat, rep), d) == Count(s, d) + (Count(rep, d) - Count(pat, d)) * Matches(s, pat)
  {
    var tail := s[1..];
    assert Replace(s, pat, rep) == [s[0]] + Replace(tail, pat, rep);
    assert Matches(s, pat) == Matches(tail, pat);
    CountAppend([s[0]], Replace(tail, pat, rep), d);
  }

  /** A string that does not start with the first character of `p` holds
      `p` exactly when its tail does. */
  lemma ContainsStep(s: string, p: string)
    requires |p| > 0 && |s| > 0 && s[0] != p[0]
    ensures Contains(s, p) <==> Contains(s[1..], p)
  {
    if |p| <= |s| {
      assert s[..|p|][0] == s[0];
    }
  }

  /** A prefix free of the first character of `p` neither creates nor hides
      an occurrence of `p`. */
  lemma {:induction false} ContainsFreePrefix(x: string, t: string, p: string)
    requires |p| > 0 && p[0] !in x
    ensures Contains(x + t, p) <==> Contains(t, p)
    decreases |x|
  {
    if x != [] {
      assert x[0] in x;
      assert (x + t)[0] == x[0];
      ContainsStep(x + t, p);
      assert forall c :: c in x[1..] ==> c in x;
      assert (x + t)[1..] == x[1..] + t;
      ContainsFreePrefix(x[1..], t, p);
    } else {
      assert x + t == t;
    }
  }

  /** Replacing a character `c` by a non-empty text that starts and ends
      with characters other than `d`, and holds no `d`, keeps the
      first character's `d`-ness. */
  lemma ReplaceCharHead(s: string, c: char, rep: string, d: char)
    requires c != d && |rep| > 0 && d !in rep
    requires |s| > 0
    ensures |Replace(s, [c], rep)| > 0
    ensures Replace(s, [c], rep)[0] == d <==> s[0] == d
  {
    if s[0] == c {
      assert Replace(s, [c], rep) == rep + Replace(s[1..], [c], rep);
      assert Replace(s, [c], rep)[0] == rep[0];
    } else {
      assert Replace(s, [c], rep) == [s[0]] + Replace(s[1..], [c], rep);
    }
  }

  /** Replacing a character `c` by a text without `d` neither creates nor
      destroys a pair `dd` of adjacent characters. */
  lemma {:induction false} ReplaceCharKeepsPair(s: string, c: char, rep: string, d: char)
    requires c != d && |rep| > 0 && d !in rep
    ensures Contains(Replace(s, [c], rep), [d, d]) <==> Contains(s, [d, d])
    decreases |s|
  {
    if s == [] {
      return;
    }
    var t := Replace(s[1..], [c], rep);
    ReplaceCharKeepsPair(s[1..], c, rep, d);
    if s[0] == c {
      assert Replace(s, [c], rep) == rep + t;
      ContainsFreePrefix(rep, t, [d, d]);
      ContainsStep(s, [d, d]);
    } else if s[0] != d {
      assert Replace(s, [c], rep) == [s[0]] + t;
      assert ([s[0]] + t)[1..] == t;
      ContainsStep([s[0]] + t, [d, d]);
      ContainsStep(s, [d, d]);
    } else {
      var r := [s[0]] + t;
      assert Replace(s, [c], rep) == r;
      assert r[1..] == t;
      if |s| > 1 {
        ReplaceCharHead(s[1..], c, rep, d);
        assert r[..2] == [d, d] <==> t[0] == d;
        assert s[..2] == [d, d] <==> s[1] == d;
      } else {
        assert t == [];
      }
    }
  }

  /** A rewrite whose pattern and replacement hold no `d` keeps the number
      of `d`s. */
  lemma ReplaceKeepsCount(s: string, pat: string, rep: string, d: char)
    requires |pat| > 0 && d !in pat && d !in rep
    ensures Count(Replace(s, pat, rep), d) == Count(s, d)
  {
    ReplaceCount(s, pat, rep, d);
    CountAbsent(pat, d);
    CountAbsent(rep, d);
  }

  /** Every occurrence of `pat` is found by the left-to-right scan: if `pat`
      occurs in `s`, at least one rewrite happens. */
  lemma {:induction false} ContainsMatches(s: string, pat: string)
    requires |pat| > 0
    requires Contains(s, pat)
    ensures Matches(s, pat) >= 1
    decreases |s|
  {
    if s[..|pat|] != pat {
      ContainsMatches(s[1..], pat);
    }
  }

  /** A list item as the list parsers keep it: not empty, and with no
      whitespace at either end (so `strip` leaves it unchanged). */
  predicate Item(s: string) {
    |s| > 0 && !IsSpace(s[0]) && !IsSpace(s[|s| - 1])
  }

  /** `[p.strip() for p in parts]`. */
  function StripEach(parts: seq<string>): (r: seq<string>)
    ensures |r| == |parts|
    ensures forall i :: 0 <= i < |r| ==> r[i] == Strip(parts[i])
  {
    seq(|parts|, i requires 0 <= i < |parts| => Strip(parts[i]))
  }

  /** The filter `if p`: the non-empty strings, in order. */
  function NonEmpty(xs: seq<string>): (r: seq<string>)
    ensures |r| <= |xs|
    ensures forall i :: 0 <= i < |r| ==> r[i] in xs && r[i] != ""
    ensures r == [] <==> forall i :: 0 <= i < |xs| ==> xs[i] == ""
  {
    if xs == [] then []
    else (if xs[0] == "" then [] else [xs[0]]) + NonEmpty(xs[1..])
  }

  /** The filter keeps the order: it distributes over concatenation. */
  lemma {:induction false} NonEmptyAppend(a: seq<string>, b: seq<string>)
    ensures NonEmpty(a + b) == NonEmpty(a) + NonEmpty(b)
    decreases |a|
  {
    if a == [] {
      assert a + b == b;
    } else {
      assert (a + b)[0] == a[0] && (a + b)[1..] == a[1..] + b;
      NonEmptyAppend(a[1..], b);
    }
  }

  /** The filter keeps every non-empty string. */
  lemma {:induction false} NonEmptyKeeps(xs: seq<string>, x: string)
    requires x in xs && x != ""
    ensures x in NonEmpty(xs)
    decreases |xs|
  {
    if xs[0] != x {
      NonEmptyKeeps(xs[1..], x);
    }
  }

  /** A list without empty strings passes the filter unchanged. */
  lemma {:induction false} NonEmptyClean(xs: seq<string>)
    requires forall i :: 0 <= i < |xs| ==> xs[i] != ""
    ensures NonEmpty(xs) == xs
    decreases |xs|
  {
    if xs != [] {
      NonEmptyClean(xs[1..]);
    }
  }

  /** The comprehension `[p.strip() for p in parts if p.strip()]`. */
  function StrippedItems(parts: seq<string>): (r: seq<string>)
    ensures forall i :: 0 <= i < |r| ==> Item(r[i])
  {
    var stripped := StripEach(parts);
    assert forall i :: 0 <= i < |stripped| && stripped[i] != "" ==> Item(stripped[i]) by {
      forall i | 0 <= i < |stripped|
        ensures stripped[i] != "" ==> Item(stripped[i])
      {
        StripSpec(parts[i]);
      }
    }
    NonEmpty(stripped)
  }

  /** Stripping takes nothing in: a character absent from a piece is absent
      from the piece stripped. */
  lemma StripKeepsAbsent(s: string, c: char)
    requires c !in s
    ensures c !in Strip(s)
  {
    var l := TrimLeft(s);
    SliceKeepsAbsent(s, |s| - |l|, |s|, c);
    SliceKeepsAbsent(l, 0, |TrimRight(l)|, c);
  }

  /** A slice holds only characters of the whole. */
  lemma SliceKeepsAbsent(s: string, i: nat, j: nat, c: char)
    requires c !in s && i <= j <= |s|
    ensures c !in s[i..j]
  {
    forall k | 0 <= k < j - i
      ensures s[i..j][k] != c
    {
      assert s[i..j][k] == s[i + k];
    }
  }

  /** `[p.strip() for p in s.split(sep) if p.strip()]`: the non-blank items
      of a separated list. No item holds the separator. */
  function SplitItems(s: string, sep: char): (r: seq<string>)
    ensures forall i :: 0 <= i < |r| ==> Item(r[i]) && sep !in r[i]
  {
    var parts := Split(s, sep);
    assert forall i :: 0 <= i < |parts| ==> sep !in Strip(parts[i]) by {
      forall i | 0 <= i < |parts|
        ensures sep !in Strip(parts[i])
      {
        StripKeepsAbsent(parts[i], sep);
      }
    }
    StrippedItems(parts)
  }

  /** Parsing a list written with `sep.join` gives the list back, as long as
      its items are non-blank, stripped and free of the separator. */
  lemma SplitItemsJoin(items: seq<string>, sep: char)
    requires forall i :: 0 <= i < |items| ==> Item(items[i]) && sep !in items[i]
    ensures SplitItems(Join(items, sep), sep) == items
  {
    if items == [] {
      assert Split("", sep) == [""];
      assert Strip("") == "";
    } else {
      SplitJoin(items, sep);
      assert StripEach(items) == items by {
        forall i | 0 <= i < |items|
          ensures Strip(items[i]) == items[i]
        {
          StripSpec(items[i]);
        }
      }
      NonEmptyClean(items);
    }
  }
}

=== FILE: var_names.dfy ===
/** `VN`, the encoder that turns a calculation-module variable or check name
    into an identifier the automation server accepts, by an ordered series of
    `str.replace` rewrites. Two variants exist: the one in
    self_made_vb_modules/1.py (also copied into snow_overhang_calc.py and
    report_example.py) rewrites `..` before single dots; the one in
    official_examples/armirovanie_pliti.py has no `..` rule. */
module VarNames {
  import opened Text

  const Space := " "
  const DoubleDot := ".."
  const Dot := "."
  const Minus := "-"
  const OpenBracket := "("
  const CloseBracket := ")"

  const SpaceCode := "_spc_"
  const DoubleDotCode := "_zpt_"
  const DotCode := "_pnt_"
  const MinusCode := "_minus_"
  const OpenBracketCode := "_bkt1_"
  const CloseBracketCode := "_bkt2_"

  /** The characters an encoded name never contains. */
  predicate IsReserved(c: char) {
    c == ' ' || c == '.' || c == '-' || c == '(' || c == ')'
  }

  predicate NoReserved(s: string) {
    forall i :: 0 <= i < |s| ==> !IsReserved(s[i])
  }

  /** The rewrites both variants apply after the dot handling. */
  function EncodeTail(s: string): string {
    var s4 := Replace(s, Minus, MinusCode);
    var s5 := Replace(s4, OpenBracket, OpenBracketCode);
    Replace(s5, CloseBracket, CloseBracketCode)
  }

  /** `VN` of self_made_vb_modules/1.py: space, `..`, `.`, `-`, `(`, `)` in
      that order. Its result contains none of the reserved characters, and a
      name without them is returned unchanged. */
  function VN(name: string): (r: string)
    ensures NoReserved(r)
    ensures NoReserved(name) ==> r == name
  {
    var s1 := Replace(name, Space, SpaceCode);
    var s2 := Replace(s1, DoubleDot, DoubleDotCode);
    var s3 := Replace(s2, Dot, DotCode);
    var r := EncodeTail(s3);
    EncodedHasNoReserved(name, s1, s2, s3);
    NoReservedFixed(name);
    r
  }

  /** `VN` of official_examples/armirovanie_pliti.py: the same rewrites
      without the `..` rule. Its result contains none of the reserved
      characters, and a name without them is returned unchanged. */
  function VNSingleDot(name: string): (r: string)
    ensures NoReserved(r)
    ensures NoReserved(name) ==> r == name
  {
    var s1 := Replace(name, Space, SpaceCode);
    var s3 := Replace(s1, Dot, DotCode);
    var r := EncodeTail(s3);
    EncodedHasNoReserved(name, s1, s1, s3);
    NoReservedFixed(name);
    r
  }

  lemma CharFree(s: string, c: char)
    requires c !in s
    ensures !Contains(s, [c])
  {
    if Contains(s, [c]) {
      ContainsHead(s, [c]);
    }
  }

  lemma NoReservedFixed(name: string)
    ensures NoReserved(name) ==>
      && Replace(name, Space, SpaceCode) == name
      && Replace(name, DoubleDot, DoubleDotCode) == name
      && Replace(name, Dot, DotCode) == name
      && EncodeTail(name) == name
  {
    if !NoReserved(name) {
      return;
    }
    assert ' ' !in name && '.' !in name && '-' !in name && '(' !in name && ')' !in name;
    CharFree(name, ' ');
    ReplaceAbsent(name, Space, SpaceCode);
    CharFree(name, '.');
    ReplaceAbsent(name, Dot, DotCode);
    CharFree(name, '-');
    ReplaceAbsent(name, Minus, MinusCode);
    CharFree(name, '(');
    ReplaceAbsent(name, OpenBracket, OpenBracketCode);
    CharFree(name, ')');
    ReplaceAbsent(name, CloseBracket, CloseBracketCode);
    if Contains(name, DoubleDot) {
      ContainsHead(name, DoubleDot);
    }
    ReplaceAbsent(name, DoubleDot, DoubleDotCode);
  }

  lemma EncodedHasNoReserved(name: string, s1: string, s2: string, s3: string)
    requires s1 == Replace(name, Space, SpaceCode)
    requires s2 == s1 || s2 == Replace(s1, DoubleDot, DoubleDotCode)
    requires s3 == Replace(s2, Dot, DotCode)
    ensures NoReserved(EncodeTail(s3))
  {
    ReplaceRemovesChar(name, ' ', SpaceCode);
    if s2 != s1 {
      ReplaceKeepsAbsent(s1, DoubleDot, DoubleDotCode, ' ');
    }
    ReplaceRemovesChar(s2, '.', DotCode);
    ReplaceKeepsAbsent(s2, Dot, DotCode, ' ');
    var s4 := Replace(s3, Minus, MinusCode);
    ReplaceRemovesChar(s3, '-', MinusCode);
    ReplaceKeepsAbsent(s3, Minus, MinusCode, ' ');
    ReplaceKeepsAbsent(s3, Minus, MinusCode, '.');
    var s5 := Replace(s4, OpenBracket, OpenBracketCode);
    ReplaceRemovesChar(s4, '(', OpenBracketCode);
    ReplaceKeepsAbsent(s4, OpenBracket, OpenBracketCode, ' ');
    ReplaceKeepsAbsent(s4, OpenBracket, OpenBracketCode, '.');
    ReplaceKeepsAbsent(s4, OpenBracket, OpenBracketCode, '-');
    var s6 := Replace(s5, CloseBracket, CloseBracketCode);
    ReplaceRemovesChar(s5, ')', CloseBracketCode);
    ReplaceKeepsAbsent(s5, CloseBracket, CloseBracketCode, ' ');
    ReplaceKeepsAbsent(s5, CloseBracket, CloseBracketCode, '.');
    ReplaceKeepsAbsent(s5, CloseBracket, CloseBracketCode, '-');
    ReplaceKeepsAbsent(s5, CloseBracket, CloseBracketCode, '(');
    assert EncodeTail(s3) == s6;
  }

  lemma NoReservedAppend(a: string, b: string)
    ensures NoReserved(a + b) <==> NoReserved(a) && NoReserved(b)
  {
    if NoReserved(a) && NoReserved(b) {
      forall i | 0 <= i < |a + b|
        ensures !IsReserved((a + b)[i])
      {
        if i >= |a| {
          assert (a + b)[i] == b[i - |a|];
        }
      }
    }
    if NoReserved(a + b) {
      forall i | 0 <= i < |a|
        ensures !IsReserved(a[i])
      {
        assert (a + b)[i] == a[i];
      }
      forall i | 0 <= i < |b|
        ensures !IsReserved(b[i])
      {
        assert (a + b)[|a| + i] == b[i];
      }
    }
  }

  /** Rewrites the pattern `x + pat + y` where neither `x` nor `y` holds the
      first character of `pat`. */
  lemma ReplaceOne(x: string, y: string, pat: string, rep: string)
    requires |pat| > 0
    requires pat[0] !in x && pat[0] !in y
    ensures Replace(x + pat + y, pat, rep) == x + rep + y
  {
    assert x + pat + y == x + (pat + y);
    ReplaceFreePrefix(x, pat + y, pat, rep);
    ReplaceHit(pat, y, rep);
    if Contains(y, pat) {
      ContainsHead(y, pat);
    }
    ReplaceAbsent(y, pat, rep);
  }

  /** A space becomes `_spc_`, in both variants. */
  lemma VNSpace(x: string, y: string)
    requires NoReserved(x) && NoReserved(y)
    ensures VN(x + " " + y) == x + "_spc_" + y
    ensures VNSingleDot(x + " " + y) == x + "_spc_" + y
  {
    assert ' ' !in x && ' ' !in y;
    ReplaceOne(x, y, Space, SpaceCode);
    var t := x + SpaceCode + y;
    NoReservedAppend(x, SpaceCode);
    NoReservedAppend(x + SpaceCode, y);
    NoReservedFixed(t);
  }

  /** A minus sign becomes `_minus_`, in both variants. */
  lemma VNMinus(x: string, y: string)
    requires NoReserved(x) && NoReserved(y)
    ensures VN(x + "-" + y) == x + "_minus_" + y
    ensures VNSingleDot(x + "-" + y) == x + "_minus_" + y
  {
    assert ' ' !in x && ' ' !in y && '.' !in x && '.' !in y && '-' !in x && '-' !in y;
    assert '(' !in x && '(' !in y && ')' !in x && ')' !in y;
    var s := x + Minus + y;
    ReplaceFree(s, Space, SpaceCode);
    ReplaceFree(s, DoubleDot, DoubleDotCode);
    ReplaceFree(s, Dot, DotCode);
    ReplaceOne(x, y, Minus, MinusCode);
    var t := x + MinusCode + y;
    ReplaceFree(t, OpenBracket, OpenBracketCode);
    ReplaceFree(t, CloseBracket, CloseBracketCode);
  }

  /** An opening bracket becomes `_bkt1_`, in both variants. */
  lemma VNOpenBracket(x: string, y: string)
    requires NoReserved(x) && NoReserved(y)
    ensures VN(x + "(" + y) == x + "_bkt1_" + y
    ensures VNSingleDot(x + "(" + y) == x + "_bkt1_" + y
  {
    assert ' ' !in x && ' ' !in y && '.' !in x && '.' !in y && '-' !in x && '-' !in y;
    assert '(' !in x && '(' !in y && ')' !in x && ')' !in y;
    var s := x + OpenBracket + y;
    ReplaceFree(s, Space, SpaceCode);
    ReplaceFree(s, DoubleDot, DoubleDotCode);
    ReplaceFree(s, Dot, DotCode);
    ReplaceFree(s, Minus, MinusCode);
    ReplaceOne(x, y, OpenBracket, OpenBracketCode);
    ReplaceFree(x + OpenBracketCode + y, CloseBracket, CloseBracketCode);
  }

  /** A closing bracket becomes `_bkt2_`, in both variants. */
  lemma VNCloseBracket(x: string, y: string)
    requires NoReserved(x) && NoReserved(y)
    ensures VN(x + ")" + y) == x + "_bkt2_" + y
    ensures VNSingleDot(x + ")" + y) == x + "_bkt2_" + y
  {
    assert ' ' !in x && ' ' !in y && '.' !in x && '.' !in y && '-' !in x && '-' !in y;
    assert '(' !in x && '(' !in y && ')' !in x && ')' !in y;
    var s := x + CloseBracket + y;
    ReplaceFree(s, Space, SpaceCode);
    ReplaceFree(s, DoubleDot, DoubleDotCode);
    ReplaceFree(s, Dot, DotCode);
    ReplaceFree(s, Minus, MinusCode);
    ReplaceFree(s, OpenBracket, OpenBracketCode);
    ReplaceOne(x, y, CloseBracket, CloseBracketCode);
  }

  /** `..` is rewritten as a unit, before single dots: `a..b` becomes
      `a_zpt_b` whenever `a` and `b` hold no reserved characters. */
  lemma VNDoubleDot(x: string, y: string)
    requires NoReserved(x) && NoReserved(y)
    ensures VN(x + ".." + y) == x + "_zpt_" + y
  {
    var s := x + DoubleDot + y;
    assert ' ' !in s by {
      NoReservedAppend(x, DoubleDot);
      assert ' ' !in DoubleDot;
      assert ' ' !in x && ' ' !in y;
    }
    CharFree(s, ' ');
    ReplaceAbsent(s, Space, SpaceCode);
    assert '.' !in x && '.' !in y;
    ReplaceOne(x, y, DoubleDot, DoubleDotCode);
    var t := x + DoubleDotCode + y;
    NoReservedAppend(x, DoubleDotCode);
    NoReservedAppend(x + DoubleDotCode, y);
    NoReservedFixed(t);
  }

  /** A single dot followed by a dot-free text holds no `..`. */
  lemma DotThenFree(y: string)
    requires '.' !in y
    ensures Replace(Dot + y, DoubleDot, DoubleDotCode) == Dot + y
  {
    if |Dot + y| >= 2 {
      assert (Dot + y)[1] == y[0];
      assert (Dot + y)[..2] != DoubleDot;
      assert (Dot + y)[1..] == y;
      if Contains(y, DoubleDot) {
        ContainsHead(y, DoubleDot);
      }
      ReplaceAbsent(y, DoubleDot, DoubleDotCode);
    }
  }

  /** A single dot becomes `_pnt_`. */
  lemma VNDot(x: string, y: string)
    requires NoReserved(x) && NoReserved(y)
    ensures VN(x + "." + y) == x + "_pnt_" + y
  {
    var s := x + Dot + y;
    assert ' ' !in x && ' ' !in y && '.' !in x && '.' !in y;
    assert ' ' !in s;
    CharFree(s, ' ');
    ReplaceAbsent(s, Space, SpaceCode);
    assert s == x + (Dot + y);
    ReplaceFreePrefix(x, Dot + y, DoubleDot, DoubleDotCode);
    DotThenFree(y);
    ReplaceOne(x, y, Dot, DotCode);
    var t := x + DotCode + y;
    NoReservedAppend(x, DotCode);
    NoReservedAppend(x + DotCode, y);
    NoReservedFixed(t);
  }

  /** Three dots: the first two form `..`, the third is a single dot. */
  lemma VNTripleDot(x: string, y: string)
    requires NoReserved(x) && NoReserved(y)
    ensures VN(x + "..." + y) == x + "_zpt__pnt_" + y
  {
    assert ' ' !in x && ' ' !in y && '.' !in x && '.' !in y;
    var s := x + (DoubleDot + (Dot + y));
    assert x + "..." + y == s;
    var t := x + (DoubleDotCode + (Dot + y));
    var u := x + DoubleDotCode + DotCode + y;
    var s1 := Replace(s, Space, SpaceCode);
    assert s1 == s by {
      assert ' ' !in s;
      CharFree(s, ' ');
      ReplaceAbsent(s, Space, SpaceCode);
    }
    var s2 := Replace(s1, DoubleDot, DoubleDotCode);
    assert s2 == t by {
      ReplaceFreePrefix(x, DoubleDot + (Dot + y), DoubleDot, DoubleDotCode);
      ReplaceHit(DoubleDot, Dot + y, DoubleDotCode);
      DotThenFree(y);
    }
    var s3 := Replace(s2, Dot, DotCode);
    assert s3 == u by {
      assert t == x + DoubleDotCode + Dot + y;
      ReplaceOne(x + DoubleDotCode, y, Dot, DotCode);
    }
    assert EncodeTail(u) == u by {
      NoReservedAppend(x, DoubleDotCode);
      NoReservedAppend(x + DoubleDotCode, DotCode);
      NoReservedAppend(x + DoubleDotCode + DotCode, y);
      NoReservedFixed(u);
    }
    assert u == x + "_zpt__pnt_" + y;
  }

  /** Without the `..` rule each of two adjacent dots becomes `_pnt_`. */
  lemma VNSingleDotOnDoubleDot(x: string, y: string)
    requires NoReserved(x) && NoReserved(y)
    ensures VNSingleDot(x + ".." + y) == x + "_pnt__pnt_" + y
  {
    assert ' ' !in x && ' ' !in y && '.' !in x && '.' !in y;
    var s := x + (Dot + (Dot + y));
    assert x + ".." + y == s;
    var u := x + (DotCode + (DotCode + y));
    var s1 := Replace(s, Space, SpaceCode);
    assert s1 == s by {
      assert ' ' !in s;
      CharFree(s, ' ');
      ReplaceAbsent(s, Space, SpaceCode);
    }
    var s3 := Replace(s1, Dot, DotCode);
    assert s3 == u by {
      ReplaceFreePrefix(x, Dot + (Dot + y), Dot, DotCode);
      ReplaceHit(Dot, Dot + y, DotCode);
      ReplaceHit(Dot, y, DotCode);
      CharFree(y, '.');
      ReplaceAbsent(y, Dot, DotCode);
    }
    assert EncodeTail(u) == u by {
      assert u == x + DotCode + DotCode + y;
      NoReservedAppend(x, DotCode);
      NoReservedAppend(x + DotCode, DotCode);
      NoReservedAppend(x + DotCode + DotCode, y);
      NoReservedFixed(u);
    }
    assert u == x + "_pnt__pnt_" + y;
  }

  /** The two variants disagree exactly on names containing `..`: without
      it they produce the same identifier, with it the first one emits a
      `_zpt_` the second one never does. */
  lemma VariantsDiffer(name: string)
    ensures VN(name) == VNSingleDot(name) <==> !Contains(name, DoubleDot)
  {
    var s1 := Replace(name, Space, SpaceCode);
    ReplaceCharKeepsPair(name, ' ', SpaceCode, '.');
    assert DoubleDot == ['.', '.'];
    if !Contains(name, DoubleDot) {
      ReplaceAbsent(s1, DoubleDot, DoubleDotCode);
    } else {
      ContainsMatches(s1, DoubleDot);
      DoubleDotCountsZ(s1);
      var s2 := Replace(s1, DoubleDot, DoubleDotCode);
      SingleDotStagesKeepZ(s2);
      SingleDotStagesKeepZ(s1);
    }
  }

  /** The `..` rule is the only rewrite that emits a `z`, one per match. */
  lemma DoubleDotCountsZ(s: string)
    ensures Count(Replace(s, DoubleDot, DoubleDotCode), 'z') == Count(s, 'z') + Matches(s, DoubleDot)
  {
    ReplaceCount(s, DoubleDot, DoubleDotCode, 'z');
    CountAbsent(DoubleDot, 'z');
    assert DoubleDotCode == "_" + "z" + "pt_";
    CountAppend("_", "z" + "pt_", 'z');
    CountAppend("z", "pt_", 'z');
    CountAbsent("_", 'z');
    CountAbsent("pt_", 'z');
  }

  /** The single-dot rule and the tail rewrites emit no `z`. */
  lemma SingleDotStagesKeepZ(s: string)
    ensures Count(EncodeTail(Replace(s, Dot, DotCode)), 'z') == Count(s, 'z')
  {
    var s3 := Replace(s, Dot, DotCode);
    ReplaceKeepsCount(s, Dot, DotCode, 'z');
    var s4 := Replace(s3, Minus, MinusCode);
    ReplaceKeepsCount(s3, Minus, MinusCode, 'z');
    var s5 := Replace(s4, OpenBracket, OpenBracketCode);
    ReplaceKeepsCount(s4, OpenBracket, OpenBracketCode, 'z');
    ReplaceKeepsCount(s5, CloseBracket, CloseBracketCode, 'z');
  }
}

=== FILE: wind_load.dfy ===
/** Wind load on a building surface after SP 20.13330.2016, section 11:
    the normative pressure w0 of the wind region (table 11.1), the height
    factor k(ze) and pulsation factor zeta(ze) of the terrain type, the
    aerodynamic coefficient c of the surface, the mean and pulsation parts,
    their combination and the load factor 1.4. Also the four-surface
    building run and the extractor from one element record.

    Real exponentiation is not modelled: every operation that raises to a
    real power takes the power function `pow` as a parameter. */
module WindLoad {
  import opened Wrappers
  import opened Element
  import opened Tables

  /** `WIND_REGIONS_W0`: normative wind pressure w0 in kPa per region. */
  const WindRegions: seq<Entry<real>> := [
    Entry("Ia", 0.17),
    Entry("I", 0.23),
    Entry("II", 0.30),
    Entry("III", 0.38),
    Entry("IV", 0.48),
    Entry("V", 0.60),
    Entry("VI", 0.73),
    Entry("VII", 0.85)
  ]

  /** w0 used for a region the table does not know (region III). */
  const FallbackW0: real := 0.38

  /** The row of `TERRAIN_PARAMS` for one terrain type. */
  datatype Terrain = Terrain(alpha: real, k10: real, zeta10: real, z0: real)

  const TerrainB: Terrain := Terrain(0.20, 0.65, 1.06, 10.0)

  const Terrains: seq<Entry<Terrain>> := [
    Entry("A", Terrain(0.15, 1.0, 0.76, 5.0)),
    Entry("B", TerrainB),
    Entry("C", Terrain(0.25, 0.40, 1.78, 20.0))
  ]

  /** `GAMMA_F_WIND`. */
  const GammaWind: real := 1.4

  /** `AERO_COEFFICIENTS` for rectangular buildings. */
  const AeroCoefficients: seq<Entry<real>> := [
    Entry("windward", 0.8),
    Entry("leeward", -0.5),
    Entry("side", -0.6),
    Entry("roof_flat", -0.7),
    Entry("roof_windward", -0.6),
    Entry("roof_leeward", -0.4)
  ]

  /** The coefficient of a surface type the table does not know. */
  const DefaultAero: real := 0.8

  const WindDirections: seq<string> := ["0°", "90°", "180°", "270°"]

  /** A real power function, `x ** y`. */
  type Pow = (real, real) -> real

  datatype WindLoadParams = WindLoadParams(
    elementId: string,
    elementName: ElementName,
    elementHeight: real,
    elementWidth: real,
    elementArea: real,
    region: string,
    terrain: string,
    buildingHeight: real,
    buildingWidth: real,
    buildingLength: real,
    surfaceType: string,
    customAero: Option<real>,
    includePulsation: bool,
    nu: real)

  /** The dataclass defaults. */
  const DefaultWindParams: WindLoadParams :=
    WindLoadParams("", Some(""), 0.0, 0.0, 0.0, "III", "B", 10.0, 20.0, 30.0, "windward", None, true, 0.8)

  /** The notes the calculation appends, without their wording. */
  datatype WindNote =
    | RegionNote(region: string)
    | RegionFallbackNote(region: string)
    | TerrainNote(terrain: string)
    | TerrainFallbackNote(terrain: string)
    | HeightNote(ze: real)
    | KNote(k: real)
    | ZetaNote(zeta: real)
    | AeroNote(c: real, surfaceType: string)
    | MeanNote(wm: real)
    | CorrelationNote(nu: real)
    | PulsationNote(wp: real)
    | NoPulsationNote
    | NormativeNote(wNorm: real)
    | DesignNote(wCalc: real)
    | TotalNote(total: real)
    | DirectionsNote

  /** The only exception the calculation can raise: the correlation
      formula divides by zero. */
  datatype WindError = ZeroDivision

  datatype WindLoadResult = WindLoadResult(
    elementId: string,
    elementName: ElementName,
    w0: real,
    kZe: real,
    c: real,
    wm: real,
    zeta: real,
    nu: real,
    wp: real,
    wNorm: real,
    wCalc: real,
    gammaF: real,
    area: real,
    totalLoad: real,
    directions: seq<string>,
    notes: seq<WindNote>)

  function Abs(x: real): (a: real)
    ensures a >= 0.0 && (a == x || a == -x)
  {
    if x >= 0.0 then x else -x
  }

  function Max(a: real, b: real): (m: real)
    ensures m >= a && m >= b && (m == a || m == b)
  {
    if a >= b then a else b
  }

  // ---------------------------------------------------------------------
  // Tables
  // ---------------------------------------------------------------------

  /** w0 grows strictly from region Ia (0.17 kPa) to region VII (0.85 kPa). */
  lemma W0Increasing()
    ensures WindRegions[0].value == 0.17 && WindRegions[|WindRegions| - 1].value == 0.85
    ensures forall i, j :: 0 <= i < j < |WindRegions| ==> WindRegions[i].value < WindRegions[j].value
  {
    forall i, j | 0 <= i < j < |WindRegions|
      ensures WindRegions[i].value < WindRegions[j].value
    {
      W0Step(i, j);
    }
  }

  lemma W0Step(i: nat, j: nat)
    requires i < j < |WindRegions|
    ensures WindRegions[i].value < WindRegions[j].value
    decreases j - i
  {
    if i + 1 < j {
      W0Step(i + 1, j);
    }
  }

  /** The region's w0 and its note, or the fallback for an unknown region. */
  function RegionW0(region: string): (r: (real, WindNote))
    ensures HasKey(WindRegions, region) ==> r == (Find(WindRegions, region).value, RegionNote(region))
    ensures !HasKey(WindRegions, region) ==> r == (FallbackW0, RegionFallbackNote(region))
  {
    match Find(WindRegions, region)
    case Some(w0) => (w0, RegionNote(region))
    case None => (FallbackW0, RegionFallbackNote(region))
  }

  /** The terrain type used and its note: an unknown type becomes B. */
  function TerrainChoice(terrain: string): (r: (string, WindNote))
    ensures HasKey(Terrains, terrain) ==> r == (terrain, TerrainNote(terrain))
    ensures !HasKey(Terrains, terrain) ==> r == ("B", TerrainFallbackNote(terrain))
    ensures HasKey(Terrains, r.0)
  {
    if HasKey(Terrains, terrain) then (terrain, TerrainNote(terrain))
    else
      assert Terrains[1].key == "B";
      ("B", TerrainFallbackNote(terrain))
  }

  /** `TERRAIN_PARAMS.get(terrain, TERRAIN_PARAMS["B"])`. */
  function TerrainParams(terrain: string): (t: Terrain)
    ensures t.alpha > 0.0 && t.k10 > 0.0 && t.zeta10 > 0.0 && t.z0 > 0.0
    ensures HasKey(Terrains, terrain) ==> t == Find(Terrains, terrain).value
    ensures !HasKey(Terrains, terrain) ==> t == TerrainB
  {
    Find(Terrains, terrain).GetOr(TerrainB)
  }

  // ---------------------------------------------------------------------
  // Coefficients
  // ---------------------------------------------------------------------

  /** `calculate_k_ze`: formula 11.4 with the height raised to at least z0.
      With a power function that is positive on positive bases, both
      factors are positive. */
  function KZe(ze: real, terrain: string, pow: Pow): (r: (real, real))
    ensures (forall x: real, y: real :: x > 0.0 ==> pow(x, y) > 0.0) ==> r.0 > 0.0 && r.1 > 0.0
  {
    var t := TerrainParams(terrain);
    var zc := Max(ze, t.z0);
    var k := t.k10 * pow(zc / 10.0, 2.0 * t.alpha);
    var zeta := t.zeta10 * pow(zc / 10.0, -t.alpha);
    PositiveScale(t.k10, pow(zc / 10.0, 2.0 * t.alpha));
    PositiveScale(t.zeta10, pow(zc / 10.0, -t.alpha));
    (k, zeta)
  }

  lemma PositiveScale(a: real, b: real)
    requires a > 0.0
    ensures b > 0.0 ==> a * b > 0.0
  {}

  /** An unknown terrain type is computed as terrain B. */
  lemma KZeUnknownTerrain(ze: real, terrain: string, pow: Pow)
    requires !HasKey(Terrains, terrain)
    ensures KZe(ze, terrain, pow) == KZe(ze, "B", pow)
  {
    FindAt(Terrains, "B", 1);
  }

  /** Every height at or below the terrain's z0 gives the factors of z0. */
  lemma KZeClamp(ze: real, terrain: string, pow: Pow)
    requires ze <= TerrainParams(terrain).z0
    ensures KZe(ze, terrain, pow) == KZe(TerrainParams(terrain).z0, terrain, pow)
  {}

  /** At the reference height 10 m on terrain B the factors are k10 = 0.65
      and zeta10 = 1.06, for any power function with 1 ** e == 1. */
  lemma KZeReferenceHeight(pow: Pow)
    requires pow(1.0, 0.4) == 1.0 && pow(1.0, -0.2) == 1.0
    ensures KZe(10.0, "B", pow) == (0.65, 1.06)
  {
    FindAt(Terrains, "B", 1);
  }

  /** A low element on terrain B (2 m) is computed as if at 10 m. */
  lemma LowElementOnTerrainB(pow: Pow)
    ensures KZe(2.0, "B", pow) == KZe(10.0, "B", pow)
  {
    FindAt(Terrains, "B", 1);
    KZeClamp(2.0, "B", pow);
  }

  /** The denominator of the correlation formula. */
  function CorrelationDenominator(rho: real, chi: real): real {
    1.0 + 0.8 * (rho + chi)
  }

  /** `calculate_correlation_coefficient`: nu = 1 / (1 + 0.8 (rho + chi))
      clamped to [0.4, 1]; a zero denominator raises. The terrain argument
      of the source is unused and is not modelled. */
  function Correlation(rho: real, chi: real): (r: Result<real, WindError>)
    ensures r.Failure? <==> CorrelationDenominator(rho, chi) == 0.0
    ensures r.Success? ==> 0.4 <= r.value <= 1.0
  {
    var d := CorrelationDenominator(rho, chi);
    if d == 0.0 then Failure(ZeroDivision)
    else
      var nu := 1.0 / d;
      Success(Max(0.4, if 1.0 < nu then 1.0 else nu))
  }

  /** A building with rho + chi <= 0 (but a positive denominator) is fully
      correlated; from rho + chi >= 1.875 on, and whenever the denominator is
      negative, the lower bound 0.4 applies; in between nu is the reciprocal
      of the denominator. */
  lemma CorrelationRegimes(rho: real, chi: real)
    ensures var d := CorrelationDenominator(rho, chi);
      && (d > 0.0 && rho + chi <= 0.0 ==> Correlation(rho, chi) == Success(1.0))
      && (rho + chi >= 1.875 ==> Correlation(rho, chi) == Success(0.4))
      && (d < 0.0 ==> Correlation(rho, chi) == Success(0.4))
      && (0.0 <= rho + chi <= 1.875 ==> Correlation(rho, chi).Success? && Correlation(rho, chi).value * d == 1.0)
  {
    var d := CorrelationDenominator(rho, chi);
    if d > 0.0 && rho + chi <= 0.0 {
      ReciprocalAtLeastOne(d);
    }
    if rho + chi >= 1.875 {
      ReciprocalAtMost(d);
    }
    if d < 0.0 {
      assert 1.0 / d < 0.0;
    }
    if 0.0 <= rho + chi <= 1.875 {
      ReciprocalBetween(d);
    }
  }

  lemma ReciprocalAtLeastOne(d: real)
    requires 0.0 < d <= 1.0
    ensures 1.0 / d >= 1.0
  {}

  lemma ReciprocalAtMost(d: real)
    requires d >= 2.5
    ensures 1.0 / d <= 0.4
  {}

  lemma ReciprocalBetween(d: real)
    requires 1.0 <= d <= 2.5
    ensures 0.4 <= 1.0 / d <= 1.0 && (1.0 / d) * d == 1.0
  {}

  /** `get_aero_coefficient`: the caller's value whenever one is given,
      whatever its sign; otherwise the table's, defaulting to 0.8. */
  function AeroCoefficient(surfaceType: string, custom: Option<real>): (c: real)
    ensures custom.Some? ==> c == custom.value
    ensures custom.None? && HasKey(AeroCoefficients, surfaceType) ==> c == Find(AeroCoefficients, surfaceType).value
    ensures custom.None? && !HasKey(AeroCoefficients, surfaceType) ==> c == DefaultAero
  {
    match custom
    case Some(v) => v
    case None => Find(AeroCoefficients, surfaceType).GetOr(DefaultAero)
  }

  /** The four surfaces of the building run get 0.8, -0.5, -0.6 and -0.7:
      pressure on the windward wall, suction elsewhere. */
  lemma BuildingSurfaceCoefficients(surfaceType: string)
    requires surfaceType in {"windward", "leeward", "side", "roof_flat"}
    ensures surfaceType == "windward" ==> AeroCoefficient(surfaceType, None) == 0.8
    ensures surfaceType == "leeward" ==> AeroCoefficient(surfaceType, None) == -0.5
    ensures surfaceType == "side" ==> AeroCoefficient(surfaceType, None) == -0.6
    ensures surfaceType == "roof_flat" ==> AeroCoefficient(surfaceType, None) == -0.7
  {
    if surfaceType == "windward" {
      AeroOfKey("windward", 0);
    } else if surfaceType == "leeward" {
      AeroOfKey("leeward", 1);
    } else if surfaceType == "side" {
      AeroOfKey("side", 2);
    } else {
      AeroOfKey("roof_flat", 3);
    }
  }

  /** The table entry for a surface type that no earlier entry has. */
  lemma AeroOfKey(surfaceType: string, i: nat)
    requires i < |AeroCoefficients| && AeroCoefficients[i].key == surfaceType
    requires forall j :: 0 <= j < i ==> AeroCoefficients[j].key != surfaceType
    ensures AeroCoefficient(surfaceType, None) == AeroCoefficients[i].value
  {
    FindAt(AeroCoefficients, surfaceType, i);
  }

  // ---------------------------------------------------------------------
  // The load
  // ---------------------------------------------------------------------

  /** The equivalent height ze: the element's when positive, else the
      building's. */
  function EquivalentHeight(p: WindLoadParams): (ze: real)
    ensures p.elementHeight > 0.0 ==> ze == p.elementHeight
    ensures p.elementHeight <= 0.0 ==> ze == p.buildingHeight
  {
    if p.elementHeight > 0.0 then p.elementHeight else p.buildingHeight
  }

  /** The equivalent height is one of the two heights given, and it is
      positive as soon as either is. */
  lemma EquivalentHeightPositive(p: WindLoadParams)
    ensures EquivalentHeight(p) == p.elementHeight || EquivalentHeight(p) == p.buildingHeight
    ensures p.elementHeight > 0.0 || p.buildingHeight > 0.0 ==> EquivalentHeight(p) > 0.0
  {
  }

  /** The mean part wm = w0 k c. */
  function MeanLoad(w0: real, k: real, c: real): (wm: real)
    ensures wm == w0 * k * c
  {
    w0 * k * c
  }

  /** With positive w0 and k(ze) the mean load has the sign of the
      aerodynamic coefficient: pressure for c > 0, suction for c < 0, and it
      grows in proportion to w0. */
  lemma MeanLoadSign(w0: real, k: real, c: real)
    requires w0 > 0.0 && k > 0.0
    ensures c > 0.0 <==> MeanLoad(w0, k, c) > 0.0
    ensures c < 0.0 <==> MeanLoad(w0, k, c) < 0.0
    ensures MeanLoad(2.0 * w0, k, c) == 2.0 * MeanLoad(w0, k, c)
  {
    assert w0 * k > 0.0;
  }

  /** The size parameters of the correlation: rho = W / 10H, chi = L / 10H. */
  function Rho(p: WindLoadParams): real
    requires p.buildingHeight > 0.0
  {
    p.buildingWidth / (10.0 * p.buildingHeight)
  }

  function Chi(p: WindLoadParams): real
    requires p.buildingHeight > 0.0
  {
    p.buildingLength / (10.0 * p.buildingHeight)
  }

  /** nu is recomputed only when pulsation is on and the building has a
      positive width and height. */
  predicate RecomputesNu(p: WindLoadParams) {
    p.includePulsation && p.buildingWidth > 0.0 && p.buildingHeight > 0.0
  }

  /** The inputs on which the recomputation of nu divides by zero. */
  predicate CorrelationFails(p: WindLoadParams) {
    RecomputesNu(p) && CorrelationDenominator(Rho(p), Chi(p)) == 0.0
  }

  /** The pulsation part wp = |wm| zeta nu. */
  function PulsationLoad(wm: real, zeta: real, nu: real): (wp: real)
    ensures wp == Abs(wm) * zeta * nu
    ensures zeta >= 0.0 && nu >= 0.0 ==> wp >= 0.0
  {
    NonNegativeProduct(Abs(wm), zeta, nu);
    Abs(wm) * zeta * nu
  }

  lemma NonNegativeProduct(a: real, b: real, c: real)
    ensures a >= 0.0 && b >= 0.0 && c >= 0.0 ==> a * b * c >= 0.0
  {
    if a >= 0.0 && b >= 0.0 && c >= 0.0 {
      assert a * b >= 0.0;
    }
  }

  /** The correlation coefficient and the pulsation part (nu, wp). */
  function Pulsation(p: WindLoadParams, wm: real, zeta: real): (r: Result<(real, real), WindError>)
    ensures r.Failure? <==> CorrelationFails(p)
    ensures r.Success? && RecomputesNu(p) ==> Correlation(Rho(p), Chi(p)) == Success(r.value.0)
    ensures r.Success? && !RecomputesNu(p) ==> r.value.0 == p.nu
    ensures r.Success? && p.includePulsation ==> r.value.1 == PulsationLoad(wm, zeta, r.value.0)
    ensures r.Success? && !p.includePulsation ==> r.value.1 == 0.0
  {
    if !p.includePulsation then Success((p.nu, 0.0))
    else if p.buildingWidth > 0.0 && p.buildingHeight > 0.0 then
      match Correlation(Rho(p), Chi(p))
      case Failure(e) => Failure(e)
      case Success(nu) => Success((nu, PulsationLoad(wm, zeta, nu)))
    else Success((p.nu, PulsationLoad(wm, zeta, p.nu)))
  }

  /** The normative load keeps the sign of wm and adds wp to its size. */
  function Combine(wm: real, wp: real): (w: real)
    ensures wm >= 0.0 ==> w == wm + wp
    ensures wm < 0.0 ==> w == wm - wp
  {
    if wm >= 0.0 then wm + wp else wm - wp
  }

  /** A non-negative pulsation part adds to the size of the mean part and
      keeps its sign: it never reduces |w_norm| below |wm|. */
  lemma CombineMagnitude(wm: real, wp: real)
    requires wp >= 0.0
    ensures Abs(Combine(wm, wp)) == Abs(wm) + wp
    ensures Abs(Combine(wm, wp)) >= Abs(wm)
    ensures wm > 0.0 ==> Combine(wm, wp) > 0.0
    ensures wm < 0.0 ==> Combine(wm, wp) < 0.0
  {}

  /** The total force |w_calc| times the area. */
  function WindTotal(wCalc: real, area: real): (t: real)
    ensures t == Abs(wCalc) * area
    ensures area >= 0.0 ==> t >= 0.0
  {
    Abs(wCalc) * area
  }

  /** The notes after the mean load: the pulsation notes, the normative and
      design notes, the total only for a positive area, and the closing
      directions note. */
  function LateNotes(includePulsation: bool, nu: real, wp: real, wNorm: real, wCalc: real,
                     area: real, total: real): (r: seq<WindNote>)
    ensures CorrelationNote(nu) in r <==> includePulsation
    ensures NoPulsationNote in r <==> !includePulsation
    ensures TotalNote(total) in r <==> area > 0.0
    ensures |r| >= 3 && r[|r| - 1] == DirectionsNote
  {
    (if includePulsation then [CorrelationNote(nu), PulsationNote(wp)] else [NoPulsationNote])
    + [NormativeNote(wNorm), DesignNote(wCalc)]
    + (if area > 0.0 then [TotalNote(total)] else [])
    + [DirectionsNote]
  }

  /** The result once w0, the factors, c and wm are known and the
      pulsation part did not fail. */
  function Assemble(p: WindLoadParams, w0: real, k: real, zeta: real, c: real, wm: real,
                    nu: real, wp: real, early: seq<WindNote>): (r: WindLoadResult)
    ensures r.elementId == p.elementId && r.elementName == p.elementName
    ensures r.w0 == w0 && r.kZe == k && r.zeta == zeta && r.c == c && r.wm == wm
    ensures r.nu == nu && r.wp == wp
    ensures r.wNorm == Combine(wm, wp) && r.wCalc == r.wNorm * GammaWind && r.gammaF == GammaWind
    ensures r.area == LoadedArea(p.elementArea) && r.totalLoad == WindTotal(r.wCalc, r.area)
    ensures r.directions == WindDirections
    ensures r.notes == early + LateNotes(p.includePulsation, nu, wp, r.wNorm, r.wCalc, r.area, r.totalLoad)
  {
    var wNorm := Combine(wm, wp);
    var wCalc := wNorm * GammaWind;
    var area := LoadedArea(p.elementArea);
    var total := WindTotal(wCalc, area);
    WindLoadResult(p.elementId, p.elementName, w0, k, c, wm, zeta, nu, wp, wNorm, wCalc, GammaWind,
                   area, total, WindDirections,
                   early + LateNotes(p.includePulsation, nu, wp, wNorm, wCalc, area, total))
  }

  /** The notes up to the mean load, in the order they are written. */
  function EarlyNotes(p: WindLoadParams, ze: real, k: real, zeta: real, c: real, wm: real): (r: seq<WindNote>)
    ensures |r| == 7 && r[0] == RegionW0(p.region).1 && r[1] == TerrainChoice(p.terrain).1
    ensures forall i :: 0 <= i < |r| ==> r[i] != NoPulsationNote && !r[i].CorrelationNote? && !r[i].TotalNote?
  {
    var region := RegionW0(p.region).1;
    var terrain := TerrainChoice(p.terrain).1;
    assert region.RegionNote? || region.RegionFallbackNote?;
    assert terrain.TerrainNote? || terrain.TerrainFallbackNote?;
    [region, terrain, HeightNote(ze), KNote(k), ZetaNote(zeta), AeroNote(c, p.surfaceType), MeanNote(wm)]
  }

  /** `calculate_wind_load`. It fails exactly when the recomputed
      correlation divides by zero. */
  function CalculateWindLoad(p: WindLoadParams, pow: Pow): (r: Result<WindLoadResult, WindError>)
    ensures r.Failure? <==> CorrelationFails(p)
    ensures r.Success? ==>
      var w := r.value;
      var ze := EquivalentHeight(p);
      && w == Assemble(p, RegionW0(p.region).0, w.kZe, w.zeta, w.c, w.wm, w.nu, w.wp,
                       EarlyNotes(p, ze, w.kZe, w.zeta, w.c, w.wm))
      && (w.kZe, w.zeta) == KZe(ze, TerrainChoice(p.terrain).0, pow)
      && w.c == AeroCoefficient(p.surfaceType, p.customAero)
      && w.wm == MeanLoad(w.w0, w.kZe, w.c)
      && Pulsation(p, w.wm, w.zeta) == Success((w.nu, w.wp))
  {
    var w0 := RegionW0(p.region).0;
    var terrain := TerrainChoice(p.terrain).0;
    var ze := EquivalentHeight(p);
    var kz := KZe(ze, terrain, pow);
    var c := AeroCoefficient(p.surfaceType, p.customAero);
    var wm := MeanLoad(w0, kz.0, c);
    match Pulsation(p, wm, kz.1)
    case Failure(e) => Failure(e)
    case Success(pw) =>
      Success(Assemble(p, w0, kz.0, kz.1, c, wm, pw.0, pw.1, EarlyNotes(p, ze, kz.0, kz.1, c, wm)))
  }

  /** The result's magnitudes: |w_norm| is |wm| plus a pulsation part that
      is never negative when pulsation is off or nu is recomputed (given a
      positive power function), and the total force is never negative. */
  lemma WindMagnitudes(p: WindLoadParams, pow: Pow)
    requires forall x: real, y: real :: x > 0.0 ==> pow(x, y) > 0.0
    requires CalculateWindLoad(p, pow).Success?
    requires RecomputesNu(p) || !p.includePulsation || p.nu >= 0.0
    ensures var w := CalculateWindLoad(p, pow).value;
      && w.wp >= 0.0
      && Abs(w.wNorm) == Abs(w.wm) + w.wp
      && Abs(w.wCalc) >= Abs(w.wm)
      && w.totalLoad >= 0.0
  {
    var w := CalculateWindLoad(p, pow).value;
    assert w.zeta > 0.0;
    PulsationNonNegative(p, w.wm, w.zeta);
    CombineMagnitude(w.wm, w.wp);
  }

  /** The pulsation part is never negative when the pulsation factor is
      not, unless a negative caller nu is used. */
  lemma PulsationNonNegative(p: WindLoadParams, wm: real, zeta: real)
    requires zeta >= 0.0 && Pulsation(p, wm, zeta).Success?
    requires RecomputesNu(p) || !p.includePulsation || p.nu >= 0.0
    ensures Pulsation(p, wm, zeta).value.1 >= 0.0
  {
    var nu := Pulsation(p, wm, zeta).value.0;
    if p.includePulsation {
      assert nu >= 0.0;
    }
  }

  /** The first note names the region (or its fallback), the second the
      terrain (or its fallback to B); the correlation note appears exactly
      when pulsation is on, the total note exactly for a positive area, and
      the directions note closes the list. */
  lemma WindNotes(p: WindLoadParams, pow: Pow)
    requires CalculateWindLoad(p, pow).Success?
    ensures var w := CalculateWindLoad(p, pow).value;
      && |w.notes| >= 10
      && w.notes[0] == (if HasKey(WindRegions, p.region) then RegionNote(p.region) else RegionFallbackNote(p.region))
      && w.notes[1] == (if HasKey(Terrains, p.terrain) then TerrainNote(p.terrain) else TerrainFallbackNote(p.terrain))
      && (CorrelationNote(w.nu) in w.notes <==> p.includePulsation)
      && (NoPulsationNote in w.notes <==> !p.includePulsation)
      && (TotalNote(w.totalLoad) in w.notes <==> p.elementArea > 0.0)
      && w.notes[|w.notes| - 1] == DirectionsNote
  {
    var w := CalculateWindLoad(p, pow).value;
    var early := EarlyNotes(p, EquivalentHeight(p), w.kZe, w.zeta, w.c, w.wm);
    var late := LateNotes(p.includePulsation, w.nu, w.wp, w.wNorm, w.wCalc, w.area, w.totalLoad);
    assert w.notes == early + late;
    assert w.area == LoadedArea(p.elementArea);
    NotesLayout(p, early, late, w.nu, w.area, w.totalLoad);
  }

  /** The layout of the notes, from the two halves they are written in. */
  lemma NotesLayout(p: WindLoadParams, early: seq<WindNote>, late: seq<WindNote>, nu: real, area: real, total: real)
    requires |early| == 7 && early[0] == RegionW0(p.region).1 && early[1] == TerrainChoice(p.terrain).1
    requires forall i :: 0 <= i < |early| ==>
      early[i] != NoPulsationNote && !early[i].CorrelationNote? && !early[i].TotalNote?
    requires CorrelationNote(nu) in late <==> p.includePulsation
    requires NoPulsationNote in late <==> !p.includePulsation
    requires TotalNote(total) in late <==> area > 0.0
    requires area == LoadedArea(p.elementArea)
    requires |late| >= 3 && late[|late| - 1] == DirectionsNote
    ensures var notes := early + late;
      && |notes| >= 10
      && notes[0] == (if HasKey(WindRegions, p.region) then RegionNote(p.region) else RegionFallbackNote(p.region))
      && notes[1] == (if HasKey(Terrains, p.terrain) then TerrainNote(p.terrain) else TerrainFallbackNote(p.terrain))
      && (CorrelationNote(nu) in notes <==> p.includePulsation)
      && (NoPulsationNote in notes <==> !p.includePulsation)
      && (TotalNote(total) in notes <==> p.elementArea > 0.0)
      && notes[|notes| - 1] == DirectionsNote
  {
    InTail(early, late, CorrelationNote(nu));
    InTail(early, late, NoPulsationNote);
    InTail(early, late, TotalNote(total));
  }

  lemma InTail(early: seq<WindNote>, late: seq<WindNote>, n: WindNote)
    requires n !in early
    ensures n in early + late <==> n in late
  {}

  // ---------------------------------------------------------------------
  // The four surfaces of a building
  // ---------------------------------------------------------------------

  /** One surface of the building run: its type, area and height. */
  datatype Surface = Surface(name: string, area: real, height: real)

  /** The parameters of one surface's calculation: the surface's area and
      height, the building's dimensions, and defaults otherwise. */
  function SurfaceParams(s: Surface, height: real, width: real, length: real,
                         region: string, terrain: string): (p: WindLoadParams)
    ensures p.elementHeight == s.height && p.elementArea == s.area && p.surfaceType == s.name
    ensures p.buildingHeight == height && p.buildingWidth == width && p.buildingLength == length
    ensures p.region == region && p.terrain == terrain
    ensures p.includePulsation && p.customAero.None?
  {
    DefaultWindParams.(
      elementId := "surface_" + s.name,
      elementName := Some("Поверхность: " + s.name),
      elementHeight := s.height,
      elementArea := s.area,
      region := region,
      terrain := terrain,
      buildingHeight := height,
      buildingWidth := width,
      buildingLength := length,
      surfaceType := s.name)
  }

  /** A building whose correlation divides by zero: positive width and
      height with W + L = -12.5 H. */
  predicate BuildingCorrelationFails(height: real, width: real, length: real) {
    width > 0.0 && height > 0.0
    && CorrelationDenominator(width / (10.0 * height), length / (10.0 * height)) == 0.0
  }

  /** The calculation of one surface of the building run. It fails
      exactly when the building's correlation divides by zero: every
      surface carries the building's width, height and length, with
      pulsation on. */
  function SurfaceLoad(s: Surface, height: real, width: real, length: real, region: string, terrain: string,
                       pow: Pow): (r: Result<WindLoadResult, WindError>)
    ensures r.Failure? <==> BuildingCorrelationFails(height, width, length)
  {
    SurfaceFailure(s, height, width, length, region, terrain, pow);
    CalculateWindLoad(SurfaceParams(s, height, width, length, region, terrain), pow)
  }

  lemma SurfaceFailure(s: Surface, height: real, width: real, length: real, region: string, terrain: string, pow: Pow)
    ensures CalculateWindLoad(SurfaceParams(s, height, width, length, region, terrain), pow).Failure? <==>
      BuildingCorrelationFails(height, width, length)
  {
    var p := SurfaceParams(s, height, width, length, region, terrain);
    assert RecomputesNu(p) <==> width > 0.0 && height > 0.0;
    if RecomputesNu(p) {
      assert Rho(p) == width / (10.0 * height) && Chi(p) == length / (10.0 * height);
    }
  }

  /** The loop of `calculate_wind_for_building` over its four surfaces,
      with `load` the calculation of one surface: each result is stored
      under its surface type (the dictionary is kept as its entries in
      insertion order), and the first failure propagates. */
  function RunSurfaces(a: Surface, b: Surface, c: Surface, d: Surface,
                       load: Surface -> Result<WindLoadResult, WindError>): (r: Result<seq<Entry<WindLoadResult>>, WindError>)
    ensures r.Failure? <==> load(a).Failure? || load(b).Failure? || load(c).Failure? || load(d).Failure?
    ensures r.Success? ==>
      r.value == [Entry(a.name, load(a).value), Entry(b.name, load(b).value),
                  Entry(c.name, load(c).value), Entry(d.name, load(d).value)]
  {
    match load(a)
    case Failure(e) => Failure(e)
    case Success(wa) =>
      match load(b)
      case Failure(e) => Failure(e)
      case Success(wb) =>
        match load(c)
        case Failure(e) => Failure(e)
        case Success(wc) =>
          match load(d)
          case Failure(e) => Failure(e)
          case Success(wd) => Success([Entry(a.name, wa), Entry(b.name, wb), Entry(c.name, wc), Entry(d.name, wd)])
  }

  /** `calculate_wind_for_building`. Since every surface has the building's
      dimensions, the surfaces fail together, exactly when the building's
      correlation divides by zero. Otherwise the result holds, in order, the
      long walls W x H and the side wall L x H at half the building height
      and the flat roof W x L at the full height. */
  function WindForBuilding(height: real, width: real, length: real, region: string, terrain: string,
                           pow: Pow): (r: Result<seq<Entry<WindLoadResult>>, WindError>)
    ensures r.Failure? <==> BuildingCorrelationFails(height, width, length)
    ensures r.Success? ==>
      r.value == [Entry("windward", SurfaceLoad(Surface("windward", width * height, height / 2.0), height, width, length, region, terrain, pow).value),
                  Entry("leeward", SurfaceLoad(Surface("leeward", width * height, height / 2.0), height, width, length, region, terrain, pow).value),
                  Entry("side", SurfaceLoad(Surface("side", length * height, height / 2.0), height, width, length, region, terrain, pow).value),
                  Entry("roof_flat", SurfaceLoad(Surface("roof_flat", width * length, height), height, width, length, region, terrain, pow).value)]
  {
    var fails := BuildingCorrelationFails(height, width, length);
    var load := s => SurfaceLoad(s, height, width, length, region, terrain, pow);
    var windward := Surface("windward", width * height, height / 2.0);
    var leeward := Surface("leeward", width * height, height / 2.0);
    var side := Surface("side", length * height, height / 2.0);
    var roof := Surface("roof_flat", width * length, height);
    assert load(windward).Failure? <==> fails;
    assert load(leeward).Failure? <==> fails;
    assert load(side).Failure? <==> fails;
    assert load(roof).Failure? <==> fails;
    RunSurfaces(windward, leeward, side, roof, load)
  }

  // ---------------------------------------------------------------------
  // Extraction from an element record
  // ---------------------------------------------------------------------

  const WallQuantities: string := "Qto_WallBaseQuantities"

  /** The element height read from the placement: z in millimetres over
      1000, always (no magnitude check as in the self-weight extractor).
      A missing `xyz` stands for [0, 0, 0]; a shorter list leaves 0. */
  function PlacementHeight(xyz: Option<seq<real>>): (h: real)
    ensures xyz.Some? && |xyz.value| >= 3 ==> h == xyz.value[2] / 1000.0
    ensures xyz.None? || |xyz.value| < 3 ==> h == 0.0
  {
    match xyz
    case None => 0.0 / 1000.0
    case Some(v) => if |v| >= 3 then v[2] / 1000.0 else 0.0
  }

  /** The placement height in metres gives back the z coordinate in
      millimetres. */
  lemma PlacementMillimetres(xyz: Option<seq<real>>)
    ensures xyz.Some? && |xyz.value| >= 3 ==> PlacementHeight(xyz) * 1000.0 == xyz.value[2]
    ensures xyz.None? || |xyz.value| < 3 ==> PlacementHeight(xyz) == 0.0
  {
  }

  /** The wall's `GrossSideArea`, or 0. */
  function WallArea(psets: PropertySets): real {
    var qto := PropertySet(psets, WallQuantities);
    if "GrossSideArea" in qto then qto["GrossSideArea"] else 0.0
  }

  /** The element width: `section_approx.b` over 1000 when the section is
      not empty, else the default 0 -- which is the same as reading a
      missing `b` as 0. */
  function SectionWidth(section: map<string, real>): (w: real)
    ensures w == GetOr(section, "b", 0.0) / 1000.0
  {
    if |section| > 0 then GetOr(section, "b", 0.0) / 1000.0 else 0.0
  }

  /** The errors of the extractor as written. */
  datatype ExtractError = NoneHasNoGet

  /** `extract_wind_params_from_ifc_element` as written: it reads the
      placement with `element.get("placement", {})` and then calls `.get` on
      it, so a record whose placement is JSON `null` -- which the extractor
      writes when it cannot read a placement -- raises. */
  function ExtractWindParamsAsWritten(e: ElementRecord): (r: Result<WindLoadParams, ExtractError>)
    ensures r.Failure? <==> e.placement.NullPlacement?
  {
    match e.placement
    case NullPlacement => Failure(NoneHasNoGet)
    case NoPlacement =>
      Success(DefaultWindParams.(elementId := e.globalId, elementName := e.name,
                                 elementHeight := PlacementHeight(None),
                                 elementWidth := SectionWidth(e.section),
                                 elementArea := WallArea(e.psets)))
    case PlacementDict(xyz) =>
      Success(DefaultWindParams.(elementId := e.globalId, elementName := e.name,
                                 elementHeight := PlacementHeight(xyz),
                                 elementWidth := SectionWidth(e.section),
                                 elementArea := WallArea(e.psets)))
  }

  /** The record the extractor writes for an element without a readable
      placement. */
  const UnplacedWall: ElementRecord :=
    ElementRecord("wall-1", Some("Wall"), "IfcWall", [], map[WallQuantities := map["GrossSideArea" := 12.0]],
                  map[], NullPlacement)

  /** The extractor as written rejects that record. */
  lemma UnplacedWallRejected()
    ensures ExtractWindParamsAsWritten(UnplacedWall) == Failure(NoneHasNoGet)
  {}

  /** The extractor as evidently intended: a `null` placement is read like
      a missing one, so the element height is 0 and the building height is
      used. Only the identity, height, width and area come from the record;
      everything else keeps its default. */
  function ExtractWindParams(e: ElementRecord): (p: WindLoadParams)
    ensures p.elementId == e.globalId && p.elementName == e.name
    ensures e.placement.PlacementDict? ==> p.elementHeight == PlacementHeight(e.placement.xyz)
    ensures !e.placement.PlacementDict? ==> p.elementHeight == 0.0
    ensures p.elementWidth == GetOr(e.section, "b", 0.0) / 1000.0
    ensures p.elementArea == GetOr(PropertySet(e.psets, WallQuantities), "GrossSideArea", 0.0)
    ensures p.(elementId := "", elementName := Some(""), elementHeight := 0.0, elementWidth := 0.0, elementArea := 0.0)
            == DefaultWindParams
  {
    var xyz := if e.placement.PlacementDict? then e.placement.xyz else None;
    DefaultWindParams.(elementId := e.globalId, elementName := e.name,
                       elementHeight := PlacementHeight(xyz),
                       elementWidth := SectionWidth(e.section),
                       elementArea := WallArea(e.psets))
  }

  /** The two extractors agree on every record the written one accepts, and
      the intended one also reads the record the written one rejects. */
  lemma ExtractorsAgree(e: ElementRecord)
    ensures ExtractWindParamsAsWritten(e).Success? ==> ExtractWindParamsAsWritten(e).value == ExtractWindParams(e)
    ensures ExtractWindParams(UnplacedWall).elementArea == 12.0 && ExtractWindParams(UnplacedWall).elementHeight == 0.0
  {}
}

=== FILE: wrappers.dfy ===
/** Optional values and error results, used where the source returns `None`
    or raises an exception. */
module Wrappers {

  /** A value that may be absent (Python's `Optional[T]`). */
  datatype Option<+T> = None | Some(value: T) {

    /** The wrapped value, or `default` when there is none. */
    function GetOr(default: T): T {
      match this
      case Some(v) => v
      case None => default
    }
  }

  /** Either a computed value or the error the source would raise. */
  datatype Result<+R, +E> = Success(value: R) | Failure(error: E)
}
